=== FILE: README.md ===
# ECGView grid engine and data series in Dafny

A model of the two classes of the ECGView Android library that hold its logic.

- `Graph` is the axis-bounds and grid-layout engine. It snaps bounds to a grid interval, places the y bounds by a line gravity, and derives grid counts and cell sizes from the view size. It gates drawing on a pending layout, and it draws the grid lines and labels in two index loops.
- `DataSeries` is a sample buffer with a one-way STATIC/DYNAMIC mode. Its `draw` loop walks the samples, maps them to pixels and clips every segment to the graph rectangle. In DYNAMIC mode with auto-delete on, it drops the samples that have scrolled off the left.

Both classes coalesce redraw requests through an `invalidateRequired` flag.

Doubles are exact `real`s. Java's truncating `%` on doubles is written out as `t - m * trunc(t / m)` (`GridMath.JMod`). The integer and double "unset" markers (`Integer.MIN_VALUE`, `Double.NaN`) become `Option` values. The host view's `postInvalidate` and `requestLayout` are counted in `invalidatePosts` and `layoutRequests`. Its data range (`getDataXMax` and friends) is a `DataRange` parameter. Text measurement is a `Measure` function parameter.

Modules, in dependency order:

| module | file | models |
|---|---|---|
| `Options` | options.dfy | the `Option` type |
| `GridMath` | grid_math.dfy | `round`/`ceil`/`floor`, Java's `%`, the `(int)` casts, the unset marker |
| `GraphModel` | graph_model.dfy | the fields of `Graph` as a `GraphState` value, the getters, the enum codes, and every setter as a function of the state |
| `GraphBounds` | graph_bounds.dfy | `checkBounds`, `calculateXBounds`, `calculateYBounds` |
| `GraphLayout` | graph_layout.dfy | `generateX/YGrids`, `resizeGridWidth/Height`, `resizeGraph`, `layout` |
| `GridMarks` | grid_marks.dfy | `drawHorizontal`/`drawVertical` as the sequence of marks they draw, with the loop as a method |
| `GraphView` | graph.dfy | class `Graph`: the fields updated in place by methods, each proved to have the effect of its specification function; the draw gate |
| `SeriesClip` | series_clip.dfy | the walk order, the pixel mapping and the clipping of `DataSeries.draw` |
| `Series` | series.dfy | class `DataSeries`: the buffer, the mode guards, the min/max loops, and the draw loop as a method |

Every state-changing method of the two classes ensures that its fields afterwards equal a specification function of the fields before. For `Graph` the fields are `Snapshot()`; for `DataSeries` they are `State()`. The lemmas state the promised properties about those functions. Where the source has a defect (see "## Findings"), both versions are defined. The as-written version is shown to misbehave. The class methods use the corrected version:

- corrected `round`, `ceil` and `floor` (`GridMath.Round`/`Ceil`/`Floor`). They take the floored remainder against the interval's magnitude, so negative values and negative intervals (which `setGridXInterval`/`setGridYInterval` accept) snap to the grid;
- the corrected left-edge clip;
- the corrected `setXMax`;
- the corrected x grid generation in `layout`;

A few other oddities are modelled exactly as written:

- `layout` reserves the height after testing whether the *y* labels show (`GraphLayout.ReservedHeight`, ECGView/src/main/java/com/rainbowpuppeteer/ecgview/Graph.java:528).
- `generateYGrids(h, min, max)` takes its count from the unsnapped parameters (`GraphLayout.RegridY`, ECGView/src/main/java/com/rainbowpuppeteer/ecgview/Graph.java:481), but `layout` never reaches that line: it calls `generateYGrids(h)` only while the y count is unset, and the overload then returns at ECGView/src/main/java/com/rainbowpuppeteer/ecgview/Graph.java:470-473.
- Auto-delete keeps the `i - 1` newest samples (ECGView/src/main/java/com/rainbowpuppeteer/ecgview/DataSeries.java:282).
- The previous point is clamped at the bottom only when the current point is below it (ECGView/src/main/java/com/rainbowpuppeteer/ecgview/DataSeries.java:330).
- The vertical pass of `draw` tests its last large line against the x count, not the y count (ECGView/src/main/java/com/rainbowpuppeteer/ecgview/Graph.java:606). `GraphView.Graph.Draw` draws this pass as written (`GridMarks.VerticalPlanAsWritten`). The corrected pass `GridMarks.VerticalPlan` is defined only for the finding below. Its label values are snapped by the corrected `round`, like every other snap of the class.

## Model

| member | source | states |
|---|---|---|
| GridMath.Trunc | ECGView/src/main/java/com/rainbowpuppeteer/ecgview/Graph.java:442 | the `(int)` cast of a double: the floor for non-negative values, a value within one above it for negative ones (rounding toward zero) |
| GridMath.CountOf | ECGView/src/main/java/com/rainbowpuppeteer/ecgview/Graph.java:22 | an int count is unset exactly when it equals the `Integer.MIN_VALUE` marker, and otherwise holds the stored value |
| GridMath.RoundOpt | ECGView/src/main/java/com/rainbowpuppeteer/ecgview/Graph.java:1078-1093 | snapping an optional bound leaves it unset exactly when it was unset (a NaN bound stays NaN) |
| GridMath.JModNonNegative | ECGView/src/main/java/com/rainbowpuppeteer/ecgview/Graph.java:292-307 | for `t >= 0` Java's `%` equals the Euclidean remainder, so `ceil` and `floor` as written agree with the corrected ones |
| GridMath.JModNegative | ECGView/src/main/java/com/rainbowpuppeteer/ecgview/Graph.java:279 | for negative `t` Java's `%` lies in `(-m, 0]` |
| GridMath.EModRange | ECGView/src/main/java/com/rainbowpuppeteer/ecgview/Graph.java:292-307 | the Euclidean remainder used by the corrected helpers lies in `[0, m)` and is `t` less the floor multiple |
| GridMath.CeilBounds | ECGView/src/main/java/com/rainbowpuppeteer/ecgview/Graph.java:292-294 | `ceil(t, m)` is a multiple of `m` strictly above `t` and at most `t + m` |
| GridMath.CeilOfMultiple | ECGView/src/main/java/com/rainbowpuppeteer/ecgview/Graph.java:292-294 | on a multiple `k*m`, `ceil` returns the next multiple `(k+1)*m` |
| GridMath.CeilNotIdempotent | ECGView/src/main/java/com/rainbowpuppeteer/ecgview/Graph.java:292-294 | applying `ceil` twice moves one more step: it is not idempotent |
| GridMath.CeilShift | ECGView/src/main/java/com/rainbowpuppeteer/ecgview/Graph.java:292-294 | shifting the argument by whole grid steps shifts the result by the same steps |
| GridMath.FloorBounds | ECGView/src/main/java/com/rainbowpuppeteer/ecgview/Graph.java:302-307 | within the tolerance `b` below the next multiple `floor` returns its argument unchanged; otherwise it returns the multiple of `m` at or below `t`, less than one step below |
| GridMath.GridSpanOnGrid | ECGView/src/main/java/com/rainbowpuppeteer/ecgview/Graph.java:397 | a whole number of grid steps lies on the grid |
| GridMath.RoundToNearest | ECGView/src/main/java/com/rainbowpuppeteer/ecgview/Graph.java:278-284 | the corrected `round` returns a multiple of `m` at most half a step from its argument |
| GridMath.RoundAsWrittenOffGrid | ECGView/src/main/java/com/rainbowpuppeteer/ecgview/Graph.java:282 | `round` as written maps 0.7 to 1.4, which is off the grid; the corrected one gives 1.0 |
| GridMath.SnapAsWrittenNegative | ECGView/src/main/java/com/rainbowpuppeteer/ecgview/Graph.java:292-307 | for a negative value off the grid, `ceil` as written overshoots by one extra step and `floor` as written lands above its argument |
| GridMath.SnapAsWrittenNegativeExample | ECGView/src/main/java/com/rainbowpuppeteer/ecgview/Graph.java:278-307 | as written `ceil(-0.5,1)=1`, `floor(-0.5,1)=0`, `round(-0.7,1)=0`; corrected 0, -1 and -1 |
| GridMath.FloorDivBounds | ECGView/src/main/java/com/rainbowpuppeteer/ecgview/Graph.java:409 | `(int) Math.floor(a / b)` for `b > 0` is the largest `q` with `q*b <= a` |
| GridMath.CeilDivBounds | ECGView/src/main/java/com/rainbowpuppeteer/ecgview/Graph.java:789-790 | `(int) Math.ceil(n / d)` for `d > 0` is the least `q` with `n <= q*d` |
| GridMath.TruncDivTowardZero | ECGView/src/main/java/com/rainbowpuppeteer/ecgview/Graph.java:880-886 | `(int) (a / b)` for a positive divisor is the floored quotient of a non-negative dividend and the ceiled quotient of a negative one; division by zero saturates by the sign of the dividend in all three conversions |
| GridMath.RoundToNearestNegativeStep | ECGView/src/main/java/com/rainbowpuppeteer/ecgview/Graph.java:278-284 | for a negative interval the corrected `round` equals the round by the opposite interval, so it returns a multiple of the interval at most half a step away |
| GridMath.NegativeStepExample | ECGView/src/main/java/com/rainbowpuppeteer/ecgview/Graph.java:278-294 | with the interval -1, the model rounds 0.7 to 1 (the nearest multiple) where `round` as written gives 1.4, and ceils 0.5 to 1 where `ceil` as written gives -1 |
| GridMath.JMod | ECGView/src/main/java/com/rainbowpuppeteer/ecgview/Graph.java:279 | definition of Java's `%` on doubles, the truncating remainder; its range is stated by `JModNonNegative` and `JModNegative` |
| GridMath.EMod | ECGView/src/main/java/com/rainbowpuppeteer/ecgview/Graph.java:292-307 | definition of the floored remainder used by the corrected snaps; `EModRange` states it lies in `[0, m)` |
| GridMath.OnGrid | ECGView/src/main/java/com/rainbowpuppeteer/ecgview/Graph.java:278-307 | definition of "a whole multiple of the step", the property the snaps aim at; `CeilBounds`, `FloorBounds` and `RoundToNearest` state it of their results |
| GridMath.Step | ECGView/src/main/java/com/rainbowpuppeteer/ecgview/Graph.java:278-307 | definition of the step's magnitude, which the corrected snaps use so that a negative interval gives the same grid; `RoundToNearestNegativeStep` states the effect |
| GridMath.CeilAsWritten | ECGView/src/main/java/com/rainbowpuppeteer/ecgview/Graph.java:292-294 | definition of `ceil` as written; `JModNonNegative` states that it agrees with `Ceil` for non-negative values and `SnapAsWrittenNegative` that it overshoots by one step for negative values off the grid; `NegativeStepExample` shows it falling below its argument for a negative interval |
| GridMath.Ceil | ECGView/src/main/java/com/rainbowpuppeteer/ecgview/Graph.java:292-294 | definition of the corrected `ceil`; `CeilBounds` states it is the least multiple strictly above its argument, and `CeilOfMultiple`, `CeilNotIdempotent` and `CeilShift` state how it acts on multiples and shifts |
| GridMath.FloorAsWritten | ECGView/src/main/java/com/rainbowpuppeteer/ecgview/Graph.java:302-307 | definition of `floor` as written; `SnapAsWrittenNegative` states that for negative values off the grid it lands above its argument |
| GridMath.Floor | ECGView/src/main/java/com/rainbowpuppeteer/ecgview/Graph.java:302-307 | definition of the corrected `floor`; `FloorBounds` states it returns the multiple at or below its argument, or the argument itself within the tolerance below the next multiple |
| GridMath.RoundAsWritten | ECGView/src/main/java/com/rainbowpuppeteer/ecgview/Graph.java:278-284 | definition of `round` as written; `RoundAsWrittenOffGrid`, `SnapAsWrittenNegativeExample` and `NegativeStepExample` show it missing the grid |
| GridMath.Round | ECGView/src/main/java/com/rainbowpuppeteer/ecgview/Graph.java:278-284 | definition of the corrected `round`; `RoundToNearest` and `RoundToNearestNegativeStep` state it returns the nearest multiple of the interval |
| GridMath.ZeroQuotient | ECGView/src/main/java/com/rainbowpuppeteer/ecgview/Graph.java:409 | definition of the `(int)` cast of a quotient by zero: the saturated infinity, or 0 for NaN; `TruncDivTowardZero` states all three conversions share it |
| GridMath.FloorDiv | ECGView/src/main/java/com/rainbowpuppeteer/ecgview/Graph.java:409 | definition of `(int) Math.floor(a / b)`; `FloorDivBounds` states it is the largest `q` with `q*b <= a` |
| GridMath.CeilDiv | ECGView/src/main/java/com/rainbowpuppeteer/ecgview/Graph.java:789-790 | definition of `(int) Math.ceil(n / d)`; `CeilDivBounds` states it is the least `q` with `n <= q*d` |
| GridMath.TruncDiv | ECGView/src/main/java/com/rainbowpuppeteer/ecgview/Graph.java:880-886 | definition of `(int) (a / b)`; `TruncDivTowardZero` states it rounds toward zero |
| GridMath.Raw | ECGView/src/main/java/com/rainbowpuppeteer/ecgview/Graph.java:22 | definition of the int a count field holds: its value, or `Integer.MIN_VALUE` when unset |
| GridMath.GridSpan | ECGView/src/main/java/com/rainbowpuppeteer/ecgview/Graph.java:333 | definition of `gridInterval * gridNumbers`; `GridSpanOnGrid` states it lies on the grid |
| SeriesClip.Walk | ECGView/src/main/java/com/rainbowpuppeteer/ecgview/DataSeries.java:251-267 | the draw loop visits one pixel position per stored sample |
| SeriesClip.DynamicXStep | ECGView/src/main/java/com/rainbowpuppeteer/ecgview/DataSeries.java:258-260 | in DYNAMIC mode each iteration subtracts the x delta of the next newer sample |
| SeriesClip.DynamicXDecreasing | ECGView/src/main/java/com/rainbowpuppeteer/ecgview/DataSeries.java:258-260 | with non-negative deltas the x values never increase along the walk |
| SeriesClip.DynamicNewestAtRight | ECGView/src/main/java/com/rainbowpuppeteer/ecgview/DataSeries.java:247-267 | with `graphXMin` forced to `-(xMax - xMin)` the newest sample maps to pixel x `right` |
| SeriesClip.DynamicExample | ECGView/src/main/java/com/rainbowpuppeteer/ecgview/DataSeries.java:258-260 | deltas 0, 0.02, 0.02 give the x values 0, -0.02 and -0.04, newest first |
| SeriesClip.StaticPixel | ECGView/src/main/java/com/rainbowpuppeteer/ecgview/DataSeries.java:266-267 | for every viewport, the STATIC pixel mapping sends `xMin` to `left`, `xMax` to `right`, `yMin` to `bottom` and `yMax` to `top`, with pixel offsets proportional to value offsets |
| SeriesClip.StaticPixelInside | ECGView/src/main/java/com/rainbowpuppeteer/ecgview/DataSeries.java:266-267 | for every viewport, a value inside the value range is mapped inside the pixel rectangle |
| SeriesClip.StaticWalkAt | ECGView/src/main/java/com/rainbowpuppeteer/ecgview/DataSeries.java:251-267 | for every viewport, STATIC iteration `i` draws sample `i` (not the `i`-th newest) at its affine image, inside the rectangle when the sample is inside the value range |
| SeriesClip.StaticExampleWalk | ECGView/src/main/java/com/rainbowpuppeteer/ecgview/DataSeries.java:251-267 | example only: over the range [0,2] x [0,1] in the rectangle (0,0)-(100,100), sample (x, y) is drawn at (50x, 100 - 100y) |
| SeriesClip.PixelX | ECGView/src/main/java/com/rainbowpuppeteer/ecgview/DataSeries.java:247-267 | definition of the x pixel map, with the DYNAMIC left end forced to `-(xMax - xMin)`; its meaning is stated by `StaticPixel` and `DynamicNewestAtRight` |
| SeriesClip.PixelY | ECGView/src/main/java/com/rainbowpuppeteer/ecgview/DataSeries.java:268 | definition of the flipped y pixel map; its meaning is stated by `StaticPixel` and `StaticPixelInside` |
| SeriesClip.XValue | ECGView/src/main/java/com/rainbowpuppeteer/ecgview/DataSeries.java:259-264 | definition of the loop's running x value; its update and order are stated by `DynamicXStep` and `DynamicXDecreasing` |
| SeriesClip.LeftEdgeYAsWritten | ECGView/src/main/java/com/rainbowpuppeteer/ecgview/DataSeries.java:286-288 | definition of the left-edge crossing as written; `LeftEdgeYAsWrittenOffSegment` shows it leaves the segment |
| SeriesClip.LeftEdgeY | ECGView/src/main/java/com/rainbowpuppeteer/ecgview/DataSeries.java:286-288 | definition of the corrected left-edge crossing; `LeftEdgeYOnSegment` states it lies on the segment |
| SeriesClip.RightEdgeY | ECGView/src/main/java/com/rainbowpuppeteer/ecgview/DataSeries.java:294-296 | definition of the right-edge crossing; `RightEdgeYBetween` states it stays between the two y values |
| SeriesClip.ClampCurrentX | ECGView/src/main/java/com/rainbowpuppeteer/ecgview/DataSeries.java:277-298 | definition of the side-edge tests on the current point; `ClampCurrentXBetween` and `ClipSkipsSameSide` state their effect |
| SeriesClip.ClampCurrentY | ECGView/src/main/java/com/rainbowpuppeteer/ecgview/DataSeries.java:300-316 | definition of the top and bottom tests on the current point; `ClipEndsWithinRows` states their effect |
| SeriesClip.ClampPrevious | ECGView/src/main/java/com/rainbowpuppeteer/ecgview/DataSeries.java:319-334 | definition of the clamping of the previous point, with the bottom test on the current y; `ClipKeepsPreviousBelowBottom` shows its effect |
| SeriesClip.Clip | ECGView/src/main/java/com/rainbowpuppeteer/ecgview/DataSeries.java:270-336 | definition of the segment drawn for one pair; `ClipSkipsSameSide` and `ClipEndsWithinRows` state what is drawn |
| SeriesClip.Segments | ECGView/src/main/java/com/rainbowpuppeteer/ecgview/DataSeries.java:251-341 | definition of the segments of a walk; `SegmentsAtMostPairs` and `SegmentsEndWithinRows` bound them |
| SeriesClip.StopIndex | ECGView/src/main/java/com/rainbowpuppeteer/ecgview/DataSeries.java:277-284 | the auto-delete stop lies between the starting iteration and the end of the walk |
| SeriesClip.StopIndexIsFirst | ECGView/src/main/java/com/rainbowpuppeteer/ecgview/DataSeries.java:277-284 | the stop is the first iteration whose point and previous point are both left of the rectangle, or the end |
| SeriesClip.StopIndexUnique | ECGView/src/main/java/com/rainbowpuppeteer/ecgview/DataSeries.java:277-284 | any iteration with no hidden pair before it and a hidden pair at it is the stop |
| SeriesClip.TruncationKeepsNewestPositions | ECGView/src/main/java/com/rainbowpuppeteer/ecgview/DataSeries.java:282 | keeping the `k` newest samples keeps their pixel positions |
| SeriesClip.LeftEdgeYOnSegment | ECGView/src/main/java/com/rainbowpuppeteer/ecgview/DataSeries.java:285-288 | the corrected left-edge clip point lies on the segment between the two points |
| SeriesClip.LeftEdgeYAsWrittenOffSegment | ECGView/src/main/java/com/rainbowpuppeteer/ecgview/DataSeries.java:286-288 | as written, the left-edge clip of (10,10)-(-10,0) at x 0 gives y 15, off the segment; the corrected clip gives 5 |
| SeriesClip.RightEdgeYBetween | ECGView/src/main/java/com/rainbowpuppeteer/ecgview/DataSeries.java:290-297 | the right-edge clip point lies between the y values of the two points |
| SeriesClip.ClampCurrentXBetween | ECGView/src/main/java/com/rainbowpuppeteer/ecgview/DataSeries.java:277-297 | clamping the current point to the side edges keeps its y between the two points |
| SeriesClip.ClipSkipsSameSide | ECGView/src/main/java/com/rainbowpuppeteer/ecgview/DataSeries.java:277-316 | no segment is drawn when both points lie beyond the same edge |
| SeriesClip.ClipEndsWithinRows | ECGView/src/main/java/com/rainbowpuppeteer/ecgview/DataSeries.java:300-316 | a drawn segment ends between `top` and `bottom` |
| SeriesClip.ClipKeepsPreviousBelowBottom | ECGView/src/main/java/com/rainbowpuppeteer/ecgview/DataSeries.java:326-334 | the previous point below `bottom` is not clamped when the current point is inside, because the test reads the current y |
| SeriesClip.SegmentsAtMostPairs | ECGView/src/main/java/com/rainbowpuppeteer/ecgview/DataSeries.java:251-341 | a walk of `k` iterations draws at most `k - 1` segments |
| SeriesClip.SegmentsEndWithinRows | ECGView/src/main/java/com/rainbowpuppeteer/ecgview/DataSeries.java:300-335 | every drawn segment ends between `top` and `bottom` |
| SeriesClip.StaticExampleSegments | ECGView/src/main/java/com/rainbowpuppeteer/ecgview/DataSeries.java:251-341 | a three-sample STATIC walk inside the rectangle draws exactly its two segments |
| SeriesClip.NoHiddenPairGrows | ECGView/src/main/java/com/rainbowpuppeteer/ecgview/DataSeries.java:277-284 | a pair that is not hidden extends a stretch without hidden pairs by one |
| SeriesClip.NonDegenerate | ECGView/src/main/java/com/rainbowpuppeteer/ecgview/DataSeries.java:240-241 | definition of the value ranges the pixel mapping can divide by |
| SeriesClip.Ratio | ECGView/src/main/java/com/rainbowpuppeteer/ecgview/DataSeries.java:286-296 | definition of an interpolation quotient; `RightEdgeYBetween` and `LeftEdgeYOnSegment` state its use |
| SeriesClip.SumX | ECGView/src/main/java/com/rainbowpuppeteer/ecgview/DataSeries.java:259-261 | definition of the summed deltas; `DynamicXStep` and `Series.SumXAppend` state it |
| SeriesClip.YValue | ECGView/src/main/java/com/rainbowpuppeteer/ecgview/DataSeries.java:253-258 | definition of the y value of iteration `i`, newest first in DYNAMIC mode; `DynamicNewestAtRight` and `Series.AppendShiftsOlderSamples` state it |
| SeriesClip.EffectiveXMin | ECGView/src/main/java/com/rainbowpuppeteer/ecgview/DataSeries.java:247-249 | definition of the x range's left end, forced to `-(xMax - xMin)` in DYNAMIC mode; `DynamicNewestAtRight` states the effect |
| SeriesClip.BothLeft | ECGView/src/main/java/com/rainbowpuppeteer/ecgview/DataSeries.java:277-279 | definition of a hidden pair; `StopIndexIsFirst` states it |
| SeriesClip.NoHiddenPair | ECGView/src/main/java/com/rainbowpuppeteer/ecgview/DataSeries.java:277-284 | definition of a stretch without hidden pairs; `StopIndexUnique` and `NoHiddenPairGrows` state it |
| Series.DrawStop | ECGView/src/main/java/com/rainbowpuppeteer/ecgview/DataSeries.java:277-284 | the loop stops at an iteration between 1 and the number of samples |
| Series.Kept | ECGView/src/main/java/com/rainbowpuppeteer/ecgview/DataSeries.java:282 | a draw that stopped early at `stop` keeps `stop - 1` samples |
| Series.InvalidationsPostAtMostOnce | ECGView/src/main/java/com/rainbowpuppeteer/ecgview/DataSeries.java:348-353 | any number of invalidations posts at most one request, none if one is pending, and leaves one pending; the samples are untouched |
| Series.DrawRearmsInvalidate | ECGView/src/main/java/com/rainbowpuppeteer/ecgview/DataSeries.java:342-353 | after a draw over samples the next invalidation posts again |
| Series.ModeGuards | ECGView/src/main/java/com/rainbowpuppeteer/ecgview/DataSeries.java:394-441 | appending changes nothing exactly outside DYNAMIC mode and adds the point at the end inside it; replacing is refused outside STATIC mode and stores the given points in order inside it |
| Series.ModeChangeEmpties | ECGView/src/main/java/com/rainbowpuppeteer/ecgview/DataSeries.java:362-368 | any mode change, even to an unknown code, empties the buffer |
| Series.SumXAppend | ECGView/src/main/java/com/rainbowpuppeteer/ecgview/DataSeries.java:258-260 | the summed deltas of a buffer with one more sample grow by its delta |
| Series.AppendShiftsOlderSamples | ECGView/src/main/java/com/rainbowpuppeteer/ecgview/DataSeries.java:413-421 | after an append every older sample moves one delta to the left and keeps its y |
| Series.AppendedDrawnAtRight | ECGView/src/main/java/com/rainbowpuppeteer/ecgview/DataSeries.java:413-421 | an appended sample is drawn first, at the right edge |
| Series.LastXAfterAppend | ECGView/src/main/java/com/rainbowpuppeteer/ecgview/DataSeries.java:432-441 | after appending `(y, dTime)`, `getXMax` returns `dTime` |
| Series.DrawKeepsVisiblePrefix | ECGView/src/main/java/com/rainbowpuppeteer/ecgview/DataSeries.java:277-284 | after an auto-delete the remaining samples are those drawn before the stop, at unchanged positions; without auto-delete the samples are untouched |
| Series.DrawOnlyDeletesWhenAsked | ECGView/src/main/java/com/rainbowpuppeteer/ecgview/DataSeries.java:231-343 | a draw over no samples emits nothing and changes nothing; a draw outside DYNAMIC auto-delete keeps the samples; a draw changes nothing but the samples and the pending flag |
| Series.DrawStopsAtFirstHiddenPair | ECGView/src/main/java/com/rainbowpuppeteer/ecgview/DataSeries.java:277-284 | auto-delete fires at the first pair of points both left of the rectangle and never before |
| Series.SeriesSettersEffect | ECGView/src/main/java/com/rainbowpuppeteer/ecgview/DataSeries.java:445-456 | `setLineColor`/`setLineSize` store their value and change nothing else but the redraw they post with auto-invalidate; `clear` empties the buffer and changes nothing else |
| Series.AfterInvalidate | ECGView/src/main/java/com/rainbowpuppeteer/ecgview/DataSeries.java:348-353 | definition of `invalidate`; `InvalidationsPostAtMostOnce` states it |
| Series.InvalidateWhen | ECGView/src/main/java/com/rainbowpuppeteer/ecgview/DataSeries.java:348-353 | definition of a conditional `invalidate`; `SeriesSettersEffect` and `ModeGuards` use it |
| Series.Invalidations | ECGView/src/main/java/com/rainbowpuppeteer/ecgview/DataSeries.java:348-353 | definition of repeated invalidations; `InvalidationsPostAtMostOnce` states it |
| Series.WithGraphType | ECGView/src/main/java/com/rainbowpuppeteer/ecgview/DataSeries.java:362-368 | definition of `setGraphType`; `ModeChangeEmpties` states it |
| Series.Cleared | ECGView/src/main/java/com/rainbowpuppeteer/ecgview/DataSeries.java:373-375 | definition of `clear`; `SeriesSettersEffect` states it |
| Series.WithDataPoints | ECGView/src/main/java/com/rainbowpuppeteer/ecgview/DataSeries.java:394-403 | definition of `setDataPoints`; `ModeGuards` states it |
| Series.WithAppended | ECGView/src/main/java/com/rainbowpuppeteer/ecgview/DataSeries.java:413-421 | definition of `appendDataPoint`; `ModeGuards` and `AppendShiftsOlderSamples` state it |
| Series.WithLineColor | ECGView/src/main/java/com/rainbowpuppeteer/ecgview/DataSeries.java:445-449 | definition of `setLineColor`; `SeriesSettersEffect` states it |
| Series.WithLineSize | ECGView/src/main/java/com/rainbowpuppeteer/ecgview/DataSeries.java:452-456 | definition of `setLineSize`; `SeriesSettersEffect` states it |
| Series.LastX | ECGView/src/main/java/com/rainbowpuppeteer/ecgview/DataSeries.java:484-490 | definition of `getXMax`; `LastXAfterAppend` states it |
| Series.FirstX | ECGView/src/main/java/com/rainbowpuppeteer/ecgview/DataSeries.java:492-498 | definition of `getXMin`; `DataSeries.GetXMin` returns it |
| Series.View | ECGView/src/main/java/com/rainbowpuppeteer/ecgview/DataSeries.java:231-232 | definition of the rectangle and value range of one draw call |
| Series.Dynamic | ECGView/src/main/java/com/rainbowpuppeteer/ecgview/DataSeries.java:247 | definition of the DYNAMIC test of the draw loop |
| Series.StopOf | ECGView/src/main/java/com/rainbowpuppeteer/ecgview/DataSeries.java:277-284 | definition of where a draw stops; `DrawStopsAtFirstHiddenPair` states it |
| Series.DrawnSegments | ECGView/src/main/java/com/rainbowpuppeteer/ecgview/DataSeries.java:231-343 | definition of the segments of a draw; `DataSeries.Draw` and `DrawOnlyDeletesWhenAsked` state it |
| Series.AfterDraw | ECGView/src/main/java/com/rainbowpuppeteer/ecgview/DataSeries.java:231-343 | definition of the state after a draw; `DrawKeepsVisiblePrefix`, `DrawOnlyDeletesWhenAsked` and `DrawRearmsInvalidate` state it |
| Series.NextPosition | ECGView/src/main/java/com/rainbowpuppeteer/ecgview/DataSeries.java:251-267 | one loop step: the running x value and the pixel position of iteration `i` |
| Series.DrawPass | ECGView/src/main/java/com/rainbowpuppeteer/ecgview/DataSeries.java:251-341 | the draw loop returns the walk's segments up to the stop and the stop the auto-delete rule picks |
| Series.DataSeries.constructor | ECGView/src/main/java/com/rainbowpuppeteer/ecgview/DataSeries.java:199-208 | a new series is empty, DYNAMIC, auto-invalidating, auto-deleting, with a redraw pending |
| Series.DataSeries.Invalidate | ECGView/src/main/java/com/rainbowpuppeteer/ecgview/DataSeries.java:348-353 | posts a redraw request only when none is pending, then marks one pending |
| Series.DataSeries.SetGraphType | ECGView/src/main/java/com/rainbowpuppeteer/ecgview/DataSeries.java:362-368 | stores any mode code and empties the buffer |
| Series.DataSeries.Clear | ECGView/src/main/java/com/rainbowpuppeteer/ecgview/DataSeries.java:373-375 | empties the buffer and changes nothing else |
| Series.DataSeries.SetDataPoints | ECGView/src/main/java/com/rainbowpuppeteer/ecgview/DataSeries.java:394-403 | in STATIC mode the buffer becomes the given points and a redraw is requested when asked or automatic; otherwise nothing changes |
| Series.DataSeries.AppendDataPoint | ECGView/src/main/java/com/rainbowpuppeteer/ecgview/DataSeries.java:413-421 | in DYNAMIC mode the point is added at the end and a redraw requested when asked or automatic; otherwise nothing changes |
| Series.DataSeries.AppendDataValue | ECGView/src/main/java/com/rainbowpuppeteer/ecgview/DataSeries.java:432-441 | as `AppendDataPoint` with the point `(dTime, y)` |
| Series.DataSeries.SetLineColor | ECGView/src/main/java/com/rainbowpuppeteer/ecgview/DataSeries.java:445-449 | stores the colour and requests a redraw if automatic |
| Series.DataSeries.SetLineSize | ECGView/src/main/java/com/rainbowpuppeteer/ecgview/DataSeries.java:452-456 | stores the line size and requests a redraw if automatic |
| Series.DataSeries.SetAutoInvalidate | ECGView/src/main/java/com/rainbowpuppeteer/ecgview/DataSeries.java:500-502 | sets the auto-invalidate switch only |
| Series.DataSeries.SetAutoDeleteOutBoundsPoints | ECGView/src/main/java/com/rainbowpuppeteer/ecgview/DataSeries.java:504-506 | sets the auto-delete switch only |
| Series.DataSeries.GetYMax | ECGView/src/main/java/com/rainbowpuppeteer/ecgview/DataSeries.java:458-469 | 0 for an empty buffer; otherwise a stored y that bounds every stored y from above |
| Series.DataSeries.GetYMin | ECGView/src/main/java/com/rainbowpuppeteer/ecgview/DataSeries.java:471-482 | 0 for an empty buffer; otherwise a stored y that bounds every stored y from below |
| Series.DataSeries.GetXMax | ECGView/src/main/java/com/rainbowpuppeteer/ecgview/DataSeries.java:484-490 | the x of the newest sample, 0 when empty |
| Series.DataSeries.GetXMin | ECGView/src/main/java/com/rainbowpuppeteer/ecgview/DataSeries.java:492-498 | the x of the oldest sample, 0 when empty |
| Series.DataSeries.Draw | ECGView/src/main/java/com/rainbowpuppeteer/ecgview/DataSeries.java:231-343 | returns the segments of the walk up to the stop; afterwards the buffer holds the kept samples and no redraw is pending (nothing changes when empty) |
| GraphModel.XLabelPositionFromId | ECGView/src/main/java/com/rainbowpuppeteer/ecgview/Graph.java:717-725 | code 1 selects BOTTOM, code 2 selects TOP, every other code NONE |
| GraphModel.YLabelPositionFromId | ECGView/src/main/java/com/rainbowpuppeteer/ecgview/Graph.java:738-746 | codes 1 and 2 select LEFT and RIGHT, every other code NONE |
| GraphModel.LineGravityFromId | ECGView/src/main/java/com/rainbowpuppeteer/ecgview/Graph.java:759-767 | codes 0 and 2 select TOP and BOTTOM, every other code CENTER |
| GraphModel.EnumCodesRoundTrip | ECGView/src/main/java/com/rainbowpuppeteer/ecgview/Graph.java:707-767 | decoding the code of every enum value gives the value back |
| GraphModel.LabelWidthCalculated | ECGView/src/main/java/com/rainbowpuppeteer/ecgview/Graph.java:249-268 | the label width is the largest of twice the text size and the measured widths of the two y-bound labels |
| GraphModel.LabelHeightCalculated | ECGView/src/main/java/com/rainbowpuppeteer/ecgview/Graph.java:214-234 | the label height is the largest of the text size and the measured heights of the two x-bound labels |
| GraphModel.WidthAroundGraph | ECGView/src/main/java/com/rainbowpuppeteer/ecgview/Graph.java:114-123 | the measured width is the grid's left offset, the grid, the right padding, the label padding when y labels show, and the label width when they are on the right; a missing label width is computed first |
| GraphModel.HeightAroundGraph | ECGView/src/main/java/com/rainbowpuppeteer/ecgview/Graph.java:131-140 | the measured height is the grid's top offset, the grid, the bottom padding, the label padding when x labels show, and the label height when they are at the bottom |
| GraphModel.LargeGridsCoverGrids | ECGView/src/main/java/com/rainbowpuppeteer/ecgview/Graph.java:789-790 | the large-grid counts are the least numbers of large grids covering the grid counts |
| GraphModel.InvalidateWhenPostsOnce | ECGView/src/main/java/com/rainbowpuppeteer/ecgview/Graph.java:630-635 | an invalidation posts exactly when it applies and none is pending, leaves one pending, and changes nothing else |
| GraphModel.WithYLabelPosition | ECGView/src/main/java/com/rainbowpuppeteer/ecgview/Graph.java:951-961 | after the call the y labels are at the requested position |
| GraphModel.WithXLabelPosition | ECGView/src/main/java/com/rainbowpuppeteer/ecgview/Graph.java:962-972 | after the call the x labels are at the requested position |
| GraphModel.YLabelPositionIdempotent | ECGView/src/main/java/com/rainbowpuppeteer/ecgview/Graph.java:951-961 | setting the same y-label position twice is the same as setting it once |
| GraphModel.XLabelPositionIdempotent | ECGView/src/main/java/com/rainbowpuppeteer/ecgview/Graph.java:962-972 | setting the same x-label position twice is the same as setting it once |
| GraphModel.ShowYLabelVisible | ECGView/src/main/java/com/rainbowpuppeteer/ecgview/Graph.java:937-942 | the y labels are visible after `showYLabel(b)` exactly when `b`; showing them recomputes the label width |
| GraphModel.ShowXLabelVisible | ECGView/src/main/java/com/rainbowpuppeteer/ecgview/Graph.java:944-949 | the x labels are visible after `showXLabel(b)` exactly when `b`; showing them recomputes the label height |
| GraphModel.SetXBoundKeepsSpan | ECGView/src/main/java/com/rainbowpuppeteer/ecgview/Graph.java:1014-1044 | `setXMax`/`setXMin` store the snapped value and switch auto bounds off; keeping a set count moves the other bound to keep the span; not keeping unsets the count |
| GraphModel.SetYBoundKeepsSpan | ECGView/src/main/java/com/rainbowpuppeteer/ecgview/Graph.java:1046-1076 | the same for `setYMax`/`setYMin` on the y axis |
| GraphModel.SetXMaxAsWrittenLosesBound | ECGView/src/main/java/com/rainbowpuppeteer/ecgview/Graph.java:1014-1028 | as written, `setXMax` with an unset count discards the bound it just stored; the corrected one keeps it and unsets `xMin`, as `setYMax` does |
| GraphModel.SetBoundsSnaps | ECGView/src/main/java/com/rainbowpuppeteer/ecgview/Graph.java:1078-1093 | `setBounds` switches auto bounds off, stores each given bound snapped and leaves unset ones unset, keeps or unsets both counts, and requires a layout exactly when asked or already required |
| GraphModel.SetGridNumbersEffect | ECGView/src/main/java/com/rainbowpuppeteer/ecgview/Graph.java:888-907 | `setY/XGridNumbers` store the count, re-snap the bounds, record the keep flag, request a layout exactly when keeping, and post at most one redraw |
| GraphModel.SetIntervalEffect | ECGView/src/main/java/com/rainbowpuppeteer/ecgview/Graph.java:983-1006 | `setGridY/XInterval` store the interval; keeping bounds unsets the count only; otherwise the axis bounds are unset and the rest re-snapped to the new intervals |
| GraphModel.LineGravityUnsetsYBounds | ECGView/src/main/java/com/rainbowpuppeteer/ecgview/Graph.java:973-981 | a gravity change stores the gravity and unsets exactly the y bounds unless they are kept |
| GraphModel.InitialWaitsForLayout | ECGView/src/main/java/com/rainbowpuppeteer/ecgview/Graph.java:57-91 | a new graph has both steps non-zero, its draw gate shut, a layout and a redraw pending, auto bounds on and no bounds |
| GraphModel.StyleSettersEffect | ECGView/src/main/java/com/rainbowpuppeteer/ecgview/Graph.java:813-878 | the style setters store their value and change nothing else but the redraw they post with auto-invalidate; the text size also makes a layout due; a cell size set with `changeGridNumbers` unsets that axis' count; a format change makes a layout due on request |
| GraphModel.Initial | ECGView/src/main/java/com/rainbowpuppeteer/ecgview/Graph.java:57-91 | definition of the state of a new graph; `InitialWaitsForLayout` states it |
| GraphModel.DrawGateOpen | ECGView/src/main/java/com/rainbowpuppeteer/ecgview/Graph.java:541-554 | definition of the condition under which `draw` draws; `GraphView.DrawGate` states the gate |
| GraphModel.IntervalsSet | ECGView/src/main/java/com/rainbowpuppeteer/ecgview/Graph.java:983-1006 | definition of the invariant that both grid steps are non-zero, which every snap divides by; every `Graph` method keeps it |
| GraphModel.XLabelsVisible | ECGView/src/main/java/com/rainbowpuppeteer/ecgview/Graph.java:794 | definition of `isXLabelsVisible`; `ShowXLabelVisible` states it |
| GraphModel.YLabelsVisible | ECGView/src/main/java/com/rainbowpuppeteer/ecgview/Graph.java:795 | definition of `isYLabelsVisible`; `ShowYLabelVisible` states it |
| GraphModel.LabelWidth | ECGView/src/main/java/com/rainbowpuppeteer/ecgview/Graph.java:204-208 | definition of `getLabelWidth`, 0 while unset; `WidthAroundGraph` uses it |
| GraphModel.LabelHeight | ECGView/src/main/java/com/rainbowpuppeteer/ecgview/Graph.java:191-195 | definition of `getLabelHeight`, 0 while unset; `HeightAroundGraph` uses it |
| GraphModel.GraphWidth | ECGView/src/main/java/com/rainbowpuppeteer/ecgview/Graph.java:147-149 | definition of `getGraphWidth`, count times cell width; `WidthAroundGraph` and `ResizedGraphFitsView` state its place in the width |
| GraphModel.GraphHeight | ECGView/src/main/java/com/rainbowpuppeteer/ecgview/Graph.java:156-158 | definition of `getGraphHeight`, count times cell height; `HeightAroundGraph` and `ResizedGraphFitsView` state its place in the height |
| GraphModel.GraphTop | ECGView/src/main/java/com/rainbowpuppeteer/ecgview/Graph.java:165-170 | definition of `getGraphTop`; `HeightAroundGraph` states it |
| GraphModel.GraphLeft | ECGView/src/main/java/com/rainbowpuppeteer/ecgview/Graph.java:177-182 | definition of `getGraphLeft`; `WidthAroundGraph` states it |
| GraphModel.XLargeGridNumbers | ECGView/src/main/java/com/rainbowpuppeteer/ecgview/Graph.java:790 | definition of `getXLargeGridNumbers`; `LargeGridsCoverGrids` states it is the least number of large grids covering the grids |
| GraphModel.YLargeGridNumbers | ECGView/src/main/java/com/rainbowpuppeteer/ecgview/Graph.java:789 | definition of `getYLargeGridNumbers`; `LargeGridsCoverGrids` states it |
| GraphModel.WithLabelWidthCalculated | ECGView/src/main/java/com/rainbowpuppeteer/ecgview/Graph.java:249-268 | definition of `calculateLabelWidth` storing its result; `ShowYLabelVisible` states it |
| GraphModel.WithLabelHeightCalculated | ECGView/src/main/java/com/rainbowpuppeteer/ecgview/Graph.java:214-234 | definition of `calculateLabelHeight` storing its result; `ShowXLabelVisible` states it |
| GraphModel.AfterWidth | ECGView/src/main/java/com/rainbowpuppeteer/ecgview/Graph.java:114-123 | definition of the label width computed on demand by `getWidth`; `WidthAroundGraph` states it |
| GraphModel.Width | ECGView/src/main/java/com/rainbowpuppeteer/ecgview/Graph.java:114-123 | definition of `getWidth`; `WidthAroundGraph` states its parts |
| GraphModel.AfterHeight | ECGView/src/main/java/com/rainbowpuppeteer/ecgview/Graph.java:131-140 | definition of the label height computed on demand by `getHeight`; `HeightAroundGraph` states it |
| GraphModel.Height | ECGView/src/main/java/com/rainbowpuppeteer/ecgview/Graph.java:131-140 | definition of `getHeight`; `HeightAroundGraph` states its parts |
| GraphModel.AfterInvalidate | ECGView/src/main/java/com/rainbowpuppeteer/ecgview/Graph.java:630-635 | definition of `invalidate`; `InvalidateWhenPostsOnce` states it |
| GraphModel.InvalidateWhen | ECGView/src/main/java/com/rainbowpuppeteer/ecgview/Graph.java:630-635 | definition of a conditional `invalidate`; `InvalidateWhenPostsOnce` states it |
| GraphModel.WithStyles | ECGView/src/main/java/com/rainbowpuppeteer/ecgview/Graph.java:813-860 | definition of a style setter; `StyleSettersEffect` states it |
| GraphModel.WithLabelTextSize | ECGView/src/main/java/com/rainbowpuppeteer/ecgview/Graph.java:835-840 | definition of `setLabelTextSize`; `StyleSettersEffect` states it |
| GraphModel.WithGridWidth | ECGView/src/main/java/com/rainbowpuppeteer/ecgview/Graph.java:862-869 | definition of `setGridWidth`; `StyleSettersEffect` states it |
| GraphModel.WithGridHeight | ECGView/src/main/java/com/rainbowpuppeteer/ecgview/Graph.java:871-878 | definition of `setGridHeight`; `StyleSettersEffect` states it |
| GraphModel.WithFormat | ECGView/src/main/java/com/rainbowpuppeteer/ecgview/Graph.java:1095-1109 | definition of `setXFormat`/`setYFormat`; `StyleSettersEffect` states it |
| GraphModel.PlacedBounds | ECGView/src/main/java/com/rainbowpuppeteer/ecgview/Graph.java:1079-1083 | definition of the first step of `setBounds`; `SetBoundsSnaps` states it |
| GraphModel.CountsKeptIf | ECGView/src/main/java/com/rainbowpuppeteer/ecgview/Graph.java:1084-1087 | definition of the count step of `setBounds`; `SetBoundsSnaps` states it |
| GraphModel.LayoutRequiredIf | ECGView/src/main/java/com/rainbowpuppeteer/ecgview/Graph.java:1088-1090 | definition of the layout step of `setBounds`; `SetBoundsSnaps` states it |
| GraphModel.SnappedBounds | ECGView/src/main/java/com/rainbowpuppeteer/ecgview/Graph.java:1079-1090 | definition of `setBounds` before its redraw; `SetBoundsSnaps` states it |
| GraphModel.WithBounds | ECGView/src/main/java/com/rainbowpuppeteer/ecgview/Graph.java:1078-1093 | definition of `setBounds`; `SetBoundsSnaps` states it |
| GraphModel.GridHeightKept | ECGView/src/main/java/com/rainbowpuppeteer/ecgview/Graph.java:891-894 | definition of recording `keepGridHeight`; `SetGridNumbersEffect` states it |
| GraphModel.GridWidthKept | ECGView/src/main/java/com/rainbowpuppeteer/ecgview/Graph.java:901-904 | definition of recording `keepGridWidth`; `SetGridNumbersEffect` states it |
| GraphModel.WithYGridNumbers | ECGView/src/main/java/com/rainbowpuppeteer/ecgview/Graph.java:888-897 | definition of `setYGridNumbers`; `SetGridNumbersEffect` states it |
| GraphModel.WithXGridNumbers | ECGView/src/main/java/com/rainbowpuppeteer/ecgview/Graph.java:898-907 | definition of `setXGridNumbers`; `SetGridNumbersEffect` states it |
| GraphModel.RelaidIfAuto | ECGView/src/main/java/com/rainbowpuppeteer/ecgview/Graph.java:957-960 | definition of the closing step of the label-position setters; `GraphView.Graph.RelayoutIfAuto` states it |
| GraphModel.YLabelPlaced | ECGView/src/main/java/com/rainbowpuppeteer/ecgview/Graph.java:954-956 | the new y-label position is stored; `ShowYLabelVisible` states when the width is recomputed |
| GraphModel.XLabelPlaced | ECGView/src/main/java/com/rainbowpuppeteer/ecgview/Graph.java:965-967 | the new x-label position is stored; `ShowXLabelVisible` states when the height is recomputed |
| GraphModel.ShowYLabel | ECGView/src/main/java/com/rainbowpuppeteer/ecgview/Graph.java:937-942 | definition of `showYLabel`; `ShowYLabelVisible` states it |
| GraphModel.ShowXLabel | ECGView/src/main/java/com/rainbowpuppeteer/ecgview/Graph.java:944-949 | definition of `showXLabel`; `ShowXLabelVisible` states it |
| GraphModel.WithLineGravity | ECGView/src/main/java/com/rainbowpuppeteer/ecgview/Graph.java:973-981 | definition of `setLineGravity`; `LineGravityUnsetsYBounds` states it |
| GraphModel.WithGridYInterval | ECGView/src/main/java/com/rainbowpuppeteer/ecgview/Graph.java:983-994 | definition of `setGridYInterval`; `SetIntervalEffect` states it |
| GraphModel.WithGridXInterval | ECGView/src/main/java/com/rainbowpuppeteer/ecgview/Graph.java:995-1006 | definition of `setGridXInterval`; `SetIntervalEffect` states it |
| GraphModel.WithXMaxAsWritten | ECGView/src/main/java/com/rainbowpuppeteer/ecgview/Graph.java:1014-1028 | definition of `setXMax` as written; `SetXMaxAsWrittenLosesBound` states that it loses the bound |
| GraphModel.XMaxPlaced | ECGView/src/main/java/com/rainbowpuppeteer/ecgview/Graph.java:1015-1024 | definition of the corrected body of `setXMax`; `SetXBoundKeepsSpan` and `SetXMaxAsWrittenLosesBound` state it |
| GraphModel.WithXMax | ECGView/src/main/java/com/rainbowpuppeteer/ecgview/Graph.java:1014-1028 | definition of the corrected `setXMax`; `SetXBoundKeepsSpan` states it |
| GraphModel.XMinPlaced | ECGView/src/main/java/com/rainbowpuppeteer/ecgview/Graph.java:1031-1040 | definition of the body of `setXMin`; `SetXBoundKeepsSpan` states it |
| GraphModel.WithXMin | ECGView/src/main/java/com/rainbowpuppeteer/ecgview/Graph.java:1030-1044 | definition of `setXMin`; `SetXBoundKeepsSpan` states it |
| GraphModel.YMaxPlaced | ECGView/src/main/java/com/rainbowpuppeteer/ecgview/Graph.java:1047-1056 | definition of the body of `setYMax`; `SetYBoundKeepsSpan` states it |
| GraphModel.WithYMax | ECGView/src/main/java/com/rainbowpuppeteer/ecgview/Graph.java:1046-1060 | definition of `setYMax`; `SetYBoundKeepsSpan` states it |
| GraphModel.YMinPlaced | ECGView/src/main/java/com/rainbowpuppeteer/ecgview/Graph.java:1063-1072 | definition of the body of `setYMin`; `SetYBoundKeepsSpan` states it |
| GraphModel.WithYMin | ECGView/src/main/java/com/rainbowpuppeteer/ecgview/Graph.java:1062-1076 | definition of `setYMin`; `SetYBoundKeepsSpan` states it |
| GraphBounds.CheckBounds | ECGView/src/main/java/com/rainbowpuppeteer/ecgview/Graph.java:315-349 | after `checkBounds` all four bounds are set and nothing but the bounds has changed |
| GraphBounds.XBoundsSnapToGrid | ECGView/src/main/java/com/rainbowpuppeteer/ecgview/Graph.java:395-398 | `calculateXBounds` puts `xMax` on the first grid line above `max` and `xMin` the count's span below it |
| GraphBounds.GravityTopPlacement | ECGView/src/main/java/com/rainbowpuppeteer/ecgview/Graph.java:358-386 | TOP gravity: `yMax` is the grid line just above the larger bound, the span is the count's, and the smaller bound is covered when it fits |
| GraphBounds.GravityBottomPlacement | ECGView/src/main/java/com/rainbowpuppeteer/ecgview/Graph.java:358-386 | BOTTOM gravity: `yMin` is at or below the smaller bound, the span is the count's, and off the tolerance band both bounds are grid lines |
| GraphBounds.GravityCenterPlacement | ECGView/src/main/java/com/rainbowpuppeteer/ecgview/Graph.java:358-386 | CENTER gravity: the span is the count's, both bounds are grid lines just above the centred bounds |
| GraphBounds.SwappedBoundsAgree | ECGView/src/main/java/com/rainbowpuppeteer/ecgview/Graph.java:364-386 | outside the two order-sensitive cases, swapping the arguments gives the same bounds |
| GraphBounds.SpanningBoundsKept | ECGView/src/main/java/com/rainbowpuppeteer/ecgview/Graph.java:370-371 | bounds already spanning the count are kept whatever the gravity |
| GraphBounds.EqualBoundsWidened | ECGView/src/main/java/com/rainbowpuppeteer/ecgview/Graph.java:359-363 | equal bounds start on the grid line above the value and span between `n - 1` and `n` steps |
| GraphBounds.ExplicitYBoundsSurviveCheck | ECGView/src/main/java/com/rainbowpuppeteer/ecgview/Graph.java:315-349 | explicit y bounds that already span the count survive a bounds check unchanged |
| GraphBounds.AutoBoundsIgnoreStored | ECGView/src/main/java/com/rainbowpuppeteer/ecgview/Graph.java:317-322 | with auto bounds on, the stored bounds do not influence the result |
| GraphBounds.AutoXBoundsFollowData | ECGView/src/main/java/com/rainbowpuppeteer/ecgview/Graph.java:326-330 | with auto bounds on, `xMax` is the grid line just above the snapped data maximum and the x span is the count's |
| GraphBounds.OneBoundSpans | ECGView/src/main/java/com/rainbowpuppeteer/ecgview/Graph.java:344-347 | the y axis: with auto bounds off and exactly one y bound set, that bound is kept and the other is placed the y count's span away (`OneXBoundSpans` states the x axis) |
| GraphBounds.OneXBoundSpans | ECGView/src/main/java/com/rainbowpuppeteer/ecgview/Graph.java:331-335 | the x axis: with auto bounds off and exactly one x bound set, that bound is kept and the other is placed the x count's span away |
| GraphBounds.XBounds | ECGView/src/main/java/com/rainbowpuppeteer/ecgview/Graph.java:395-398 | definition of `calculateXBounds`; `XBoundsSnapToGrid` states it |
| GraphBounds.YAxisBounds | ECGView/src/main/java/com/rainbowpuppeteer/ecgview/Graph.java:358-386 | definition of `calculateYBounds`; `GravityTopPlacement`, `GravityBottomPlacement`, `GravityCenterPlacement`, `SpanningBoundsKept`, `EqualBoundsWidened` and `SwappedBoundsAgree` state it |
| GraphBounds.CheckedX | ECGView/src/main/java/com/rainbowpuppeteer/ecgview/Graph.java:324-336 | definition of the x half of `checkBounds`; `AutoXBoundsFollowData` and `OneXBoundSpans` state it |
| GraphBounds.CheckedY | ECGView/src/main/java/com/rainbowpuppeteer/ecgview/Graph.java:338-348 | definition of the y half of `checkBounds`; `ExplicitYBoundsSurviveCheck` and `OneBoundSpans` state it |
| GraphLayout.RegridX | ECGView/src/main/java/com/rainbowpuppeteer/ecgview/Graph.java:430-444 | nothing changes while the x count is unset; otherwise only the x count, bounds and cell width change (a branch `layout` never reaches, since it calls this only with the count unset) |
| GraphLayout.RegridY | ECGView/src/main/java/com/rainbowpuppeteer/ecgview/Graph.java:469-483 | nothing changes while the y count is unset; otherwise only the y count, bounds and cell height change (a branch `layout` never reaches, since it calls this only with the count unset) |
| GraphLayout.GenerateXGridsAsWritten | ECGView/src/main/java/com/rainbowpuppeteer/ecgview/Graph.java:405-420 | `generateXGrids(width)` as written changes only the x count, bounds and cell width |
| GraphLayout.GenerateXGrids | ECGView/src/main/java/com/rainbowpuppeteer/ecgview/Graph.java:405-420 | the corrected `generateXGrids` ends with the count of whole cells that fit the width |
| GraphLayout.PlaceYGrids | ECGView/src/main/java/com/rainbowpuppeteer/ecgview/Graph.java:452-465 | the branches of `generateYGrids` change only the y count, bounds and cell height |
| GraphLayout.GenerateYGrids | ECGView/src/main/java/com/rainbowpuppeteer/ecgview/Graph.java:452-467 | `generateYGrids` ends with the count of whole cells that fit the height |
| GraphLayout.ResizedGridWidth | ECGView/src/main/java/com/rainbowpuppeteer/ecgview/Graph.java:485-492 | an unset count changes nothing; otherwise the count is stored and only the cell width changes |
| GraphLayout.ResizedGridHeight | ECGView/src/main/java/com/rainbowpuppeteer/ecgview/Graph.java:494-501 | an unset count changes nothing; otherwise the count is stored and only the cell height changes |
| GraphLayout.ResizedGraph | ECGView/src/main/java/com/rainbowpuppeteer/ecgview/Graph.java:503-512 | `resizeGraph` keeps both counts and changes only the label sizes and cell sizes |
| GraphLayout.LayoutX | ECGView/src/main/java/com/rainbowpuppeteer/ecgview/Graph.java:518-525 | the x step of `layout` changes only the x count, bounds and cell width |
| GraphLayout.LayoutY | ECGView/src/main/java/com/rainbowpuppeteer/ecgview/Graph.java:527-533 | the y step of `layout` changes only the y count, bounds and cell height |
| GraphLayout.ResizeFits | ECGView/src/main/java/com/rainbowpuppeteer/ecgview/Graph.java:485-501 | `n` cells of the new size fit the pixels and `n` cells one pixel wider do not; an unset count changes nothing |
| GraphLayout.ResizedGraphFitsView | ECGView/src/main/java/com/rainbowpuppeteer/ecgview/Graph.java:503-512 | after `resizeGraph` the measured width and height fit the view, less than one pixel per cell short |
| GraphLayout.ResizedGraphFitsWidth | ECGView/src/main/java/com/rainbowpuppeteer/ecgview/Graph.java:503-512 | the width half of the fit |
| GraphLayout.ResizedGraphFitsHeight | ECGView/src/main/java/com/rainbowpuppeteer/ecgview/Graph.java:503-512 | the height half of the fit |
| GraphLayout.GenerateXGridsFromWidth | ECGView/src/main/java/com/rainbowpuppeteer/ecgview/Graph.java:405-411 | with both x bounds unset, the count is the number of whole cells that fit, `xMax` is 0 and the span is the count's |
| GraphLayout.GenerateYGridsCountsCells | ECGView/src/main/java/com/rainbowpuppeteer/ecgview/Graph.java:452-467 | the y count is the number of whole cells that fit; the cell height and explicit bounds are kept |
| GraphLayout.LayoutAsWrittenLeavesXCountUnset | ECGView/src/main/java/com/rainbowpuppeteer/ecgview/Graph.java:405-434 | as written, `layout` with an unset x count and both x bounds set leaves the count unset |
| GraphLayout.LayoutSetsXCount | ECGView/src/main/java/com/rainbowpuppeteer/ecgview/Graph.java:514-525 | when the x count is unset, the cells have a positive width (`gridWidth > 0`) and the reserved width `ReservedWidth(s, right - left)` is not negative, the corrected `layout` leaves an x count |
| GraphLayout.LayoutXLeavesCount | ECGView/src/main/java/com/rainbowpuppeteer/ecgview/Graph.java:518-525 | the corrected x step of `layout` leaves an x count when cells have positive width and the reserved width is not negative |
| GraphLayout.LayoutYLeavesCount | ECGView/src/main/java/com/rainbowpuppeteer/ecgview/Graph.java:527-533 | the y step of `layout` leaves a y count when cells have positive height and the reserved height is not negative |
| GraphLayout.LayoutSettlesFlag | ECGView/src/main/java/com/rainbowpuppeteer/ecgview/Graph.java:514-539 | `layout(changed)` clears `layoutRequired` exactly when `changed`, and posts and requests nothing |
| GraphLayout.LayoutKeepsKeptGrid | ECGView/src/main/java/com/rainbowpuppeteer/ecgview/Graph.java:521-533 | with both counts set and kept, an unchanged layout changes nothing |
| GraphLayout.HeightOfCells | ECGView/src/main/java/com/rainbowpuppeteer/ecgview/Graph.java:503-512 | a state whose cells share the height left for the grid measures at most the view height and less than one row count below it |
| GraphLayout.ReservedWidth | ECGView/src/main/java/com/rainbowpuppeteer/ecgview/Graph.java:518-519 | definition of the width `layout` leaves for the grid; `LayoutSetsXCount` uses it |
| GraphLayout.ReservedHeight | ECGView/src/main/java/com/rainbowpuppeteer/ecgview/Graph.java:527-528 | definition of the height `layout` leaves for the grid, testing the y labels as written; `LayoutYLeavesCount` uses it |
| GraphLayout.LayoutSteps | ECGView/src/main/java/com/rainbowpuppeteer/ecgview/Graph.java:514-539 | definition of the steps of `layout`; `LayoutSettlesFlag` and `LayoutKeepsKeptGrid` state them |
| GraphLayout.Settled | ECGView/src/main/java/com/rainbowpuppeteer/ecgview/Graph.java:535-538 | definition of the last step of `layout`; `LayoutSettlesFlag` states it |
| GraphLayout.LaidOutAsWritten | ECGView/src/main/java/com/rainbowpuppeteer/ecgview/Graph.java:514-539 | definition of `layout` as written; `LayoutAsWrittenLeavesXCountUnset` states its defect |
| GraphLayout.LaidOut | ECGView/src/main/java/com/rainbowpuppeteer/ecgview/Graph.java:514-539 | definition of the corrected `layout`; `LayoutSetsXCount`, `LayoutSettlesFlag`, `LayoutKeepsKeptGrid` and `GraphView.LayoutOpensDrawGate` state it |
| GridMarks.EmitMarks | ECGView/src/main/java/com/rainbowpuppeteer/ecgview/Graph.java:565-590 | the drawing loop emits, line by line, exactly the marks of lines `0..count` |
| GridMarks.Marks | ECGView/src/main/java/com/rainbowpuppeteer/ecgview/Graph.java:565-590 | definition of the marks of lines `0..k-1`, the specification of `EmitMarks`; `MarksMembership`, `MarksAtIndex` and `MarksCount` state its properties |
| GridMarks.LabelValue | ECGView/src/main/java/com/rainbowpuppeteer/ecgview/Graph.java:581-613 | definition of a label's value: `xMin + i*step` across, `yMax - i*step` snapped by the corrected `round` down; `HorizontalLabelsStep` and `VerticalLabelsOnGrid` state their properties |
| GridMarks.HorizontalPlan | ECGView/src/main/java/com/rainbowpuppeteer/ecgview/Graph.java:556-590 | definition of the horizontal pass: line 0 at the grid's left edge, one line per column boundary, the last line tested against the x count, labels above the grid or below it after the paddings and the label height |
| GridMarks.VerticalPlanAsWritten | ECGView/src/main/java/com/rainbowpuppeteer/ecgview/Graph.java:593-627 | definition of the vertical pass as `draw` performs it, the last large line tested against the x count; `LastLineIsMajor` and `VerticalAsWrittenExample` state its effect |
| GridMarks.VerticalPlan | ECGView/src/main/java/com/rainbowpuppeteer/ecgview/Graph.java:593-627 | definition of the corrected vertical pass, the last large line tested against the y count; `LastLineIsMajor` states that its bottom line is large |
| GridMarks.MarksMembership | ECGView/src/main/java/com/rainbowpuppeteer/ecgview/Graph.java:565-590 | a mark is drawn exactly when one of lines `0..k-1` draws it |
| GridMarks.MarksAtPosition | ECGView/src/main/java/com/rainbowpuppeteer/ecgview/Graph.java:565-590 | every mark of line `i` lies on that line's pixel position and carries that line's label value |
| GridMarks.MarksAtIndex | ECGView/src/main/java/com/rainbowpuppeteer/ecgview/Graph.java:565-590 | line `i` gets a small line exactly when small lines show, and a large line and a label exactly when these show and `i` is a major line |
| GridMarks.MarksOfAxis | ECGView/src/main/java/com/rainbowpuppeteer/ecgview/Graph.java:556-628 | each pass draws only on its own axis |
| GridMarks.PositionsDistinct | ECGView/src/main/java/com/rainbowpuppeteer/ecgview/Graph.java:556-628 | distinct lines lie at distinct pixel positions |
| GridMarks.MarksCount | ECGView/src/main/java/com/rainbowpuppeteer/ecgview/Graph.java:565-590 | a pass over `k` lines emits at most three marks per line, at least one per line when small lines show, none when nothing shows |
| GridMarks.LastLineIsMajor | ECGView/src/main/java/com/rainbowpuppeteer/ecgview/Graph.java:574-606 | the last line of the horizontal pass is major; for the vertical pass as written that holds only when the y count is a multiple or equals the x count |
| GridMarks.VerticalAsWrittenExample | ECGView/src/main/java/com/rainbowpuppeteer/ecgview/Graph.java:606 | with 3 x cells, 7 y cells and 5 per large grid, the vertical pass as written makes line 3 major and line 7 minor |
| GridMarks.HorizontalLabelsStep | ECGView/src/main/java/com/rainbowpuppeteer/ecgview/Graph.java:581 | the x labels start at `xMin` and step by the x interval |
| GridMarks.VerticalLabelsOnGrid | ECGView/src/main/java/com/rainbowpuppeteer/ecgview/Graph.java:613 | each y label is `yMax` less `i` steps, rounded to the nearest grid line |
| GridMarks.Drawable | ECGView/src/main/java/com/rainbowpuppeteer/ecgview/Graph.java:574 | definition of the plans whose large-line test divides by a non-zero ratio |
| GridMarks.PositionOf | ECGView/src/main/java/com/rainbowpuppeteer/ecgview/Graph.java:565-590 | definition of line `i`'s pixel position; `MarksAtPosition` and `PositionsDistinct` state it |
| GridMarks.IsMajor | ECGView/src/main/java/com/rainbowpuppeteer/ecgview/Graph.java:574 | definition of the large-line test; `MarksAtIndex` and `LastLineIsMajor` state it |
| GridMarks.MarksAt | ECGView/src/main/java/com/rainbowpuppeteer/ecgview/Graph.java:565-590 | definition of the marks of one line; `MarksAtIndex` and `MarksAtPosition` state it |
| GridMarks.VerticalPlanWith | ECGView/src/main/java/com/rainbowpuppeteer/ecgview/Graph.java:593-627 | definition of the vertical pass with a given last large line; `LastLineIsMajor` and `VerticalLabelsOnGrid` state it |
| GraphView.DrawGate | ECGView/src/main/java/com/rainbowpuppeteer/ecgview/Graph.java:541-554 | with a count unset or a layout pending `draw` only requests a layout and draws nothing; otherwise it clears the pending redraw, requests nothing and leaves all bounds set |
| GraphView.DrawnEdgesAreLarge | ECGView/src/main/java/com/rainbowpuppeteer/ecgview/Graph.java:541-628 | with large lines shown, an open draw draws the grid's right edge large; it draws the bottom edge large when the y count is a multiple of the large-grid size or equals the x count, and, for rows of positive height, only then, as the test at line 606 gives |
| GraphView.DrawnMarks | ECGView/src/main/java/com/rainbowpuppeteer/ecgview/Graph.java:541-554 | definition of what `draw` puts on the canvas: nothing while the gate is shut, else the horizontal pass and the as-written vertical pass over the checked bounds; `DrawGate` and `DrawnEdgesAreLarge` state its properties |
| GraphView.AfterDraw | ECGView/src/main/java/com/rainbowpuppeteer/ecgview/Graph.java:541-554 | definition of the state after `draw`; `DrawGate` states it |
| GraphView.LayoutOpensDrawGate | ECGView/src/main/java/com/rainbowpuppeteer/ecgview/Graph.java:514-554 | after the corrected `layout(changed=true)` over room that fits, `draw` draws |
| GraphView.LayoutAsWrittenKeepsGateShut | ECGView/src/main/java/com/rainbowpuppeteer/ecgview/Graph.java:541-554 | as written, with an unset x count and both x bounds set, `draw` after `layout` draws nothing and requests another layout |
| GraphView.PassEdges | ECGView/src/main/java/com/rainbowpuppeteer/ecgview/Graph.java:565-627 | over the two passes, the horizontal pass's last line is drawn large, and the vertical pass's last line is drawn large when it is a large line (for cells of positive size, only then) |
| GraphView.LastLineDrawn | ECGView/src/main/java/com/rainbowpuppeteer/ecgview/Graph.java:565-590 | a pass draws its last line large when it is a large line, and for cells of positive size only then |
| GraphView.Graph.constructor | ECGView/src/main/java/com/rainbowpuppeteer/ecgview/Graph.java:57-91 | a new graph has no counts, bounds or label sizes, 5 grids per large grid, steps 1 and 0.04, auto bounds on, auto-invalidate off, a redraw and a layout pending, and satisfies its invariant |
| GraphView.Graph.Invalidate | ECGView/src/main/java/com/rainbowpuppeteer/ecgview/Graph.java:630-635 | posts a redraw only when none is pending, then marks one pending |
| GraphView.Graph.InvalidateIfAuto | ECGView/src/main/java/com/rainbowpuppeteer/ecgview/Graph.java:630-635 | the trailing `if (autoInvalidate) invalidate()` of the setters |
| GraphView.Graph.RequestLayout | ECGView/src/main/java/com/rainbowpuppeteer/ecgview/Graph.java:541-554 | records one layout request to the host view |
| GraphView.Graph.EnableAutoInvalidate | ECGView/src/main/java/com/rainbowpuppeteer/ecgview/Graph.java:1111-1113 | sets the auto-invalidate switch only |
| GraphView.Graph.LayoutRequired | ECGView/src/main/java/com/rainbowpuppeteer/ecgview/Graph.java:1115-1117 | marks a layout pending and changes nothing else |
| GraphView.Graph.EnableAutoBounds | ECGView/src/main/java/com/rainbowpuppeteer/ecgview/Graph.java:1119-1121 | sets the auto-bounds switch only |
| GraphView.Graph.CalculateLabelWidth | ECGView/src/main/java/com/rainbowpuppeteer/ecgview/Graph.java:249-268 | stores the computed label width (unset if it hits the marker) |
| GraphView.Graph.CalculateLabelHeight | ECGView/src/main/java/com/rainbowpuppeteer/ecgview/Graph.java:214-234 | stores the computed label height (unset if it hits the marker) |
| GraphView.Graph.GetWidth | ECGView/src/main/java/com/rainbowpuppeteer/ecgview/Graph.java:114-123 | returns 0 with the x count unset; otherwise computes a missing label width and returns the width around the grid |
| GraphView.Graph.GetHeight | ECGView/src/main/java/com/rainbowpuppeteer/ecgview/Graph.java:131-140 | returns 0 with the y count unset; otherwise computes a missing label height and returns the height around the grid |
| GraphView.Graph.SetLabelTextSize | ECGView/src/main/java/com/rainbowpuppeteer/ecgview/Graph.java:835-840 | stores the text size, marks a layout pending and redraws if automatic |
| GraphView.Graph.SetLabelPadding | ECGView/src/main/java/com/rainbowpuppeteer/ecgview/Graph.java:851-855 | stores the label padding and redraws if automatic |
| GraphView.Graph.SetGraphPadding | ECGView/src/main/java/com/rainbowpuppeteer/ecgview/Graph.java:856-860 | stores the outer padding and redraws if automatic |
| GraphView.Graph.ShowLargeGrids | ECGView/src/main/java/com/rainbowpuppeteer/ecgview/Graph.java:915-919 | stores the large-grid switch and redraws if automatic |
| GraphView.Graph.ShowGrids | ECGView/src/main/java/com/rainbowpuppeteer/ecgview/Graph.java:920-924 | stores the small-grid switch and redraws if automatic |
| GraphView.Graph.ShowVertical | ECGView/src/main/java/com/rainbowpuppeteer/ecgview/Graph.java:926-930 | stores the vertical-line switch and redraws if automatic |
| GraphView.Graph.ShowHorizontal | ECGView/src/main/java/com/rainbowpuppeteer/ecgview/Graph.java:931-935 | stores the horizontal-line switch and redraws if automatic |
| GraphView.Graph.SetGridWidth | ECGView/src/main/java/com/rainbowpuppeteer/ecgview/Graph.java:862-869 | stores the cell width, unsets the x count when asked, and redraws if automatic |
| GraphView.Graph.SetGridHeight | ECGView/src/main/java/com/rainbowpuppeteer/ecgview/Graph.java:871-878 | stores the cell height, unsets the y count when asked, and redraws if automatic |
| GraphView.Graph.SetLargeGridWidth | ECGView/src/main/java/com/rainbowpuppeteer/ecgview/Graph.java:880-882 | sets the cell width to the large width divided, toward zero, by the grids per large grid |
| GraphView.Graph.SetLargeGridHeight | ECGView/src/main/java/com/rainbowpuppeteer/ecgview/Graph.java:884-886 | sets the cell height to the large height divided, toward zero, by the grids per large grid |
| GraphView.Graph.SetGridsPerLargeGrid | ECGView/src/main/java/com/rainbowpuppeteer/ecgview/Graph.java:1008-1012 | stores the ratio and redraws if automatic |
| GraphView.Graph.SetXFormat | ECGView/src/main/java/com/rainbowpuppeteer/ecgview/Graph.java:1095-1101 | marks a layout pending when asked and redraws if automatic |
| GraphView.Graph.SetYFormat | ECGView/src/main/java/com/rainbowpuppeteer/ecgview/Graph.java:1103-1109 | marks a layout pending when asked and redraws if automatic |
| GraphView.Graph.SetYLabelPosition | ECGView/src/main/java/com/rainbowpuppeteer/ecgview/Graph.java:951-961 | an unchanged position changes nothing; otherwise stores it, resizes the labels on request, and relayouts and redraws if automatic |
| GraphView.Graph.SetXLabelPosition | ECGView/src/main/java/com/rainbowpuppeteer/ecgview/Graph.java:962-972 | an unchanged position changes nothing; otherwise stores it, resizes the labels on request, and relayouts and redraws if automatic |
| GraphView.Graph.ShowYLabel | ECGView/src/main/java/com/rainbowpuppeteer/ecgview/Graph.java:937-942 | moves the y labels to the left with a fresh width, or hides them; visibility follows `ShowYLabelVisible` |
| GraphView.Graph.ShowXLabel | ECGView/src/main/java/com/rainbowpuppeteer/ecgview/Graph.java:944-949 | moves the x labels to the bottom with a fresh height, or hides them; visibility follows `ShowXLabelVisible` |
| GraphView.Graph.SetBounds | ECGView/src/main/java/com/rainbowpuppeteer/ecgview/Graph.java:1078-1093 | the effect stated by `SetBoundsSnaps`, then a redraw if automatic |
| GraphView.Graph.SetYGridNumbers | ECGView/src/main/java/com/rainbowpuppeteer/ecgview/Graph.java:888-897 | the effect stated by `SetGridNumbersEffect` for y |
| GraphView.Graph.SetXGridNumbers | ECGView/src/main/java/com/rainbowpuppeteer/ecgview/Graph.java:898-907 | the effect stated by `SetGridNumbersEffect` for x |
| GraphView.Graph.SetYLargeGridNumbers | ECGView/src/main/java/com/rainbowpuppeteer/ecgview/Graph.java:908-910 | sets the y count to the large count times the grids per large grid |
| GraphView.Graph.SetXLargeGridNumbers | ECGView/src/main/java/com/rainbowpuppeteer/ecgview/Graph.java:911-913 | sets the x count to the large count times the grids per large grid |
| GraphView.Graph.SetLineGravity | ECGView/src/main/java/com/rainbowpuppeteer/ecgview/Graph.java:973-981 | the effect stated by `LineGravityUnsetsYBounds`, then a redraw if automatic |
| GraphView.Graph.SetGridYInterval | ECGView/src/main/java/com/rainbowpuppeteer/ecgview/Graph.java:983-994 | the effect stated by `SetIntervalEffect` for y; the invariant is kept |
| GraphView.Graph.SetGridXInterval | ECGView/src/main/java/com/rainbowpuppeteer/ecgview/Graph.java:995-1006 | the effect stated by `SetIntervalEffect` for x; the invariant is kept |
| GraphView.Graph.SetXMax | ECGView/src/main/java/com/rainbowpuppeteer/ecgview/Graph.java:1014-1028 | the corrected effect stated by `SetXBoundKeepsSpan`, then a redraw if automatic |
| GraphView.Graph.SetXMin | ECGView/src/main/java/com/rainbowpuppeteer/ecgview/Graph.java:1030-1044 | the effect stated by `SetXBoundKeepsSpan`, then a redraw if automatic |
| GraphView.Graph.SetYMax | ECGView/src/main/java/com/rainbowpuppeteer/ecgview/Graph.java:1046-1060 | the effect stated by `SetYBoundKeepsSpan`, then a redraw if automatic |
| GraphView.Graph.SetYMin | ECGView/src/main/java/com/rainbowpuppeteer/ecgview/Graph.java:1062-1076 | the effect stated by `SetYBoundKeepsSpan`, then a redraw if automatic |
| GraphView.Graph.CheckBounds | ECGView/src/main/java/com/rainbowpuppeteer/ecgview/Graph.java:315-349 | updates the fields as `GraphBounds.CheckBounds` states |
| GraphView.Graph.ResizeGridWidth | ECGView/src/main/java/com/rainbowpuppeteer/ecgview/Graph.java:485-492 | the fit stated by `ResizeFits` for the width |
| GraphView.Graph.ResizeGridHeight | ECGView/src/main/java/com/rainbowpuppeteer/ecgview/Graph.java:494-501 | the fit stated by `ResizeFits` for the height |
| GraphView.Graph.ResizeGraph | ECGView/src/main/java/com/rainbowpuppeteer/ecgview/Graph.java:503-512 | the fit stated by `ResizedGraphFitsView` |
| GraphView.Graph.GenerateXGrids | ECGView/src/main/java/com/rainbowpuppeteer/ecgview/Graph.java:405-420 | runs the branches of `generateXGrids(width)` as statements and ends in the state `GraphLayout.GenerateXGrids` gives; the count is derived from the width, as `GenerateXGridsFromWidth` states |
| GraphView.Graph.GenerateYGrids | ECGView/src/main/java/com/rainbowpuppeteer/ecgview/Graph.java:452-467 | runs the branches of `generateYGrids(height)` as statements and ends in the state `GraphLayout.GenerateYGrids` gives; the count is derived from the height, as `GenerateYGridsCountsCells` states |
| GraphView.Graph.RegridXGrids | ECGView/src/main/java/com/rainbowpuppeteer/ecgview/Graph.java:430-444 | `generateXGrids(width, min, max)`: changes nothing while the x count is unset; otherwise it snaps the bounds outward, counts the steps between them and shares the width among them, ending in the state `GraphLayout.RegridX` gives |
| GraphView.Graph.RegridYGrids | ECGView/src/main/java/com/rainbowpuppeteer/ecgview/Graph.java:469-483 | `generateYGrids(height, min, max)` likewise, with the count taken from the unsnapped bounds (a branch `layout` never reaches), ending in the state `GraphLayout.RegridY` gives |
| GraphView.Graph.LayoutHorizontal | ECGView/src/main/java/com/rainbowpuppeteer/ecgview/Graph.java:518-525 | the x step of `layout`: generate a missing count, or resize an unkept one |
| GraphView.Graph.LayoutVertical | ECGView/src/main/java/com/rainbowpuppeteer/ecgview/Graph.java:527-533 | the y step of `layout`: generate a missing count, or resize an unkept one |
| GraphView.Graph.Layout | ECGView/src/main/java/com/rainbowpuppeteer/ecgview/Graph.java:514-539 | `layout` with the corrected x step; the flag effect is `LayoutSettlesFlag`, the draw gate opens by `LayoutOpensDrawGate` |
| GraphView.Graph.Settle | ECGView/src/main/java/com/rainbowpuppeteer/ecgview/Graph.java:535-538 | the last step of `layout`: after a size change the graph is refitted and the pending layout is served |
| GraphView.Graph.Draw | ECGView/src/main/java/com/rainbowpuppeteer/ecgview/Graph.java:541-554 | returns the marks of the horizontal pass and of the vertical pass as written (large-line test against the x count) over the checked bounds, or nothing and a layout request while the gate is shut; the state after is stated by `DrawGate`, the edges by `DrawnEdgesAreLarge`; keeps `Valid()` |
| GraphView.Graph.PlaceBounds | ECGView/src/main/java/com/rainbowpuppeteer/ecgview/Graph.java:1079-1083 | the first step of `setBounds`: auto bounds off and each given bound snapped, as `SetBoundsSnaps` states; keeps `Valid()` |
| GraphView.Graph.SnapBounds | ECGView/src/main/java/com/rainbowpuppeteer/ecgview/Graph.java:1079-1090 | `setBounds` up to its closing redraw; keeps `Valid()` |
| GraphView.Graph.KeepCountsIf | ECGView/src/main/java/com/rainbowpuppeteer/ecgview/Graph.java:1084-1087 | unsets both counts unless they are to be kept |
| GraphView.Graph.RequireLayoutIf | ECGView/src/main/java/com/rainbowpuppeteer/ecgview/Graph.java:1088-1090 | marks a layout pending when asked |
| GraphView.Graph.KeepGridHeight | ECGView/src/main/java/com/rainbowpuppeteer/ecgview/Graph.java:891-894 | records whether to keep the cell height and asks for one layout when it does |
| GraphView.Graph.KeepGridWidth | ECGView/src/main/java/com/rainbowpuppeteer/ecgview/Graph.java:901-904 | records whether to keep the cell width and asks for one layout when it does |
| GraphView.Graph.PlaceXMax | ECGView/src/main/java/com/rainbowpuppeteer/ecgview/Graph.java:1015-1024 | the corrected body of `setXMax` before its redraw, as `SetXBoundKeepsSpan` states; keeps `Valid()` |
| GraphView.Graph.PlaceXMin | ECGView/src/main/java/com/rainbowpuppeteer/ecgview/Graph.java:1031-1040 | the body of `setXMin` before its redraw, as `SetXBoundKeepsSpan` states; keeps `Valid()` |
| GraphView.Graph.PlaceYMax | ECGView/src/main/java/com/rainbowpuppeteer/ecgview/Graph.java:1047-1056 | the body of `setYMax` before its redraw, as `SetYBoundKeepsSpan` states; keeps `Valid()` |
| GraphView.Graph.PlaceYMin | ECGView/src/main/java/com/rainbowpuppeteer/ecgview/Graph.java:1063-1072 | the body of `setYMin` before its redraw, as `SetYBoundKeepsSpan` states; keeps `Valid()` |
| GraphView.Graph.PlaceYLabel | ECGView/src/main/java/com/rainbowpuppeteer/ecgview/Graph.java:954-956 | stores the y label position and recomputes the width when asked or when it is missing for visible labels |
| GraphView.Graph.PlaceXLabel | ECGView/src/main/java/com/rainbowpuppeteer/ecgview/Graph.java:965-967 | stores the x label position and recomputes the height when asked or when it is missing for visible labels |
| GraphView.Graph.RelayoutIfAuto | ECGView/src/main/java/com/rainbowpuppeteer/ecgview/Graph.java:957-960 | with auto-invalidate on, marks a layout pending and invalidates |

## Left out

- ECGView.java, the Android `View` glue, is not part of this model. Its data range and its `postInvalidate`/`requestLayout` calls appear only as parameters and counters.
- `loadXmlStyles`, `reloadStyles`, and `Paint`/`Canvas` objects are left out: they are resource and rendering plumbing. Drawing returns the segments or marks instead.
- Paint-only setters and plain getters are left out because they change or read no modelled state. These are `setBackgroundColor`, `setGridColor`, `setLargeGridColor`, `setLabelColor`, `setGridBoarderSize`, `setLargeGridBoarderSize`, and the field getters of both classes.
- Text measurement (`Paint.getTextBounds`) and `DecimalFormat` are foreign calls. They are `Measure` function parameters. `setXFormat`/`setYFormat` do not store the format object.
- Floating point is left out: doubles and the float casts in `DataSeries.draw` are exact reals, with no IEEE rounding. A zero interpolation denominator gives 0 (`SeriesClip.Ratio`) where IEEE arithmetic gives an infinite or NaN coordinate.
- Java `int` overflow is left out: ints are unbounded, except that a count equal to `Integer.MIN_VALUE` reads as unset, as in the source.
- `Log` calls are left out.
- GraphView.Graph.SetGridYInterval: requires a non-zero interval, because Java's `%` by zero yields NaN bounds, which the model does not represent. The class invariant `Valid()` keeps both intervals non-zero.
- GraphView.Graph.SetGridXInterval: requires a non-zero interval for the same reason.
- GraphView.Graph.Draw: requires a non-zero `gridsPerLargeGrid`, because `i % 0` throws in the source.
- Series.DataSeries.Draw: requires a non-degenerate value range, because the source then divides by zero in float arithmetic and draws at infinite or NaN coordinates.
- The y labels are anchored at their grid line (`GridMarks.Mark.TickLabel`): the source's centring of each label by half its measured text height (ECGView/src/main/java/com/rainbowpuppeteer/ecgview/Graph.java:614) is not modelled, because it depends on text measurement of the formatted label.
- SeriesClip.DynamicExample: states only the x values of the streaming example, not its pixel positions, because the pixel map divides by a non-literal range.

## Findings

| source | as written | input that shows it | evidently intended | confidence | as-written member | corrected member |
|---|---|---|---|---|---|---|
| ECGView/src/main/java/com/rainbowpuppeteer/ecgview/Graph.java:282 | `round` adds the remainder when rounding up | `round(0.7, 1.0)` gives 1.4 | add `modulo - remainder`, giving 1.0 | high, not executed | GridMath.RoundAsWrittenOffGrid | GridMath.RoundToNearest |
| ECGView/src/main/java/com/rainbowpuppeteer/ecgview/Graph.java:292-307 | `ceil`/`floor` use Java's `%`, which is negative for negative values | `ceil(-0.5, 1.0)` gives 1.0; `floor(-0.5, 1.0)` gives 0.0 | the grid line just above / at or below: 0.0 and -1.0 | medium, not executed | GridMath.SnapAsWrittenNegative | GridMath.CeilBounds |
| ECGView/src/main/java/com/rainbowpuppeteer/ecgview/DataSeries.java:286-288 | the left-edge clip adds the offset to the previous y | previous (10,10), current (-10,0), left 0 gives y 15 | add it to the current y, giving 5 on the segment | high, not executed | SeriesClip.LeftEdgeYAsWrittenOffSegment | SeriesClip.LeftEdgeYOnSegment |
| ECGView/src/main/java/com/rainbowpuppeteer/ecgview/Graph.java:1021 | `setXMax` with the count kept but unset unsets `xMax` | unset x count, `setXMax(1.0, true)` leaves `xMax` unset | unset `xMin`, as `setYMax` does at line 1053 | high, not executed | GraphModel.SetXMaxAsWrittenLosesBound | GraphModel.SetXBoundKeepsSpan |
| ECGView/src/main/java/com/rainbowpuppeteer/ecgview/Graph.java:430-434 | `generateXGrids(width, min, max)` returns while the x count is unset, the only case in which `layout` calls it | unset x count and both x bounds set: `draw` requests a layout on every call and never draws | derive the count from the width at the end, as `generateYGrids` does at line 466 | medium, not executed | GraphView.LayoutAsWrittenKeepsGateShut | GraphView.LayoutOpensDrawGate |
| ECGView/src/main/java/com/rainbowpuppeteer/ecgview/Graph.java:606 | the vertical pass tests `i == xGridNumbers` for its last line | 3 x cells, 7 y cells, 5 per large grid: line 3 is large and line 7 small | test `i == yGridNumbers`, as the horizontal pass does with its own count | high, not executed | GridMarks.VerticalAsWrittenExample | GridMarks.LastLineIsMajor |

=== FILE: graph.dfy ===
/** The grid engine of the ECG view (Graph.java): a mutable object whose
    methods update its fields in place. Each method is specified by the
    function of `GraphModel`, `GraphBounds` or `GraphLayout` that gives its
    effect on a snapshot of the fields. */
module GraphView {

  import opened Options
  import opened GridMath
  import opened GraphModel
  import opened GraphBounds
  import opened GraphLayout
  import opened GridMarks

  /** What `draw` puts on the canvas: nothing while the gate is shut,
      otherwise the horizontal pass and then the vertical pass over the
      checked bounds. The vertical pass keeps the source's large-line test
      against the column count. */
  function DrawnMarks(s: GraphState, left: int, top: int, data: DataRange): seq<Mark>
    requires IntervalsSet(s) && s.gridsPerLargeGrid != 0
  {
    if !DrawGateOpen(s) then []
    else
      var t := CheckBounds(s, data);
      var h := HorizontalPlan(t, left, top);
      var v := VerticalPlanAsWritten(t, left, top);
      Marks(h, h.count + 1) + Marks(v, v.count + 1)
  }

  /** The state after `draw`: a layout request while the gate is shut,
      otherwise the checked bounds with the redraw request served. */
  function AfterDraw(s: GraphState, data: DataRange): GraphState
    requires IntervalsSet(s)
  {
    if !DrawGateOpen(s) then s.(layoutRequests := s.layoutRequests + 1)
    else CheckBounds(s, data).(invalidateRequired := false)
  }

  /** While the gate is shut `draw` draws nothing and only asks for a
      layout. Once it is open, the bounds are all set, the counts and the
      layout bookkeeping are left alone and the redraw request is served. */
  lemma DrawGate(s: GraphState, left: int, top: int, data: DataRange)
    requires IntervalsSet(s) && s.gridsPerLargeGrid != 0
    ensures !DrawGateOpen(s) ==> DrawnMarks(s, left, top, data) == []
                                 && AfterDraw(s, data) == s.(layoutRequests := s.layoutRequests + 1)
    ensures DrawGateOpen(s) ==>
              var r := AfterDraw(s, data);
              && !r.invalidateRequired && r.invalidatePosts == s.invalidatePosts
              && r.layoutRequests == s.layoutRequests && !r.layoutRequired
              && r.xGridNumbers == s.xGridNumbers && r.yGridNumbers == s.yGridNumbers
              && r.xMin.Some? && r.xMax.Some? && r.yMin.Some? && r.yMax.Some?
  {
  }

  /** With large lines shown on both axes, an open gate and counts that
      are not negative, `draw` draws the right edge of the grid as a large
      line. It draws the bottom edge large when the row count is a multiple
      of the large-grid size or equals the column count, and, for rows of
      positive height, only then. */
  lemma {:induction false} DrawnEdgesAreLarge(s: GraphState, left: int, top: int, data: DataRange)
    requires IntervalsSet(s) && s.gridsPerLargeGrid != 0 && DrawGateOpen(s)
    requires s.xGridNumbers.value >= 0 && s.yGridNumbers.value >= 0
    requires s.styles.showLargeGrids && s.styles.showVertical && s.styles.showHorizontal
    ensures var t := CheckBounds(s, data);
            var h := HorizontalPlan(t, left, top);
            GridLine(Horizontal, PositionOf(h, h.count), true) in DrawnMarks(s, left, top, data)
    ensures var t := CheckBounds(s, data);
            var v := VerticalPlanAsWritten(t, left, top);
            var bottomLarge := GridLine(Vertical, PositionOf(v, v.count), true) in DrawnMarks(s, left, top, data);
            var major := s.yGridNumbers.value % s.gridsPerLargeGrid == 0 || s.yGridNumbers.value == s.xGridNumbers.value;
            && (major ==> bottomLarge)
            && (s.styles.gridHeight > 0 ==> (bottomLarge <==> major))
  {
    var t := CheckBounds(s, data);
    assert t.(xMin := s.xMin, xMax := s.xMax, yMin := s.yMin, yMax := s.yMax) == s;
    assert t.styles == s.styles && t.gridsPerLargeGrid == s.gridsPerLargeGrid;
    assert t.xGridNumbers == s.xGridNumbers && t.yGridNumbers == s.yGridNumbers;
    var h := HorizontalPlan(t, left, top);
    var v := VerticalPlanAsWritten(t, left, top);
    LastLineIsMajor(t, left, top);
    PassEdges(h, v);
  }

  /** The last line of the first of two passes on different axes, and the
      last line of the second whenever it is a large line, are drawn
      large; with cells of positive size the second is drawn large only
      then. */
  lemma PassEdges(h: MarkPlan, v: MarkPlan)
    requires Drawable(h) && Drawable(v) && h.axis == Horizontal && v.axis == Vertical
    requires h.count >= 0 && v.count >= 0 && h.showMajor && v.showMajor && IsMajor(h, h.count)
    ensures GridLine(Horizontal, PositionOf(h, h.count), true) in Marks(h, h.count + 1) + Marks(v, v.count + 1)
    ensures IsMajor(v, v.count) ==> GridLine(Vertical, PositionOf(v, v.count), true) in Marks(h, h.count + 1) + Marks(v, v.count + 1)
    ensures v.cell > 0 ==>
              (GridLine(Vertical, PositionOf(v, v.count), true) in Marks(h, h.count + 1) + Marks(v, v.count + 1)
               <==> IsMajor(v, v.count))
  {
    var hm, vm := Marks(h, h.count + 1), Marks(v, v.count + 1);
    LastLineDrawn(h);
    LastLineDrawn(v);
    var bottom := GridLine(Vertical, PositionOf(v, v.count), true);
    if bottom in hm {
      MarksOfAxis(h, h.count + 1, bottom);
    }
    assert bottom in hm + vm <==> bottom in vm;
  }

  /** A pass draws its last line large when it is a large line, and for
      cells of positive size only then. */
  lemma LastLineDrawn(p: MarkPlan)
    requires Drawable(p) && p.count >= 0 && p.showMajor
    ensures IsMajor(p, p.count) ==> GridLine(p.axis, PositionOf(p, p.count), true) in Marks(p, p.count + 1)
    ensures p.cell > 0 ==> (GridLine(p.axis, PositionOf(p, p.count), true) in Marks(p, p.count + 1) <==> IsMajor(p, p.count))
  {
    var last := GridLine(p.axis, PositionOf(p, p.count), true);
    if IsMajor(p, p.count) {
      assert last in MarksAt(p, p.count);
      assert Marks(p, p.count + 1) == Marks(p, p.count) + MarksAt(p, p.count);
    }
    if p.cell > 0 {
      MarksAtIndex(p, p.count + 1, p.count);
    }
  }

  /** A corrected layout after a size change, with cells of positive size
      and room for the grid, opens the draw gate, whatever counts and
      bounds it found. */
  lemma LayoutOpensDrawGate(s: GraphState, left: int, top: int, right: int, bottom: int,
                            tw: Measure, th: Measure)
    requires IntervalsSet(s) && s.styles.gridWidth > 0 && s.styles.gridHeight > 0
    requires ReservedWidth(s, right - left) >= 0 && ReservedHeight(s, bottom - top) >= 0
    ensures DrawGateOpen(LaidOut(s, true, left, top, right, bottom, tw, th))
  {
    var t := LayoutX(s, true, ReservedWidth(s, right - left), true);
    LayoutXLeavesCount(s, true, ReservedWidth(s, right - left));
    assert ReservedHeight(t, bottom - top) == ReservedHeight(s, bottom - top);
    LayoutYLeavesCount(t, true, ReservedHeight(t, bottom - top));
  }

  /** As written, a layout that finds the x count unset and both x bounds
      set keeps the gate shut, so `draw` keeps asking for a layout. */
  lemma LayoutAsWrittenKeepsGateShut(s: GraphState, changed: bool, left: int, top: int, right: int,
                                     bottom: int, tw: Measure, th: Measure, data: DataRange)
    requires IntervalsSet(s) && s.gridsPerLargeGrid != 0
    requires s.xGridNumbers.None? && s.xMin.Some? && s.xMax.Some?
    ensures var r := LaidOutAsWritten(s, changed, left, top, right, bottom, tw, th);
            && !DrawGateOpen(r)
            && DrawnMarks(r, left, top, data) == []
            && AfterDraw(r, data).layoutRequests == r.layoutRequests + 1
  {
    LayoutAsWrittenLeavesXCountUnset(s, changed, left, top, right, bottom, tw, th);
  }

  class Graph {
    var styles: Styles
    var yGridNumbers: Option<int>
    var xGridNumbers: Option<int>
    var gridYInterval: real
    var gridXInterval: real
    var gridsPerLargeGrid: int
    var xMax: Option<real>
    var xMin: Option<real>
    var yMax: Option<real>
    var yMin: Option<real>
    var labelWidth: Option<int>
    var labelHeight: Option<int>
    var autoInvalidate: bool
    var layoutRequired: bool
    var invalidateRequired: bool
    var syncBounds: bool
    var keepGridHeight: bool
    var keepGridWidth: bool
    /** Redraw requests posted to the host view. */
    var invalidatePosts: nat
    /** Layout requests made to the host view. */
    var layoutRequests: nat

    function Snapshot(): GraphState
      reads this
    {
      GraphState(styles, yGridNumbers, xGridNumbers, gridYInterval, gridXInterval, gridsPerLargeGrid,
                 xMax, xMin, yMax, yMin, labelWidth, labelHeight, autoInvalidate, layoutRequired,
                 invalidateRequired, syncBounds, keepGridHeight, keepGridWidth, invalidatePosts,
                 layoutRequests)
    }

    /** Both grid steps are non-zero. */
    predicate Valid()
      reads this
    {
      IntervalsSet(Snapshot())
    }

    constructor(styles: Styles)
      ensures Snapshot() == Initial(styles)
      ensures Valid()
    {
      this.styles := styles;
      xMax, xMin, yMax, yMin := None, None, None, None;
      labelWidth, labelHeight := None, None;
      xGridNumbers, yGridNumbers := None, None;
      gridsPerLargeGrid := 5;
      gridYInterval := 1.0;
      gridXInterval := 0.04;
      autoInvalidate := false;
      invalidateRequired := true;
      syncBounds := true;
      keepGridHeight, keepGridWidth := false, false;
      invalidatePosts, layoutRequests := 0, 0;
      layoutRequired := true;
    }

    // -------------------------------------------------------------------
    // Redraw, layout and bounds switches

    method Invalidate()
      modifies this
      ensures Snapshot() == AfterInvalidate(old(Snapshot()))
    {
      if !invalidateRequired {
        invalidateRequired := true;
        invalidatePosts := invalidatePosts + 1;
      }
    }

    /** The closing step of every setter: post a redraw when
      auto-invalidate is on. */
    method InvalidateIfAuto()
      modifies this
      ensures Snapshot() == InvalidateWhen(old(Snapshot()), old(Snapshot()).autoInvalidate)
    {
      if autoInvalidate {
        Invalidate();
      }
    }

    /** The host view's `requestLayout`, counted. */
    method RequestLayout()
      modifies this
      ensures Snapshot() == old(Snapshot()).(layoutRequests := old(layoutRequests) + 1)
    {
      layoutRequests := layoutRequests + 1;
    }

    method EnableAutoInvalidate(b: bool)
      modifies this
      ensures Snapshot() == old(Snapshot()).(autoInvalidate := b)
    {
      autoInvalidate := b;
    }

    method LayoutRequired()
      modifies this
      ensures Snapshot() == old(Snapshot()).(layoutRequired := true)
    {
      layoutRequired := true;
    }

    method EnableAutoBounds(b: bool)
      modifies this
      ensures Snapshot() == old(Snapshot()).(syncBounds := b)
    {
      syncBounds := b;
    }

    // -------------------------------------------------------------------
    // Sizes

    method CalculateLabelWidth(textWidth: Measure)
      modifies this
      ensures Snapshot() == WithLabelWidthCalculated(old(Snapshot()), textWidth)
    {
      labelWidth := CountOf(LabelWidthCalculated(Snapshot(), textWidth));
    }

    method CalculateLabelHeight(textHeight: Measure)
      modifies this
      ensures Snapshot() == WithLabelHeightCalculated(old(Snapshot()), textHeight)
    {
      labelHeight := CountOf(LabelHeightCalculated(Snapshot(), textHeight));
    }

    /** `getWidth`. */
    method GetWidth(textWidth: Measure) returns (w: int)
      modifies this
      ensures w == Width(old(Snapshot()), textWidth)
      ensures Snapshot() == AfterWidth(old(Snapshot()), textWidth)
    {
      if xGridNumbers.None? {
        return 0;
      }
      if labelWidth.None? {
        CalculateLabelWidth(textWidth);
      }
      w := 0;
      if styles.yLabelPosition != YLabelNone {
        w := w + LabelWidth(Snapshot()) + styles.labelPadding;
      }
      w := w + xGridNumbers.value * styles.gridWidth + styles.graphPadding * 2;
    }

    /** `getHeight`. */
    method GetHeight(textHeight: Measure) returns (h: int)
      modifies this
      ensures h == Height(old(Snapshot()), textHeight)
      ensures Snapshot() == AfterHeight(old(Snapshot()), textHeight)
    {
      if yGridNumbers.None? {
        return 0;
      }
      if labelHeight.None? {
        CalculateLabelHeight(textHeight);
      }
      h := 0;
      if styles.xLabelPosition != XLabelNone {
        h := h + LabelHeight(Snapshot()) + styles.labelPadding;
      }
      h := h + yGridNumbers.value * styles.gridHeight + styles.graphPadding * 2;
    }

    // -------------------------------------------------------------------
    // Style setters

    method SetLabelTextSize(size: int)
      modifies this
      ensures Snapshot() == WithLabelTextSize(old(Snapshot()), size)
    {
      styles := styles.(labelTextSize := size);
      layoutRequired := true;
      InvalidateIfAuto();
    }

    method SetLabelPadding(padding: int)
      modifies this
      ensures Snapshot() == WithStyles(old(Snapshot()), old(styles).(labelPadding := padding))
    {
      styles := styles.(labelPadding := padding);
      InvalidateIfAuto();
    }

    method SetGraphPadding(padding: int)
      modifies this
      ensures Snapshot() == WithStyles(old(Snapshot()), old(styles).(graphPadding := padding))
    {
      styles := styles.(graphPadding := padding);
      InvalidateIfAuto();
    }

    method ShowLargeGrids(b: bool)
      modifies this
      ensures Snapshot() == WithStyles(old(Snapshot()), old(styles).(showLargeGrids := b))
    {
      styles := styles.(showLargeGrids := b);
      InvalidateIfAuto();
    }

    method ShowGrids(b: bool)
      modifies this
      ensures Snapshot() == WithStyles(old(Snapshot()), old(styles).(showGrids := b))
    {
      styles := styles.(showGrids := b);
      InvalidateIfAuto();
    }

    method ShowVertical(b: bool)
      modifies this
      ensures Snapshot() == WithStyles(old(Snapshot()), old(styles).(showVertical := b))
    {
      styles := styles.(showVertical := b);
      InvalidateIfAuto();
    }

    method ShowHorizontal(b: bool)
      modifies this
      ensures Snapshot() == WithStyles(old(Snapshot()), old(styles).(showHorizontal := b))
    {
      styles := styles.(showHorizontal := b);
      InvalidateIfAuto();
    }

    method SetGridWidth(width: int, changeGridNumbers: bool)
      modifies this
      ensures Snapshot() == WithGridWidth(old(Snapshot()), width, changeGridNumbers)
    {
      styles := styles.(gridWidth := width);
      if changeGridNumbers {
        xGridNumbers := None;
      }
      InvalidateIfAuto();
    }

    method SetGridHeight(height: int, changeGridNumbers: bool)
      modifies this
      ensures Snapshot() == WithGridHeight(old(Snapshot()), height, changeGridNumbers)
    {
      styles := styles.(gridHeight := height);
      if changeGridNumbers {
        yGridNumbers := None;
      }
      InvalidateIfAuto();
    }

    /** The cell width is the large-grid width divided by the grids per
      large grid, truncated. */
    method SetLargeGridWidth(width: int, changeGridNumbers: bool)
      modifies this
      ensures Snapshot() == WithGridWidth(old(Snapshot()), TruncDiv(width, old(gridsPerLargeGrid)), changeGridNumbers)
    {
      SetGridWidth(TruncDiv(width, gridsPerLargeGrid), changeGridNumbers);
    }

    method SetLargeGridHeight(height: int, changeGridNumbers: bool)
      modifies this
      ensures Snapshot() == WithGridHeight(old(Snapshot()), TruncDiv(height, old(gridsPerLargeGrid)), changeGridNumbers)
    {
      SetGridHeight(TruncDiv(height, gridsPerLargeGrid), changeGridNumbers);
    }

    method SetGridsPerLargeGrid(i: int)
      modifies this
      ensures Snapshot() == InvalidateWhen(old(Snapshot()).(gridsPerLargeGrid := i), old(autoInvalidate))
    {
      gridsPerLargeGrid := i;
      InvalidateIfAuto();
    }

    method SetXFormat(changeLabelSize: bool)
      modifies this
      ensures Snapshot() == WithFormat(old(Snapshot()), changeLabelSize)
    {
      if changeLabelSize {
        layoutRequired := true;
      }
      InvalidateIfAuto();
    }

    method SetYFormat(changeLabelSize: bool)
      modifies this
      ensures Snapshot() == WithFormat(old(Snapshot()), changeLabelSize)
    {
      if changeLabelSize {
        layoutRequired := true;
      }
      InvalidateIfAuto();
    }

    // -------------------------------------------------------------------
    // Labels

    method SetYLabelPosition(position: YLabelPosition, changeLabelSize: bool, textWidth: Measure)
      modifies this
      ensures Snapshot() == WithYLabelPosition(old(Snapshot()), position, changeLabelSize, textWidth)
    {
      if position == styles.yLabelPosition {
        return;
      }
      PlaceYLabel(position, changeLabelSize, textWidth);
      RelayoutIfAuto();
    }

    method PlaceYLabel(position: YLabelPosition, changeLabelSize: bool, textWidth: Measure)
      modifies this
      ensures Snapshot() == YLabelPlaced(old(Snapshot()), position, changeLabelSize, textWidth)
    {
      styles := styles.(yLabelPosition := position);
      if changeLabelSize || (position != YLabelNone && labelWidth.None?) {
        CalculateLabelWidth(textWidth);
      }
    }

    method SetXLabelPosition(position: XLabelPosition, changeLabelSize: bool, textHeight: Measure)
      modifies this
      ensures Snapshot() == WithXLabelPosition(old(Snapshot()), position, changeLabelSize, textHeight)
    {
      if position == styles.xLabelPosition {
        return;
      }
      PlaceXLabel(position, changeLabelSize, textHeight);
      RelayoutIfAuto();
    }

    method PlaceXLabel(position: XLabelPosition, changeLabelSize: bool, textHeight: Measure)
      modifies this
      ensures Snapshot() == XLabelPlaced(old(Snapshot()), position, changeLabelSize, textHeight)
    {
      styles := styles.(xLabelPosition := position);
      if changeLabelSize || (position != XLabelNone && labelHeight.None?) {
        CalculateLabelHeight(textHeight);
      }
    }

    /** With auto-invalidate, ask for a layout and a redraw. */
    method RelayoutIfAuto()
      modifies this
      ensures Snapshot() == RelaidIfAuto(old(Snapshot()))
    {
      if autoInvalidate {
        layoutRequired := true;
        Invalidate();
      }
    }

    method ShowYLabel(b: bool, textWidth: Measure)
      modifies this
      ensures Snapshot() == GraphModel.ShowYLabel(old(Snapshot()), b, textWidth)
    {
      if b {
        SetYLabelPosition(YLabelLeft, true, textWidth);
      } else {
        SetYLabelPosition(YLabelNone, false, textWidth);
      }
    }

    method ShowXLabel(b: bool, textHeight: Measure)
      modifies this
      ensures Snapshot() == GraphModel.ShowXLabel(old(Snapshot()), b, textHeight)
    {
      if b {
        SetXLabelPosition(XLabelBottom, true, textHeight);
      } else {
        SetXLabelPosition(XLabelNone, false, textHeight);
      }
    }

    // -------------------------------------------------------------------
    // Bounds and counts

    method SetBounds(xMin: Option<real>, yMin: Option<real>, xMax: Option<real>, yMax: Option<real>,
                     keepGridNumbers: bool, changeLabelSize: bool)
      requires Valid()
      modifies this
      ensures Valid()
      ensures Snapshot() == WithBounds(old(Snapshot()), xMin, yMin, xMax, yMax, keepGridNumbers, changeLabelSize)
    {
      SnapBounds(xMin, yMin, xMax, yMax, keepGridNumbers, changeLabelSize);
      InvalidateIfAuto();
    }

    /** `setBounds` up to its closing redraw. */
    method SnapBounds(xMin: Option<real>, yMin: Option<real>, xMax: Option<real>, yMax: Option<real>,
                      keepGridNumbers: bool, changeLabelSize: bool)
      requires Valid()
      modifies this
      ensures Valid()
      ensures Snapshot() == SnappedBounds(old(Snapshot()), xMin, yMin, xMax, yMax, keepGridNumbers, changeLabelSize)
    {
      PlaceBounds(xMin, yMin, xMax, yMax);
      KeepCountsIf(keepGridNumbers);
      RequireLayoutIf(changeLabelSize);
    }

    /** The first step of `setBounds`. */
    method PlaceBounds(xMin: Option<real>, yMin: Option<real>, xMax: Option<real>, yMax: Option<real>)
      requires Valid()
      modifies this
      ensures Valid()
      ensures Snapshot() == PlacedBounds(old(Snapshot()), xMin, yMin, xMax, yMax)
    {
      syncBounds := false;
      this.xMin, this.xMax := RoundOpt(xMin, gridXInterval), RoundOpt(xMax, gridXInterval);
      this.yMin, this.yMax := RoundOpt(yMin, gridYInterval), RoundOpt(yMax, gridYInterval);
    }

    method KeepGridHeight(keep: bool)
      modifies this
      ensures Snapshot() == GridHeightKept(old(Snapshot()), keep)
    {
      keepGridHeight := keep;
      if keep {
        RequestLayout();
      }
    }

    method KeepGridWidth(keep: bool)
      modifies this
      ensures Snapshot() == GridWidthKept(old(Snapshot()), keep)
    {
      keepGridWidth := keep;
      if keep {
        RequestLayout();
      }
    }

    method KeepCountsIf(keep: bool)
      modifies this
      ensures Snapshot() == CountsKeptIf(old(Snapshot()), keep)
    {
      if !keep {
        xGridNumbers, yGridNumbers := None, None;
      }
    }

    method RequireLayoutIf(b: bool)
      modifies this
      ensures Snapshot() == LayoutRequiredIf(old(Snapshot()), b)
    {
      if b {
        layoutRequired := true;
      }
    }

    method SetYGridNumbers(numbers: int, keepGridHeight: bool)
      requires Valid()
      modifies this
      ensures Valid()
      ensures Snapshot() == WithYGridNumbers(old(Snapshot()), numbers, keepGridHeight)
    {
      yGridNumbers := CountOf(numbers);
      SetBounds(xMin, yMin, xMax, yMax, true, false);
      KeepGridHeight(keepGridHeight);
      InvalidateIfAuto();
    }

    method SetXGridNumbers(numbers: int, keepGridWidth: bool)
      requires Valid()
      modifies this
      ensures Valid()
      ensures Snapshot() == WithXGridNumbers(old(Snapshot()), numbers, keepGridWidth)
    {
      xGridNumbers := CountOf(numbers);
      SetBounds(xMin, yMin, xMax, yMax, true, false);
      KeepGridWidth(keepGridWidth);
      InvalidateIfAuto();
    }

    method SetYLargeGridNumbers(numbers: int, keepGridHeight: bool)
      requires Valid()
      modifies this
      ensures Valid()
      ensures Snapshot() == WithYGridNumbers(old(Snapshot()), old(gridsPerLargeGrid) * numbers, keepGridHeight)
    {
      SetYGridNumbers(gridsPerLargeGrid * numbers, keepGridHeight);
    }

    method SetXLargeGridNumbers(numbers: int, keepGridWidth: bool)
      requires Valid()
      modifies this
      ensures Valid()
      ensures Snapshot() == WithXGridNumbers(old(Snapshot()), old(gridsPerLargeGrid) * numbers, keepGridWidth)
    {
      SetXGridNumbers(gridsPerLargeGrid * numbers, keepGridWidth);
    }

    method SetLineGravity(gravity: LineGravity, keepBounds: bool)
      modifies this
      ensures Snapshot() == WithLineGravity(old(Snapshot()), gravity, keepBounds)
    {
      styles := styles.(lineGravity := gravity);
      if !keepBounds {
        yMin := None;
        yMax := None;
      }
      InvalidateIfAuto();
    }

    method SetGridYInterval(mV: real, keepBounds: bool)
      requires Valid() && mV != 0.0
      modifies this
      ensures Snapshot() == WithGridYInterval(old(Snapshot()), mV, keepBounds)
      ensures Valid()
    {
      gridYInterval := mV;
      if keepBounds {
        yGridNumbers := None;
      } else {
        yMin := None;
        yMax := None;
        SetBounds(xMin, yMin, xMax, yMax, true, false);
      }
      InvalidateIfAuto();
    }

    method SetGridXInterval(sec: real, keepBounds: bool)
      requires Valid() && sec != 0.0
      modifies this
      ensures Snapshot() == WithGridXInterval(old(Snapshot()), sec, keepBounds)
      ensures Valid()
    {
      gridXInterval := sec;
      if keepBounds {
        xGridNumbers := None;
      } else {
        xMin := None;
        xMax := None;
        SetBounds(xMin, yMin, xMax, yMax, true, false);
      }
      InvalidateIfAuto();
    }

    /** `setXMax`, with the lost-bound defect corrected. */
    method SetXMax(v: real, keepGridNumbers: bool)
      requires Valid()
      modifies this
      ensures Valid()
      ensures Snapshot() == WithXMax(old(Snapshot()), v, keepGridNumbers)
    {
      PlaceXMax(v, keepGridNumbers);
      InvalidateIfAuto();
    }

    method PlaceXMax(v: real, keepGridNumbers: bool)
      requires Valid()
      modifies this
      ensures Valid()
      ensures Snapshot() == XMaxPlaced(old(Snapshot()), v, keepGridNumbers)
    {
      syncBounds := false;
      var x := Round(v, gridXInterval);
      xMax := Some(x);
      if keepGridNumbers {
        if xGridNumbers.Some? {
          xMin := Some(x - GridSpan(xGridNumbers.value, gridXInterval));
        } else {
          xMin := None;
        }
      } else {
        xGridNumbers := None;
      }
    }

    method SetXMin(v: real, keepGridNumbers: bool)
      requires Valid()
      modifies this
      ensures Valid()
      ensures Snapshot() == WithXMin(old(Snapshot()), v, keepGridNumbers)
    {
      PlaceXMin(v, keepGridNumbers);
      InvalidateIfAuto();
    }

    method PlaceXMin(v: real, keepGridNumbers: bool)
      requires Valid()
      modifies this
      ensures Valid()
      ensures Snapshot() == XMinPlaced(old(Snapshot()), v, keepGridNumbers)
    {
      syncBounds := false;
      var x := Round(v, gridXInterval);
      xMin := Some(x);
      if keepGridNumbers {
        if xGridNumbers.Some? {
          xMax := Some(x + GridSpan(xGridNumbers.value, gridXInterval));
        } else {
          xMax := None;
        }
      } else {
        xGridNumbers := None;
      }
    }

    method SetYMax(v: real, keepGridNumbers: bool)
      requires Valid()
      modifies this
      ensures Valid()
      ensures Snapshot() == WithYMax(old(Snapshot()), v, keepGridNumbers)
    {
      PlaceYMax(v, keepGridNumbers);
      InvalidateIfAuto();
    }

    method PlaceYMax(v: real, keepGridNumbers: bool)
      requires Valid()
      modifies this
      ensures Valid()
      ensures Snapshot() == YMaxPlaced(old(Snapshot()), v, keepGridNumbers)
    {
      syncBounds := false;
      var y := Round(v, gridYInterval);
      yMax := Some(y);
      if keepGridNumbers {
        if yGridNumbers.Some? {
          yMin := Some(y - GridSpan(yGridNumbers.value, gridYInterval));
        } else {
          yMin := None;
        }
      } else {
        yGridNumbers := None;
      }
    }

    method SetYMin(v: real, keepGridNumbers: bool)
      requires Valid()
      modifies this
      ensures Valid()
      ensures Snapshot() == WithYMin(old(Snapshot()), v, keepGridNumbers)
    {
      PlaceYMin(v, keepGridNumbers);
      InvalidateIfAuto();
    }

    method PlaceYMin(v: real, keepGridNumbers: bool)
      requires Valid()
      modifies this
      ensures Valid()
      ensures Snapshot() == YMinPlaced(old(Snapshot()), v, keepGridNumbers)
    {
      syncBounds := false;
      var y := Round(v, gridYInterval);
      yMin := Some(y);
      if keepGridNumbers {
        if yGridNumbers.Some? {
          yMax := Some(y + GridSpan(yGridNumbers.value, gridYInterval));
        } else {
          yMax := None;
        }
      } else {
        yGridNumbers := None;
      }
    }

    /** `checkBounds`. */
    method CheckBounds(data: DataRange)
      requires Valid()
      modifies this
      ensures Valid()
      ensures Snapshot() == GraphBounds.CheckBounds(old(Snapshot()), data)
    {
      if syncBounds {
        xMin, yMin, xMax, yMax := None, None, None, None;
      }
      var x := CheckedX(xMin, xMax, Raw(xGridNumbers), gridXInterval, data);
      xMin, xMax := Some(x.lo), Some(x.hi);
      var y := CheckedY(styles.lineGravity, yMin, yMax, Raw(yGridNumbers), gridYInterval, data);
      yMin, yMax := Some(y.lo), Some(y.hi);
    }

    // -------------------------------------------------------------------
    // Layout

    method ResizeGridWidth(graphWidth: int, n: Option<int>)
      modifies this
      ensures Snapshot() == ResizedGridWidth(old(Snapshot()), graphWidth, n)
    {
      if n.None? {
        return;
      }
      xGridNumbers := n;
      styles := styles.(gridWidth := FloorDiv(graphWidth, n.value));
    }

    method ResizeGridHeight(graphHeight: int, n: Option<int>)
      modifies this
      ensures Snapshot() == ResizedGridHeight(old(Snapshot()), graphHeight, n)
    {
      if n.None? {
        return;
      }
      yGridNumbers := n;
      styles := styles.(gridHeight := FloorDiv(graphHeight, n.value));
    }

    /** `resizeGraph`. */
    method ResizeGraph(width: int, height: int, textWidth: Measure, textHeight: Measure)
      modifies this
      ensures Snapshot() == ResizedGraph(old(Snapshot()), width, height, textWidth, textHeight)
    {
      var w := width - styles.graphPadding * 2;
      var h := height - styles.graphPadding * 2;
      CalculateLabelWidth(textWidth);
      CalculateLabelHeight(textHeight);
      if styles.yLabelPosition != YLabelNone {
        w := w - LabelWidth(Snapshot()) - styles.labelPadding;
      }
      if styles.xLabelPosition != XLabelNone {
        h := h - LabelHeight(Snapshot()) - styles.labelPadding;
      }
      ResizeGridWidth(w, xGridNumbers);
      ResizeGridHeight(h, yGridNumbers);
    }

    /** `generateXGrids(width)`, corrected: the branches of the source,
      then the count re-derived from the cell width. */
    method GenerateXGrids(graphWidth: int)
      requires Valid()
      modifies this
      ensures Valid()
      ensures Snapshot() == GraphLayout.GenerateXGrids(old(Snapshot()), graphWidth)
    {
      if xMin.Some? && xMax.Some? {
        RegridXGrids(graphWidth, xMin.value, xMax.value);
      } else {
        var n := FloorDiv(graphWidth, styles.gridWidth);
        xGridNumbers := CountOf(n);
        if xMin.None? && xMax.None? {
          xMax := Some(0.0);
          xMin := Some(-GridSpan(n, gridXInterval));
        } else if xMax.None? {
          xMax := Some(xMin.value + GridSpan(n, gridXInterval));
        } else {
          xMin := Some(xMax.value - GridSpan(n, gridXInterval));
        }
      }
      xGridNumbers := CountOf(FloorDiv(graphWidth, styles.gridWidth));
    }

    /** `generateXGrids(width, min, max)`: nothing while the count is
      unset; otherwise snap the bounds outward, count the steps between
      them and share the width among them. `layout` calls it only while
      the count is unset, so it never reaches the snapping branch. */
    method RegridXGrids(graphWidth: int, min: real, max: real)
      requires Valid()
      modifies this
      ensures Valid()
      ensures Snapshot() == RegridX(old(Snapshot()), graphWidth, min, max)
    {
      if xGridNumbers.None? {
        return;
      }
      if max < min {
        xMin := Some(Floor(max, gridXInterval));
        xMax := Some(Ceil(min, gridXInterval));
      } else {
        xMax := Some(Ceil(max, gridXInterval));
        xMin := Some(Floor(min, gridXInterval));
      }
      var n := Trunc((xMax.value - xMin.value) / gridXInterval);
      xGridNumbers := CountOf(n);
      styles := styles.(gridWidth := FloorDiv(graphWidth, n));
    }

    /** `generateYGrids(height)`: the branches of the source, then the count
      re-derived from the cell height. */
    method GenerateYGrids(graphHeight: int)
      requires Valid()
      modifies this
      ensures Valid()
      ensures Snapshot() == GraphLayout.GenerateYGrids(old(Snapshot()), graphHeight)
    {
      if yMin.Some? && yMax.Some? {
        RegridYGrids(graphHeight, yMin.value, yMax.value);
      } else {
        var n := FloorDiv(graphHeight, styles.gridHeight);
        yGridNumbers := CountOf(n);
        if yMin.None? && yMax.None? {
          yMin := Some(0.0);
          yMax := Some(GridSpan(n, gridYInterval));
        } else if yMax.None? {
          yMax := Some(yMin.value + GridSpan(n, gridYInterval));
        } else {
          yMin := Some(yMax.value - GridSpan(n, gridYInterval));
        }
      }
      yGridNumbers := CountOf(FloorDiv(graphHeight, styles.gridHeight));
    }

    /** `generateYGrids(height, min, max)`: as for x, but the count is taken
      from the bounds before snapping. As for x, `layout` calls it only
      while the count is unset, so it never reaches the snapping branch. */
    method RegridYGrids(graphHeight: int, min: real, max: real)
      requires Valid()
      modifies this
      ensures Valid()
      ensures Snapshot() == RegridY(old(Snapshot()), graphHeight, min, max)
    {
      if yGridNumbers.None? {
        return;
      }
      if max < min {
        yMax := Some(Ceil(min, gridYInterval));
        yMin := Some(Floor(max, gridYInterval));
      } else {
        yMax := Some(Ceil(max, gridYInterval));
        yMin := Some(Floor(min, gridYInterval));
      }
      var n := Trunc((max - min) / gridYInterval);
      yGridNumbers := CountOf(n);
      styles := styles.(gridHeight := FloorDiv(graphHeight, n));
    }

    /** The x step of `layout`: generate the x grids while the count is
      unset, otherwise refit the cells unless the size changed or the cell
      width is kept. */
    method LayoutHorizontal(changed: bool, reservedWidth: int)
      requires Valid()
      modifies this
      ensures Valid()
      ensures Snapshot() == LayoutX(old(Snapshot()), changed, reservedWidth, true)
    {
      if xGridNumbers.None? {
        GenerateXGrids(reservedWidth);
      } else if !changed && !keepGridWidth {
        ResizeGridWidth(reservedWidth, xGridNumbers);
      }
    }

    /** The y step of `layout`. */
    method LayoutVertical(changed: bool, reservedHeight: int)
      requires Valid()
      modifies this
      ensures Valid()
      ensures Snapshot() == LayoutY(old(Snapshot()), changed, reservedHeight)
    {
      if yGridNumbers.None? {
        GenerateYGrids(reservedHeight);
      } else if !changed && !keepGridHeight {
        ResizeGridHeight(reservedHeight, yGridNumbers);
      }
    }

    /** `layout`, with the corrected x grid generation. */
    method Layout(changed: bool, left: int, top: int, right: int, bottom: int,
                  textWidth: Measure, textHeight: Measure)
      requires Valid()
      modifies this
      ensures Valid()
      ensures Snapshot() == LaidOut(old(Snapshot()), changed, left, top, right, bottom, textWidth, textHeight)
    {
      var width := right - left;
      var height := bottom - top;
      LayoutHorizontal(changed, ReservedWidth(Snapshot(), width));
      LayoutVertical(changed, ReservedHeight(Snapshot(), height));
      Settle(changed, width, height, textWidth, textHeight);
    }

    /** The last step of `layout`. */
    method Settle(changed: bool, width: int, height: int, textWidth: Measure, textHeight: Measure)
      modifies this
      ensures Snapshot() == Settled(old(Snapshot()), changed, width, height, textWidth, textHeight)
    {
      if changed {
        ResizeGraph(width, height, textWidth, textHeight);
        layoutRequired := false;
      }
    }

    // -------------------------------------------------------------------
    // Drawing

    /** `draw`: while a count is unset or a layout is pending, ask the host
      for a layout and draw nothing; otherwise fix the bounds, draw both
      passes and mark the redraw as served. */
    method Draw(left: int, top: int, data: DataRange) returns (marks: seq<Mark>)
      requires Valid() && gridsPerLargeGrid != 0
      modifies this
      ensures Valid()
      ensures marks == DrawnMarks(old(Snapshot()), left, top, data)
      ensures Snapshot() == AfterDraw(old(Snapshot()), data)
    {
      if xGridNumbers.None? || yGridNumbers.None? || layoutRequired {
        layoutRequests := layoutRequests + 1;
        return [];
      }
      CheckBounds(data);
      var horizontal := EmitMarks(HorizontalPlan(Snapshot(), left, top));
      var vertical := EmitMarks(VerticalPlanAsWritten(Snapshot(), left, top));
      marks := horizontal + vertical;
      invalidateRequired := false;
    }
  }
}

=== FILE: graph_bounds.dfy ===
/** How the grid engine fixes the four bounds before drawing
    (`checkBounds`, `calculateXBounds`, `calculateYBounds` of Graph.java). */
module GraphBounds {

  import opened Options
  import opened GridMath
  import opened GraphModel

  /** The extent of the plotted data as the host view reports it (the
      series' x and y extremes). */
  datatype DataRange = DataRange(xMin: real, xMax: real, yMin: real, yMax: real)

  /** A pair of bounds of one axis. */
  datatype Bounds = Bounds(lo: real, hi: real)

  /** `calculateXBounds`: whatever the x range is, scroll to its end. The
      upper bound is the grid line after `max`; the grid spans `n` steps. */
  function XBounds(max: real, n: int, gi: real): Bounds
    requires gi != 0.0
  {
    var hi := Ceil(max, gi);
    Bounds(hi - GridSpan(n, gi), hi)
  }

  /** `calculateYBounds(min, max)`, called with the stored bounds equal to
      `min` and `max`. Equal bounds are widened from the grid line above;
      bounds already `n` steps apart are kept; otherwise the bounds are
      placed by the line gravity. */
  function YAxisBounds(g: LineGravity, n: int, gi: real, min: real, max: real): Bounds
    requires gi != 0.0
  {
    var span := GridSpan(n, gi);
    if min == max then Bounds(Ceil(max, gi), min + span)
    else if max == min + span then Bounds(min, max)
    else
      var a := if min > max then max else min;
      var b := if min > max then min else max;
      match g
      case GravityTop =>
        var hi := Ceil(b, gi);
        Bounds(hi - span, hi)
      case GravityBottom =>
        var lo := Floor(a, gi);
        Bounds(lo, lo + span)
      case GravityCenter =>
        var half := span / 2.0;
        var mid := (b + a) / 2.0;
        Bounds(Ceil(mid - half, gi), Ceil(mid + half, gi))
  }

  /** The x half of `checkBounds`: both bounds set, both unset (taken from
      the data), or one set and the other `n` steps away. */
  function CheckedX(min: Option<real>, max: Option<real>, n: int, gi: real, data: DataRange): Bounds
    requires gi != 0.0
  {
    if min.Some? && max.Some? then XBounds(max.value, n, gi)
    else if min.None? && max.None? then XBounds(Round(data.xMax, gi), n, gi)
    else if max.None? then Bounds(min.value, min.value + GridSpan(n, gi))
    else Bounds(max.value - GridSpan(n, gi), max.value)
  }

  /** The y half of `checkBounds`. */
  function CheckedY(g: LineGravity, min: Option<real>, max: Option<real>, n: int, gi: real,
                    data: DataRange): Bounds
    requires gi != 0.0
  {
    if min.Some? && max.Some? then YAxisBounds(g, n, gi, min.value, max.value)
    else if min.None? && max.None? then YAxisBounds(g, n, gi, Round(data.yMin, gi), Round(data.yMax, gi))
    else if max.None? then Bounds(min.value, min.value + GridSpan(n, gi))
    else Bounds(max.value - GridSpan(n, gi), max.value)
  }

  /** `checkBounds`: with auto bounds every bound is first unset; then both
      axes are fixed. All four bounds are set afterwards and nothing else
      changes. */
  function CheckBounds(s: GraphState, data: DataRange): (r: GraphState)
    requires IntervalsSet(s)
    ensures r.xMin.Some? && r.xMax.Some? && r.yMin.Some? && r.yMax.Some?
    ensures r.(xMin := s.xMin, xMax := s.xMax, yMin := s.yMin, yMax := s.yMax) == s
  {
    var xMin := if s.syncBounds then None else s.xMin;
    var xMax := if s.syncBounds then None else s.xMax;
    var yMin := if s.syncBounds then None else s.yMin;
    var yMax := if s.syncBounds then None else s.yMax;
    var x := CheckedX(xMin, xMax, Raw(s.xGridNumbers), s.gridXInterval, data);
    var y := CheckedY(s.styles.lineGravity, yMin, yMax, Raw(s.yGridNumbers), s.gridYInterval, data);
    s.(xMin := Some(x.lo), xMax := Some(x.hi), yMin := Some(y.lo), yMax := Some(y.hi))
  }

  // ---------------------------------------------------------------------
  // Lemmas

  /** The x bounds end on the first grid line past `max` and span exactly
      `n` steps, both on the grid. */
  lemma XBoundsSnapToGrid(max: real, n: int, gi: real)
    requires gi > 0.0
    ensures var r := XBounds(max, n, gi);
            && OnGrid(r.hi, gi) && OnGrid(r.lo, gi)
            && r.hi - r.lo == GridSpan(n, gi)
            && max < r.hi <= max + gi
  {
    CeilBounds(max, gi);
    var k := (max / gi).Floor + 1;
    assert Ceil(max, gi) == GridSpan(k, gi);
    GridSpanLinear(k, n, gi);
    GridSpanOnGrid(k, gi);
    GridSpanOnGrid(k - n, gi);
  }

  /** With TOP gravity the grid ends on the first line above the larger
      value and spans `n` steps down; both ends are grid lines, and the
      smaller value is inside whenever the values are at most `n - 1`
      steps apart. */
  lemma GravityTopPlacement(n: int, gi: real, min: real, max: real)
    requires gi > 0.0 && min != max && max != min + GridSpan(n, gi)
    ensures var r := YAxisBounds(GravityTop, n, gi, min, max);
            var a := if min > max then max else min;
            var b := if min > max then min else max;
            && r.hi - r.lo == GridSpan(n, gi)
            && OnGrid(r.hi, gi) && OnGrid(r.lo, gi)
            && b < r.hi <= b + gi
            && (b - a <= GridSpan(n - 1, gi) ==> r.lo <= a)
  {
    var b := if min > max then min else max;
    var r := YAxisBounds(GravityTop, n, gi, min, max);
    assert r == Bounds(Ceil(b, gi) - GridSpan(n, gi), Ceil(b, gi));
    CeilBounds(b, gi);
    var k := (b / gi).Floor + 1;
    assert Ceil(b, gi) == GridSpan(k, gi);
    GridSpanLinear(k, n, gi);
    GridSpanOnGrid(k - n, gi);
    GridSpanOnGrid(k, gi);
    GridSpanLinear(n, 1, gi);
  }

  /** With BOTTOM gravity the grid starts on the last line at or below the
      smaller value (unless that value is within the tolerance below a
      line) and spans `n` steps up. */
  lemma GravityBottomPlacement(n: int, gi: real, min: real, max: real)
    requires gi > 0.0 && min != max && max != min + GridSpan(n, gi)
    ensures var r := YAxisBounds(GravityBottom, n, gi, min, max);
            var a := if min > max then max else min;
            var b := if min > max then min else max;
            && r.hi - r.lo == GridSpan(n, gi)
            && r.lo <= a
            && (gi - EMod(a, gi) >= Tolerance ==>
                  OnGrid(r.lo, gi) && OnGrid(r.hi, gi) && a < r.lo + gi
                  && (b - a < GridSpan(n - 1, gi) ==> b <= r.hi))
  {
    var a := if min > max then max else min;
    var r := YAxisBounds(GravityBottom, n, gi, min, max);
    assert r == Bounds(Floor(a, gi), Floor(a, gi) + GridSpan(n, gi));
    FloorBounds(a, gi);
    if gi - EMod(a, gi) >= Tolerance {
      var k := (a / gi).Floor;
      assert Floor(a, gi) == GridSpan(k, gi);
      GridSpanLinear(k, n, gi);
      GridSpanOnGrid(k, gi);
      GridSpanOnGrid(k + n, gi);
      GridSpanLinear(n, 1, gi);
    }
  }

  /** With CENTER gravity both ends are grid lines exactly `n` steps apart,
      each within one step above the ends of the window of `n` steps
      centred on the midpoint of the values. */
  lemma GravityCenterPlacement(n: int, gi: real, min: real, max: real)
    requires gi > 0.0 && min != max && max != min + GridSpan(n, gi)
    ensures var r := YAxisBounds(GravityCenter, n, gi, min, max);
            var mid := (min + max) / 2.0;
            var half := GridSpan(n, gi) / 2.0;
            && r.hi - r.lo == GridSpan(n, gi)
            && OnGrid(r.hi, gi) && OnGrid(r.lo, gi)
            && mid - half < r.lo <= mid - half + gi
            && mid + half < r.hi <= mid + half + gi
  {
    var a := if min > max then max else min;
    var b := if min > max then min else max;
    var mid := (b + a) / 2.0;
    var half := GridSpan(n, gi) / 2.0;
    var t := mid - half;
    var u := mid + half;
    var r := YAxisBounds(GravityCenter, n, gi, min, max);
    assert r.lo == Ceil(t, gi) && r.hi == Ceil(u, gi);
    assert mid == (min + max) / 2.0;
    assert u == t + GridSpan(n, gi);
    CeilShift(t, n, gi);
    CeilBounds(t, gi);
    CeilBounds(u, gi);
  }

  /** Bounds that already span `n` steps are kept as they are, whatever
      the gravity. */
  lemma SpanningBoundsKept(g: LineGravity, n: int, gi: real, min: real)
    requires gi != 0.0 && n != 0
    ensures YAxisBounds(g, n, gi, min, min + GridSpan(n, gi)) == Bounds(min, min + GridSpan(n, gi))
  {
  }

  /** Equal bounds are widened to start on the grid line above them and to
      end `n` steps above the value itself, so the grid spans between
      `n - 1` and `n` steps. */
  lemma EqualBoundsWidened(g: LineGravity, n: int, gi: real, v: real)
    requires gi > 0.0
    ensures var r := YAxisBounds(g, n, gi, v, v);
            && OnGrid(r.lo, gi) && v < r.lo <= v + gi
            && GridSpan(n - 1, gi) <= r.hi - r.lo < GridSpan(n, gi)
  {
    CeilBounds(v, gi);
  }

  /** Apart from the two order-sensitive special cases, the gravity
      placement does not depend on the order of its arguments. */
  lemma SwappedBoundsAgree(g: LineGravity, n: int, gi: real, min: real, max: real)
    requires gi != 0.0 && min != max
    requires max != min + GridSpan(n, gi) && min != max + GridSpan(n, gi)
    ensures YAxisBounds(g, n, gi, min, max) == YAxisBounds(g, n, gi, max, min)
  {
  }

  /** Bounds set explicitly (auto bounds off, both set) survive a bounds
      check when they already span the count: the stored y bounds are
      drawn as they are. */
  lemma ExplicitYBoundsSurviveCheck(s: GraphState, data: DataRange)
    requires IntervalsSet(s) && !s.syncBounds
    requires s.yMin.Some? && s.yMax.Some? && s.yGridNumbers.Some? && s.yGridNumbers.value != 0
    requires s.yMax.value == s.yMin.value + GridSpan(s.yGridNumbers.value, s.gridYInterval)
    ensures CheckBounds(s, data).yMin == s.yMin && CheckBounds(s, data).yMax == s.yMax
  {
    SpanningBoundsKept(s.styles.lineGravity, s.yGridNumbers.value, s.gridYInterval, s.yMin.value);
  }

  /** With auto bounds the stored bounds do not matter: the check depends on
      the data only. */
  lemma AutoBoundsIgnoreStored(s: GraphState, data: DataRange, xMin: Option<real>, xMax: Option<real>,
                               yMin: Option<real>, yMax: Option<real>)
    requires IntervalsSet(s) && s.syncBounds
    ensures CheckBounds(s.(xMin := xMin, xMax := xMax, yMin := yMin, yMax := yMax), data) == CheckBounds(s, data)
  {
  }

  /** With auto bounds the x grid ends one line past the rounded data
      maximum and spans the x count. */
  lemma AutoXBoundsFollowData(s: GraphState, data: DataRange)
    requires IntervalsSet(s) && s.syncBounds && s.gridXInterval > 0.0
    ensures var r := CheckBounds(s, data);
            var m := Round(data.xMax, s.gridXInterval);
            && m < r.xMax.value <= m + s.gridXInterval
            && OnGrid(r.xMax.value, s.gridXInterval)
            && r.xMax.value - r.xMin.value == GridSpan(Raw(s.xGridNumbers), s.gridXInterval)
  {
    XBoundsSnapToGrid(Round(data.xMax, s.gridXInterval), Raw(s.xGridNumbers), s.gridXInterval);
  }

  /** One bound set: the other is placed the count away. */
  lemma OneBoundSpans(s: GraphState, data: DataRange)
    requires IntervalsSet(s) && !s.syncBounds
    requires s.yMin.Some? != s.yMax.Some?
    ensures var r := CheckBounds(s, data);
            && r.yMax.value - r.yMin.value == GridSpan(Raw(s.yGridNumbers), s.gridYInterval)
            && (s.yMin.Some? ==> r.yMin == s.yMin)
            && (s.yMax.Some? ==> r.yMax == s.yMax)
  {
  }

  /** The x counterpart: with exactly one x bound set (and no
      synchronisation), that bound is kept and the other is placed the
      count's span away. */
  lemma OneXBoundSpans(s: GraphState, data: DataRange)
    requires IntervalsSet(s) && !s.syncBounds
    requires s.xMin.Some? != s.xMax.Some?
    ensures var r := CheckBounds(s, data);
            && r.xMax.value - r.xMin.value == GridSpan(Raw(s.xGridNumbers), s.gridXInterval)
            && (s.xMin.Some? ==> r.xMin == s.xMin)
            && (s.xMax.Some? ==> r.xMax == s.xMax)
  {
  }
}

=== FILE: graph_layout.dfy ===
/** How the grid engine sizes its grid to the space the host view gives it
    (`generateXGrids`, `generateYGrids`, `resizeGridWidth`,
    `resizeGridHeight`, `resizeGraph` and `layout` of Graph.java). */
module GraphLayout {

  import opened Options
  import opened GridMath
  import opened GraphModel

  /** `generateXGrids(width, xMin, xMax)`: snap the bounds outward, count
      the steps between them and share the width among them. It does
      nothing while the x count is unset, which is the only state in which
      `layout` calls it, so the snapping branch is not reached from
      `layout`. */
  function RegridX(s: GraphState, width: int, min: real, max: real): (r: GraphState)
    requires IntervalsSet(s)
    ensures s.xGridNumbers.None? ==> r == s
    ensures r == s.(xGridNumbers := r.xGridNumbers, xMin := r.xMin, xMax := r.xMax,
                    styles := s.styles.(gridWidth := r.styles.gridWidth))
  {
    if s.xGridNumbers.None? then s
    else
      var gi := s.gridXInterval;
      var lo := if max < min then Floor(max, gi) else Floor(min, gi);
      var hi := if max < min then Ceil(min, gi) else Ceil(max, gi);
      var n := Trunc((hi - lo) / gi);
      s.(xMin := Some(lo), xMax := Some(hi), xGridNumbers := CountOf(n),
         styles := s.styles.(gridWidth := FloorDiv(width, n)))
  }

  /** `generateYGrids(height, yMin, yMax)`: as for x, except that the count
      is taken from the bounds before snapping. Like x, it does nothing
      while the y count is unset, the only state in which `layout` calls
      it, so the snapping branch is not reached from `layout`. */
  function RegridY(s: GraphState, height: int, min: real, max: real): (r: GraphState)
    requires IntervalsSet(s)
    ensures s.yGridNumbers.None? ==> r == s
    ensures r == s.(yGridNumbers := r.yGridNumbers, yMin := r.yMin, yMax := r.yMax,
                    styles := s.styles.(gridHeight := r.styles.gridHeight))
  {
    if s.yGridNumbers.None? then s
    else
      var gi := s.gridYInterval;
      var hi := if max < min then Ceil(min, gi) else Ceil(max, gi);
      var lo := if max < min then Floor(max, gi) else Floor(min, gi);
      var n := Trunc((max - min) / gi);
      s.(yMin := Some(lo), yMax := Some(hi), yGridNumbers := CountOf(n),
         styles := s.styles.(gridHeight := FloorDiv(height, n)))
  }

  /** `generateXGrids(width)` exactly as written. With both bounds set it
      defers to `RegridX`, which does nothing because this is only reached
      while the x count is unset; otherwise the count is the number of whole
      cells that fit, and the missing bounds are placed from it (both unset:
      the grid ends at 0). */
  function GenerateXGridsAsWritten(s: GraphState, width: int): (r: GraphState)
    requires IntervalsSet(s)
    ensures s.xGridNumbers.None? ==> r.styles == s.styles
    ensures r == s.(xGridNumbers := r.xGridNumbers, xMin := r.xMin, xMax := r.xMax,
                    styles := s.styles.(gridWidth := r.styles.gridWidth))
  {
    var gi := s.gridXInterval;
    var n := FloorDiv(width, s.styles.gridWidth);
    if s.xMin.Some? && s.xMax.Some? then RegridX(s, width, s.xMin.value, s.xMax.value)
    else if s.xMin.None? && s.xMax.None? then
      s.(xGridNumbers := CountOf(n), xMax := Some(0.0), xMin := Some(-GridSpan(n, gi)))
    else if s.xMax.None? then s.(xGridNumbers := CountOf(n), xMax := Some(s.xMin.value + GridSpan(n, gi)))
    else s.(xGridNumbers := CountOf(n), xMin := Some(s.xMax.value - GridSpan(n, gi)))
  }

  /** `generateXGrids(width)` corrected as `generateYGrids(height)` does it:
      the count is always re-derived from the cell width at the end. The
      rest of the model uses this definition. */
  function GenerateXGrids(s: GraphState, width: int): (r: GraphState)
    requires IntervalsSet(s)
    ensures r.xGridNumbers == CountOf(FloorDiv(width, r.styles.gridWidth))
    ensures r == s.(xGridNumbers := r.xGridNumbers, xMin := r.xMin, xMax := r.xMax,
                    styles := s.styles.(gridWidth := r.styles.gridWidth))
  {
    var t := GenerateXGridsAsWritten(s, width);
    t.(xGridNumbers := CountOf(FloorDiv(width, t.styles.gridWidth)))
  }

  /** The branches of `generateYGrids(height)`: with both bounds set defer
      to `RegridY`; otherwise count the whole cells that fit and place the
      missing bounds from the count (both unset: the grid starts at 0). */
  function PlaceYGrids(s: GraphState, height: int): (r: GraphState)
    requires IntervalsSet(s)
    ensures s.yGridNumbers.None? ==> r.styles == s.styles
    ensures r == s.(yGridNumbers := r.yGridNumbers, yMin := r.yMin, yMax := r.yMax,
                    styles := s.styles.(gridHeight := r.styles.gridHeight))
  {
    var gi := s.gridYInterval;
    var n := FloorDiv(height, s.styles.gridHeight);
    if s.yMin.Some? && s.yMax.Some? then RegridY(s, height, s.yMin.value, s.yMax.value)
    else if s.yMin.None? && s.yMax.None? then
      s.(yGridNumbers := CountOf(n), yMin := Some(0.0), yMax := Some(GridSpan(n, gi)))
    else if s.yMax.None? then s.(yGridNumbers := CountOf(n), yMax := Some(s.yMin.value + GridSpan(n, gi)))
    else s.(yGridNumbers := CountOf(n), yMin := Some(s.yMax.value - GridSpan(n, gi)))
  }

  /** `generateYGrids(height)`: the branches above, after which the count is
      always re-derived from the cell height. */
  function GenerateYGrids(s: GraphState, height: int): (r: GraphState)
    requires IntervalsSet(s)
    ensures r.yGridNumbers == CountOf(FloorDiv(height, r.styles.gridHeight))
    ensures r == s.(yGridNumbers := r.yGridNumbers, yMin := r.yMin, yMax := r.yMax,
                    styles := s.styles.(gridHeight := r.styles.gridHeight))
  {
    var t := PlaceYGrids(s, height);
    t.(yGridNumbers := CountOf(FloorDiv(height, t.styles.gridHeight)))
  }

  /** `resizeGridWidth`: keep `n` columns and share the width among them;
      nothing happens for an unset `n`. */
  function ResizedGridWidth(s: GraphState, width: int, n: Option<int>): (r: GraphState)
    ensures n.Some? ==> r.xGridNumbers == n
    ensures r == s.(xGridNumbers := r.xGridNumbers, styles := s.styles.(gridWidth := r.styles.gridWidth))
  {
    if n.None? then s
    else s.(xGridNumbers := n, styles := s.styles.(gridWidth := FloorDiv(width, n.value)))
  }

  function ResizedGridHeight(s: GraphState, height: int, n: Option<int>): (r: GraphState)
    ensures n.Some? ==> r.yGridNumbers == n
    ensures r == s.(yGridNumbers := r.yGridNumbers, styles := s.styles.(gridHeight := r.styles.gridHeight))
  {
    if n.None? then s
    else s.(yGridNumbers := n, styles := s.styles.(gridHeight := FloorDiv(height, n.value)))
  }

  /** `resizeGraph`: recompute both label sizes, then fit the cells into
      what remains of the view after the padding and the visible labels. */
  function ResizedGraph(s: GraphState, width: int, height: int, textWidth: Measure,
                        textHeight: Measure): (r: GraphState)
    ensures r.xGridNumbers == s.xGridNumbers && r.yGridNumbers == s.yGridNumbers
    ensures r == s.(labelWidth := r.labelWidth, labelHeight := r.labelHeight,
                    styles := s.styles.(gridWidth := r.styles.gridWidth, gridHeight := r.styles.gridHeight))
  {
    var t := WithLabelHeightCalculated(WithLabelWidthCalculated(s, textWidth), textHeight);
    var w := width - 2 * t.styles.graphPadding
             - (if YLabelsVisible(t) then LabelWidth(t) + t.styles.labelPadding else 0);
    var h := height - 2 * t.styles.graphPadding
             - (if XLabelsVisible(t) then LabelHeight(t) + t.styles.labelPadding else 0);
    var u := ResizedGridWidth(t, w, t.xGridNumbers);
    ResizedGridHeight(u, h, u.yGridNumbers)
  }

  /** The x part of `layout`: generate the x grids while the count is
      unset, otherwise refit the cells unless the size changed or the cell
      width is kept. */
  function LayoutX(s: GraphState, changed: bool, reservedWidth: int, correctedX: bool): (r: GraphState)
    requires IntervalsSet(s)
    ensures r == s.(xGridNumbers := r.xGridNumbers, xMin := r.xMin, xMax := r.xMax,
                    styles := s.styles.(gridWidth := r.styles.gridWidth))
  {
    if s.xGridNumbers.None? then
      (if correctedX then GenerateXGrids(s, reservedWidth) else GenerateXGridsAsWritten(s, reservedWidth))
    else if !changed && !s.keepGridWidth then ResizedGridWidth(s, reservedWidth, s.xGridNumbers)
    else s
  }

  /** The y part of `layout`. */
  function LayoutY(s: GraphState, changed: bool, reservedHeight: int): (r: GraphState)
    requires IntervalsSet(s)
    ensures r == s.(yGridNumbers := r.yGridNumbers, yMin := r.yMin, yMax := r.yMax,
                    styles := s.styles.(gridHeight := r.styles.gridHeight))
  {
    if s.yGridNumbers.None? then GenerateYGrids(s, reservedHeight)
    else if !changed && !s.keepGridHeight then ResizedGridHeight(s, reservedHeight, s.yGridNumbers)
    else s
  }

  /** The steps of `layout`, with the x grids generated as written or as
      corrected. The reserved width drops the outer padding only when the
      y labels are hidden, and the reserved height tests the y labels but
      subtracts the label height, as in the source. */
  function LayoutSteps(s: GraphState, changed: bool, left: int, top: int, right: int, bottom: int,
                       textWidth: Measure, textHeight: Measure, correctedX: bool): GraphState
    requires IntervalsSet(s)
  {
    var width := right - left;
    var height := bottom - top;
    var t := LayoutX(s, changed, ReservedWidth(s, width), correctedX);
    Settled(LayoutY(t, changed, ReservedHeight(t, height)), changed, width, height, textWidth, textHeight)
  }

  /** The width `layout` leaves for the grid: the view less the label width
      and padding when the y labels show, else less both outer paddings. */
  function ReservedWidth(s: GraphState, width: int): int
  {
    if YLabelsVisible(s) then width - LabelWidth(s) - s.styles.labelPadding
    else width - 2 * s.styles.graphPadding
  }

  /** The height `layout` leaves for the grid. As written it tests whether
      the y labels show, and then subtracts the x-label height. */
  function ReservedHeight(s: GraphState, height: int): int
  {
    if YLabelsVisible(s) then height - LabelHeight(s) - s.styles.labelPadding
    else height - 2 * s.styles.graphPadding
  }

  /** The last step of `layout`: after a size change the graph is refitted
      to the view and the pending layout is served. */
  function Settled(s: GraphState, changed: bool, width: int, height: int, textWidth: Measure,
                   textHeight: Measure): GraphState
  {
    if changed then ResizedGraph(s, width, height, textWidth, textHeight).(layoutRequired := false)
    else s
  }

  /** `layout` exactly as written. */
  function LaidOutAsWritten(s: GraphState, changed: bool, left: int, top: int, right: int, bottom: int,
                            textWidth: Measure, textHeight: Measure): GraphState
    requires IntervalsSet(s)
  {
    LayoutSteps(s, changed, left, top, right, bottom, textWidth, textHeight, false)
  }

  /** `layout` with the corrected x grid generation. */
  function LaidOut(s: GraphState, changed: bool, left: int, top: int, right: int, bottom: int,
                   textWidth: Measure, textHeight: Measure): GraphState
    requires IntervalsSet(s)
  {
    LayoutSteps(s, changed, left, top, right, bottom, textWidth, textHeight, true)
  }

  // ---------------------------------------------------------------------
  // Lemmas

  /** Resizing to `n > 0` cells of a non-negative extent keeps the count
      and picks the widest cell that fits: `n` cells fit, `n` cells one
      pixel wider do not. An unset count changes nothing. */
  lemma ResizeFits(s: GraphState, w: int, h: int, n: Option<int>)
    ensures n.None? ==> ResizedGridWidth(s, w, n) == s && ResizedGridHeight(s, h, n) == s
    ensures n.Some? && n.value > 0 ==>
              var r := ResizedGridWidth(s, w, n);
              && r.xGridNumbers == n
              && GraphWidth(r) <= w < GraphWidth(r) + n.value
    ensures n.Some? && n.value > 0 ==>
              var r := ResizedGridHeight(s, h, n);
              && r.yGridNumbers == n
              && GraphHeight(r) <= h < GraphHeight(r) + n.value
  {
    if n.Some? && n.value > 0 {
      var k := n.value;
      FloorDivBounds(w, k);
      FloorDivBounds(h, k);
      assert GraphWidth(ResizedGridWidth(s, w, n)) == FloorDiv(w, k) * k;
      assert GraphHeight(ResizedGridHeight(s, h, n)) == FloorDiv(h, k) * k;
    }
  }

  /** After `resizeGraph(width, height)` with positive counts, the label
      sizes are fresh and the measured size of the graph fits the view:
      `getWidth() <= width < getWidth() + columns`, and likewise for the
      height. */
  lemma ResizedGraphFitsView(s: GraphState, width: int, height: int, tw: Measure, th: Measure)
    requires s.xGridNumbers.Some? && s.xGridNumbers.value > 0
    requires s.yGridNumbers.Some? && s.yGridNumbers.value > 0
    ensures var r := ResizedGraph(s, width, height, tw, th);
            && r.labelWidth == CountOf(LabelWidthCalculated(s, tw))
            && r.labelHeight == CountOf(LabelHeightCalculated(s, th))
            && r.xGridNumbers == s.xGridNumbers && r.yGridNumbers == s.yGridNumbers
            && Width(r, tw) <= width < Width(r, tw) + s.xGridNumbers.value
            && Height(r, th) <= height < Height(r, th) + s.yGridNumbers.value
  {
    ResizedGraphFitsWidth(s, width, height, tw, th);
    ResizedGraphFitsHeight(s, width, height, tw, th);
  }

  /** The width half of `ResizedGraphFitsView`. */
  lemma ResizedGraphFitsWidth(s: GraphState, width: int, height: int, tw: Measure, th: Measure)
    requires s.xGridNumbers.Some? && s.xGridNumbers.value > 0
    ensures var r := ResizedGraph(s, width, height, tw, th);
            && r.labelWidth == CountOf(LabelWidthCalculated(s, tw))
            && Width(r, tw) <= width < Width(r, tw) + s.xGridNumbers.value
  {
    var t := WithLabelHeightCalculated(WithLabelWidthCalculated(s, tw), th);
    var w := width - 2 * t.styles.graphPadding
             - (if YLabelsVisible(t) then LabelWidth(t) + t.styles.labelPadding else 0);
    var n := s.xGridNumbers.value;
    var r := ResizedGraph(s, width, height, tw, th);
    assert r.labelWidth == t.labelWidth && r.styles.gridWidth == FloorDiv(w, n);
    assert r.styles.graphPadding == t.styles.graphPadding && r.styles.labelPadding == t.styles.labelPadding;
    assert r.styles.yLabelPosition == t.styles.yLabelPosition;
    FloorDivBounds(w, n);
    assert AfterWidth(r, tw) == r;
    assert Width(r, tw) == width - w + FloorDiv(w, n) * n;
  }

  /** The height half of `ResizedGraphFitsView`. */
  lemma ResizedGraphFitsHeight(s: GraphState, width: int, height: int, tw: Measure, th: Measure)
    requires s.yGridNumbers.Some? && s.yGridNumbers.value > 0
    ensures var r := ResizedGraph(s, width, height, tw, th);
            && r.labelHeight == CountOf(LabelHeightCalculated(s, th))
            && Height(r, th) <= height < Height(r, th) + s.yGridNumbers.value
  {
    var t := WithLabelHeightCalculated(WithLabelWidthCalculated(s, tw), th);
    assert LabelHeightCalculated(WithLabelWidthCalculated(s, tw), th) == LabelHeightCalculated(s, th);
    var h := height - 2 * t.styles.graphPadding
             - (if XLabelsVisible(t) then LabelHeight(t) + t.styles.labelPadding else 0);
    var n := s.yGridNumbers.value;
    var r := ResizedGraph(s, width, height, tw, th);
    assert r.labelHeight == t.labelHeight && r.styles.gridHeight == FloorDiv(h, n);
    assert r.styles.graphPadding == t.styles.graphPadding && r.styles.labelPadding == t.styles.labelPadding;
    assert r.styles.xLabelPosition == t.styles.xLabelPosition;
    assert AfterHeight(r, th) == r;
    HeightOfCells(r, th, height, h);
  }

  /** A state whose cells share the height `h` left of `height` has a
      measured height within one row count of `height`. */
  lemma HeightOfCells(r: GraphState, th: Measure, height: int, h: int)
    requires r.yGridNumbers.Some? && r.yGridNumbers.value > 0 && AfterHeight(r, th) == r
    requires h == height - 2 * r.styles.graphPadding
                  - (if XLabelsVisible(r) then LabelHeight(r) + r.styles.labelPadding else 0)
    requires r.styles.gridHeight == FloorDiv(h, r.yGridNumbers.value)
    ensures Height(r, th) <= height < Height(r, th) + r.yGridNumbers.value
  {
    var n := r.yGridNumbers.value;
    FloorDivBounds(h, n);
    assert Height(r, th) == height - h + FloorDiv(h, n) * n;
  }

  /** With both bounds unset the x count is the number of whole cells that
      fit, and the grid ends at 0 and spans the count. */
  lemma GenerateXGridsFromWidth(s: GraphState, width: int)
    requires IntervalsSet(s) && s.xMin.None? && s.xMax.None? && s.styles.gridWidth > 0
    ensures var r := GenerateXGrids(s, width);
            var n := FloorDiv(width, s.styles.gridWidth);
            && r.xGridNumbers == CountOf(n)
            && n * s.styles.gridWidth <= width < (n + 1) * s.styles.gridWidth
            && r.xMax == Some(0.0)
            && r.xMax.value - r.xMin.value == GridSpan(n, s.gridXInterval)
  {
    FloorDivBounds(width, s.styles.gridWidth);
  }

  /** Whatever the bounds, generating the y grids leaves the number of whole
      cells that fit the height as the y count. */
  lemma GenerateYGridsCountsCells(s: GraphState, height: int)
    requires IntervalsSet(s) && s.yGridNumbers.None? && s.styles.gridHeight > 0
    ensures var r := GenerateYGrids(s, height);
            var n := FloorDiv(height, s.styles.gridHeight);
            && r.yGridNumbers == CountOf(n)
            && r.styles.gridHeight == s.styles.gridHeight
            && n * s.styles.gridHeight <= height < (n + 1) * s.styles.gridHeight
            && r.yMin.Some? && r.yMax.Some?
            && (s.yMin.Some? && s.yMax.Some? ==> r.yMin == s.yMin && r.yMax == s.yMax)
  {
    FloorDivBounds(height, s.styles.gridHeight);
  }

  /** As written, a layout that finds the x count unset and both x bounds
      set (as `setBounds` without keeping the counts leaves them) leaves the
      count unset, whether or not the size changed; the draw gate then keeps
      asking for a layout and nothing is drawn. The corrected layout sets the
      count to the cells that fit. */
  lemma LayoutAsWrittenLeavesXCountUnset(s: GraphState, changed: bool, left: int, top: int, right: int,
                                         bottom: int, tw: Measure, th: Measure)
    requires IntervalsSet(s) && s.xGridNumbers.None? && s.xMin.Some? && s.xMax.Some?
    ensures LaidOutAsWritten(s, changed, left, top, right, bottom, tw, th).xGridNumbers.None?
  {
  }

  /** The corrected x step of `layout` leaves an x count behind when the
      cells have a positive width and the reserved width is not negative. */
  lemma LayoutXLeavesCount(s: GraphState, changed: bool, reservedWidth: int)
    requires IntervalsSet(s) && s.styles.gridWidth > 0 && reservedWidth >= 0
    ensures LayoutX(s, changed, reservedWidth, true).xGridNumbers.Some?
  {
    if s.xGridNumbers.None? {
      FloorDivBounds(reservedWidth, s.styles.gridWidth);
      assert LayoutX(s, changed, reservedWidth, true).xGridNumbers
             == CountOf(FloorDiv(reservedWidth, s.styles.gridWidth));
    }
  }

  /** Likewise the y step of `layout` leaves a y count behind. */
  lemma LayoutYLeavesCount(s: GraphState, changed: bool, reservedHeight: int)
    requires IntervalsSet(s) && s.styles.gridHeight > 0 && reservedHeight >= 0
    ensures LayoutY(s, changed, reservedHeight).yGridNumbers.Some?
  {
    if s.yGridNumbers.None? {
      GenerateYGridsCountsCells(s, reservedHeight);
      FloorDivBounds(reservedHeight, s.styles.gridHeight);
    }
  }

  /** The corrected layout always leaves an x count behind when the cells
      have a positive width and the reserved width is not negative. */
  lemma LayoutSetsXCount(s: GraphState, changed: bool, left: int, top: int, right: int,
                         bottom: int, tw: Measure, th: Measure)
    requires IntervalsSet(s) && s.xGridNumbers.None? && s.styles.gridWidth > 0
    requires ReservedWidth(s, right - left) >= 0
    ensures LaidOut(s, changed, left, top, right, bottom, tw, th).xGridNumbers.Some?
  {
    LayoutXLeavesCount(s, changed, ReservedWidth(s, right - left));
  }

  /** A layout after a size change clears the pending-layout flag; one
      without leaves it alone, and neither touches the redraw bookkeeping. */
  lemma LayoutSettlesFlag(s: GraphState, changed: bool, left: int, top: int, right: int, bottom: int,
                          tw: Measure, th: Measure)
    requires IntervalsSet(s)
    ensures var r := LaidOut(s, changed, left, top, right, bottom, tw, th);
            && (changed ==> !r.layoutRequired)
            && (!changed ==> r.layoutRequired == s.layoutRequired)
            && r.invalidatePosts == s.invalidatePosts && r.invalidateRequired == s.invalidateRequired
            && r.layoutRequests == s.layoutRequests
  {
  }

  /** A kept count with a kept cell size survives a layout without a size
      change untouched. */
  lemma LayoutKeepsKeptGrid(s: GraphState, left: int, top: int, right: int, bottom: int,
                            tw: Measure, th: Measure)
    requires IntervalsSet(s) && s.xGridNumbers.Some? && s.yGridNumbers.Some?
    requires s.keepGridWidth && s.keepGridHeight
    ensures LaidOut(s, false, left, top, right, bottom, tw, th) == s
  {
  }
}

=== FILE: graph_model.dfy ===
/** The state of the grid engine (Graph.java) as a value, its read-only
    queries, and the effect of each of its setters. The `Graph` class in
    `GraphView` holds the same fields and is specified by these functions. */
module GraphModel {

  import opened Options
  import opened GridMath

  // ---------------------------------------------------------------------
  // Style enumerations and their integer codes

  datatype XLabelPosition = XLabelNone | XLabelBottom | XLabelTop
  {
    function Value(): int
    {
      match this
      case XLabelNone => 0
      case XLabelBottom => 1
      case XLabelTop => 2
    }
  }

  /** Codes 1 and 2 name BOTTOM and TOP; every other code means NONE. */
  function XLabelPositionFromId(i: int): (r: XLabelPosition)
    ensures r.Value() == (if i == 1 || i == 2 then i else 0)
  {
    if i == 1 then XLabelBottom else if i == 2 then XLabelTop else XLabelNone
  }

  datatype YLabelPosition = YLabelNone | YLabelLeft | YLabelRight
  {
    function Value(): int
    {
      match this
      case YLabelNone => 0
      case YLabelLeft => 1
      case YLabelRight => 2
    }
  }

  /** Codes 1 and 2 name LEFT and RIGHT; every other code means NONE. */
  function YLabelPositionFromId(i: int): (r: YLabelPosition)
    ensures r.Value() == (if i == 1 || i == 2 then i else 0)
  {
    if i == 1 then YLabelLeft else if i == 2 then YLabelRight else YLabelNone
  }

  datatype LineGravity = GravityTop | GravityCenter | GravityBottom
  {
    function Value(): int
    {
      match this
      case GravityTop => 0
      case GravityCenter => 1
      case GravityBottom => 2
    }
  }

  /** Codes 0 and 2 name TOP and BOTTOM; every other code means CENTER. */
  function LineGravityFromId(i: int): (r: LineGravity)
    ensures r.Value() == (if i == 0 || i == 2 then i else 1)
  {
    if i == 0 then GravityTop else if i == 2 then GravityBottom else GravityCenter
  }

  /** Every enumeration constant is recovered from its own code. */
  lemma EnumCodesRoundTrip(x: XLabelPosition, y: YLabelPosition, g: LineGravity)
    ensures XLabelPositionFromId(x.Value()) == x
    ensures YLabelPositionFromId(y.Value()) == y
    ensures LineGravityFromId(g.Value()) == g
  {
  }

  // ---------------------------------------------------------------------
  // State

  /** The layout-relevant part of the style holder (colours and stroke
      widths only affect painting). */
  datatype Styles = Styles(
    gridWidth: int,
    gridHeight: int,
    labelTextSize: int,
    labelPadding: int,
    graphPadding: int,
    showLargeGrids: bool,
    showGrids: bool,
    showVertical: bool,
    showHorizontal: bool,
    yLabelPosition: YLabelPosition,
    xLabelPosition: XLabelPosition,
    lineGravity: LineGravity)

  /** The fields of a graph. Counts and label sizes are None where the
      source stores Integer.MIN_VALUE, bounds None where it stores NaN.
      `invalidatePosts` and `layoutRequests` count the calls made to the
      host view. */
  datatype GraphState = GraphState(
    styles: Styles,
    yGridNumbers: Option<int>,
    xGridNumbers: Option<int>,
    gridYInterval: real,
    gridXInterval: real,
    gridsPerLargeGrid: int,
    xMax: Option<real>,
    xMin: Option<real>,
    yMax: Option<real>,
    yMin: Option<real>,
    labelWidth: Option<int>,
    labelHeight: Option<int>,
    autoInvalidate: bool,
    layoutRequired: bool,
    invalidateRequired: bool,
    syncBounds: bool,
    keepGridHeight: bool,
    keepGridWidth: bool,
    invalidatePosts: nat,
    layoutRequests: nat)

  /** The state a new graph starts in: no counts, bounds or label sizes,
      5 grids per large grid, steps of 1 (y) and 0.04 (x), auto bounds on,
      auto-invalidate off, and a layout and a redraw pending. The styles
      come from the host's attributes. */
  function Initial(styles: Styles): GraphState
  {
    GraphState(styles, None, None, 1.0, 0.04, 5, None, None, None, None, None, None,
               false, true, true, true, false, false, 0, 0)
  }

  /** `draw` only draws once both counts are known and no layout is
      pending; otherwise it asks the host for a layout. */
  predicate DrawGateOpen(s: GraphState)
  {
    s.xGridNumbers.Some? && s.yGridNumbers.Some? && !s.layoutRequired
  }

  /** The grid steps divide values; a zero step turns every bound into NaN. */
  predicate IntervalsSet(s: GraphState)
  {
    s.gridXInterval != 0.0 && s.gridYInterval != 0.0
  }

  /** The pixel extent of a formatted label value, with None standing for
      the empty text drawn for NaN. It depends on the host's fonts and on
      the label format. */
  type Measure = Option<real> -> int

  // ---------------------------------------------------------------------
  // Queries

  function XLabelsVisible(s: GraphState): bool
  {
    s.styles.xLabelPosition != XLabelNone
  }

  function YLabelsVisible(s: GraphState): bool
  {
    s.styles.yLabelPosition != YLabelNone
  }

  /** `getLabelWidth`: 0 while the width is unset. */
  function LabelWidth(s: GraphState): int
  {
    if s.labelWidth.Some? then s.labelWidth.value else 0
  }

  /** `getLabelHeight`: 0 while the height is unset. */
  function LabelHeight(s: GraphState): int
  {
    if s.labelHeight.Some? then s.labelHeight.value else 0
  }

  function GraphWidth(s: GraphState): int
  {
    Raw(s.xGridNumbers) * s.styles.gridWidth
  }

  function GraphHeight(s: GraphState): int
  {
    Raw(s.yGridNumbers) * s.styles.gridHeight
  }

  /** The grid starts below the labels only when they are on top. */
  function GraphTop(s: GraphState): int
  {
    if s.styles.xLabelPosition == XLabelTop then LabelHeight(s) + s.styles.graphPadding
    else s.styles.graphPadding
  }

  /** The grid starts right of the labels only when they are on the left. */
  function GraphLeft(s: GraphState): int
  {
    if s.styles.yLabelPosition == YLabelLeft then LabelWidth(s) + s.styles.graphPadding
    else s.styles.graphPadding
  }

  /** `getXLargeGridNumbers`: the large grids needed to cover the grids. */
  function XLargeGridNumbers(s: GraphState): int
  {
    CeilDiv(Raw(s.xGridNumbers), s.gridsPerLargeGrid)
  }

  function YLargeGridNumbers(s: GraphState): int
  {
    CeilDiv(Raw(s.yGridNumbers), s.gridsPerLargeGrid)
  }

  /** `calculateLabelWidth`: the wider of the two y-bound labels, but at
      least twice the text size. */
  function LabelWidthCalculated(s: GraphState, textWidth: Measure): (r: int)
    ensures r >= 2 * s.styles.labelTextSize && r >= textWidth(s.yMax) && r >= textWidth(s.yMin)
    ensures r == 2 * s.styles.labelTextSize || r == textWidth(s.yMax) || r == textWidth(s.yMin)
  {
    Max(2 * s.styles.labelTextSize, Max(textWidth(s.yMax), textWidth(s.yMin)))
  }

  /** `calculateLabelHeight`: the taller of the two x-bound labels, but at
      least the text size. */
  function LabelHeightCalculated(s: GraphState, textHeight: Measure): (r: int)
    ensures r >= s.styles.labelTextSize && r >= textHeight(s.xMax) && r >= textHeight(s.xMin)
    ensures r == s.styles.labelTextSize || r == textHeight(s.xMax) || r == textHeight(s.xMin)
  {
    Max(s.styles.labelTextSize, Max(textHeight(s.xMax), textHeight(s.xMin)))
  }

  /** `calculateLabelWidth` stores the computed width. */
  function WithLabelWidthCalculated(s: GraphState, textWidth: Measure): GraphState
  {
    s.(labelWidth := CountOf(LabelWidthCalculated(s, textWidth)))
  }

  /** `calculateLabelHeight` stores the computed height. */
  function WithLabelHeightCalculated(s: GraphState, textHeight: Measure): GraphState
  {
    s.(labelHeight := CountOf(LabelHeightCalculated(s, textHeight)))
  }

  /** `getWidth` computes the label width first if it is still unset. */
  function AfterWidth(s: GraphState, textWidth: Measure): GraphState
  {
    if s.xGridNumbers.None? || s.labelWidth.Some? then s
    else WithLabelWidthCalculated(s, textWidth)
  }

  /** `getWidth`: 0 before the grid count is known. */
  function Width(s: GraphState, textWidth: Measure): int
  {
    if s.xGridNumbers.None? then 0
    else
      var t := AfterWidth(s, textWidth);
      (if YLabelsVisible(t) then LabelWidth(t) + t.styles.labelPadding else 0)
        + GraphWidth(t) + 2 * t.styles.graphPadding
  }

  function AfterHeight(s: GraphState, textHeight: Measure): GraphState
  {
    if s.yGridNumbers.None? || s.labelHeight.Some? then s
    else WithLabelHeightCalculated(s, textHeight)
  }

  /** `getHeight`: 0 before the grid count is known. */
  function Height(s: GraphState, textHeight: Measure): int
  {
    if s.yGridNumbers.None? then 0
    else
      var t := AfterHeight(s, textHeight);
      (if XLabelsVisible(t) then LabelHeight(t) + t.styles.labelPadding else 0)
        + GraphHeight(t) + 2 * t.styles.graphPadding
  }

  /** The measured width is the grid's left offset, the grid, the outer
      padding on the right, and the label padding; with labels on the right
      also the label width. */
  lemma WidthAroundGraph(s: GraphState, textWidth: Measure)
    requires s.xGridNumbers.Some?
    ensures var t := AfterWidth(s, textWidth);
            Width(s, textWidth) == GraphLeft(t) + GraphWidth(t) + t.styles.graphPadding
              + (if YLabelsVisible(t) then t.styles.labelPadding else 0)
              + (if t.styles.yLabelPosition == YLabelRight then LabelWidth(t) else 0)
    ensures AfterWidth(s, textWidth).labelWidth.Some? || LabelWidthCalculated(s, textWidth) == IntMin
  {
  }

  /** The measured height is the grid's top offset, the grid, the outer
      padding at the bottom, and the label padding; with labels at the
      bottom also the label height. */
  lemma HeightAroundGraph(s: GraphState, textHeight: Measure)
    requires s.yGridNumbers.Some?
    ensures var t := AfterHeight(s, textHeight);
            Height(s, textHeight) == GraphTop(t) + GraphHeight(t) + t.styles.graphPadding
              + (if XLabelsVisible(t) then t.styles.labelPadding else 0)
              + (if t.styles.xLabelPosition == XLabelBottom then LabelHeight(t) else 0)
  {
  }

  /** The large-grid counts cover the grid counts for a positive number of
      grids per large grid. */
  lemma LargeGridsCoverGrids(s: GraphState)
    requires s.gridsPerLargeGrid > 0
    ensures var g := s.gridsPerLargeGrid;
            && (XLargeGridNumbers(s) - 1) * g < Raw(s.xGridNumbers) <= XLargeGridNumbers(s) * g
            && (YLargeGridNumbers(s) - 1) * g < Raw(s.yGridNumbers) <= YLargeGridNumbers(s) * g
  {
    CeilDivBounds(Raw(s.xGridNumbers), s.gridsPerLargeGrid);
    CeilDivBounds(Raw(s.yGridNumbers), s.gridsPerLargeGrid);
  }

  // ---------------------------------------------------------------------
  // Redraw requests

  /** `invalidate`: posts a redraw request unless one is pending. */
  function AfterInvalidate(s: GraphState): GraphState
  {
    InvalidateWhen(s, true)
  }

  /** An invalidation that applies only `when` the condition holds. */
  function InvalidateWhen(s: GraphState, when: bool): GraphState
  {
    s.(invalidateRequired := s.invalidateRequired || when,
       invalidatePosts := if when && !s.invalidateRequired then s.invalidatePosts + 1 else s.invalidatePosts)
  }

  /** A conditional invalidation posts one request exactly when it applies
      and none is pending, changes nothing else, and leaves a request
      pending whenever it applies. */
  lemma InvalidateWhenPostsOnce(s: GraphState, when: bool)
    ensures InvalidateWhen(s, when).invalidatePosts == s.invalidatePosts + 1 <==> when && !s.invalidateRequired
    ensures InvalidateWhen(s, when).invalidatePosts == s.invalidatePosts <==> !(when && !s.invalidateRequired)
    ensures InvalidateWhen(s, when).invalidateRequired <==> when || s.invalidateRequired
    ensures InvalidateWhen(s, when).(invalidateRequired := s.invalidateRequired, invalidatePosts := s.invalidatePosts) == s
  {
  }

  // ---------------------------------------------------------------------
  // Setters

  /** A style change that only needs a redraw. */
  function WithStyles(s: GraphState, styles: Styles): GraphState
  {
    InvalidateWhen(s.(styles := styles), s.autoInvalidate)
  }

  /** The text size also changes the label sizes, so a layout is due. */
  function WithLabelTextSize(s: GraphState, size: int): GraphState
  {
    InvalidateWhen(s.(styles := s.styles.(labelTextSize := size), layoutRequired := true), s.autoInvalidate)
  }

  /** A new cell width; optionally the x count is unset so that the next
      layout derives it from the width. */
  function WithGridWidth(s: GraphState, width: int, changeGridNumbers: bool): GraphState
  {
    InvalidateWhen(
      s.(styles := s.styles.(gridWidth := width),
         xGridNumbers := if changeGridNumbers then None else s.xGridNumbers),
      s.autoInvalidate)
  }

  function WithGridHeight(s: GraphState, height: int, changeGridNumbers: bool): GraphState
  {
    InvalidateWhen(
      s.(styles := s.styles.(gridHeight := height),
         yGridNumbers := if changeGridNumbers then None else s.yGridNumbers),
      s.autoInvalidate)
  }

  /** Auto bounds switched off and the four bounds snapped to their grids
      (round(NaN) stays NaN). */
  function PlacedBounds(s: GraphState, xMin: Option<real>, yMin: Option<real>, xMax: Option<real>,
                        yMax: Option<real>): GraphState
    requires IntervalsSet(s)
  {
    s.(syncBounds := false,
       xMin := RoundOpt(xMin, s.gridXInterval),
       xMax := RoundOpt(xMax, s.gridXInterval),
       yMin := RoundOpt(yMin, s.gridYInterval),
       yMax := RoundOpt(yMax, s.gridYInterval))
  }

  /** A layout becomes due when `b` holds; a pending one stays pending. */
  function LayoutRequiredIf(s: GraphState, b: bool): GraphState
  {
    s.(layoutRequired := s.layoutRequired || b)
  }

  /** `setBounds` up to its closing redraw: the snapped bounds; without
      `keepGridNumbers` both counts are unset; a layout is due when the
      label size changes. */
  function SnappedBounds(s: GraphState, xMin: Option<real>, yMin: Option<real>, xMax: Option<real>,
                         yMax: Option<real>, keepGridNumbers: bool, changeLabelSize: bool): GraphState
    requires IntervalsSet(s)
  {
    LayoutRequiredIf(CountsKeptIf(PlacedBounds(s, xMin, yMin, xMax, yMax), keepGridNumbers), changeLabelSize)
  }

  /** Both counts unset unless `keep` holds. */
  function CountsKeptIf(s: GraphState, keep: bool): GraphState
  {
    if keep then s else s.(xGridNumbers := None, yGridNumbers := None)
  }

  /** `setBounds`: the snapped bounds, then a redraw with auto-invalidate. */
  function WithBounds(s: GraphState, xMin: Option<real>, yMin: Option<real>, xMax: Option<real>,
                      yMax: Option<real>, keepGridNumbers: bool, changeLabelSize: bool): GraphState
    requires IntervalsSet(s)
  {
    InvalidateWhen(SnappedBounds(s, xMin, yMin, xMax, yMax, keepGridNumbers, changeLabelSize),
                   s.autoInvalidate)
  }

  /** Whether to keep the cell height is recorded; keeping it asks the
      host for a layout. */
  function GridHeightKept(s: GraphState, keep: bool): GraphState
  {
    s.(keepGridHeight := keep, layoutRequests := if keep then s.layoutRequests + 1 else s.layoutRequests)
  }

  /** Whether to keep the cell width is recorded; keeping it asks the host
      for a layout. */
  function GridWidthKept(s: GraphState, keep: bool): GraphState
  {
    s.(keepGridWidth := keep, layoutRequests := if keep then s.layoutRequests + 1 else s.layoutRequests)
  }

  /** `setYGridNumbers`: a new y count; the current bounds are re-set with
      the counts kept, and keeping the cell height asks for a layout. */
  function WithYGridNumbers(s: GraphState, numbers: int, keepGridHeight: bool): GraphState
    requires IntervalsSet(s)
  {
    var t := s.(yGridNumbers := CountOf(numbers));
    var u := WithBounds(t, t.xMin, t.yMin, t.xMax, t.yMax, true, false);
    var w := GridHeightKept(u, keepGridHeight);
    InvalidateWhen(w, w.autoInvalidate)
  }

  function WithXGridNumbers(s: GraphState, numbers: int, keepGridWidth: bool): GraphState
    requires IntervalsSet(s)
  {
    var t := s.(xGridNumbers := CountOf(numbers));
    var u := WithBounds(t, t.xMin, t.yMin, t.xMax, t.yMax, true, false);
    var w := GridWidthKept(u, keepGridWidth);
    InvalidateWhen(w, w.autoInvalidate)
  }

  /** With auto-invalidate a layout becomes due and a redraw is posted. */
  function RelaidIfAuto(s: GraphState): (r: GraphState)
  {
    if s.autoInvalidate then AfterInvalidate(s.(layoutRequired := true)) else s
  }

  /** `setYLabelPosition`: no effect when the position is unchanged; the
      label width is recomputed on request or when labels appear without a
      width; with auto-invalidate a layout is also due. */
  function WithYLabelPosition(s: GraphState, position: YLabelPosition, changeLabelSize: bool,
                              textWidth: Measure): (r: GraphState)
    ensures r.styles.yLabelPosition == position
  {
    if position == s.styles.yLabelPosition then s
    else RelaidIfAuto(YLabelPlaced(s, position, changeLabelSize, textWidth))
  }

  /** The new y-label position is stored and the label width recomputed on
      request or when labels appear without one. */
  function YLabelPlaced(s: GraphState, position: YLabelPosition, changeLabelSize: bool,
                        textWidth: Measure): (r: GraphState)
    ensures r.styles.yLabelPosition == position
  {
    var t := s.(styles := s.styles.(yLabelPosition := position));
    if changeLabelSize || (position != YLabelNone && s.labelWidth.None?) then WithLabelWidthCalculated(t, textWidth) else t
  }

  function WithXLabelPosition(s: GraphState, position: XLabelPosition, changeLabelSize: bool,
                              textHeight: Measure): (r: GraphState)
    ensures r.styles.xLabelPosition == position
  {
    if position == s.styles.xLabelPosition then s
    else RelaidIfAuto(XLabelPlaced(s, position, changeLabelSize, textHeight))
  }

  /** The new x-label position is stored and the label height recomputed on
      request or when labels appear without one. */
  function XLabelPlaced(s: GraphState, position: XLabelPosition, changeLabelSize: bool,
                        textHeight: Measure): (r: GraphState)
    ensures r.styles.xLabelPosition == position
  {
    var t := s.(styles := s.styles.(xLabelPosition := position));
    if changeLabelSize || (position != XLabelNone && s.labelHeight.None?) then WithLabelHeightCalculated(t, textHeight) else t
  }

  /** `showYLabel`: labels on the left with a fresh width, or none. */
  function ShowYLabel(s: GraphState, b: bool, textWidth: Measure): GraphState
  {
    if b then WithYLabelPosition(s, YLabelLeft, true, textWidth)
    else WithYLabelPosition(s, YLabelNone, false, textWidth)
  }

  /** `showXLabel`: labels at the bottom with a fresh height, or none. */
  function ShowXLabel(s: GraphState, b: bool, textHeight: Measure): GraphState
  {
    if b then WithXLabelPosition(s, XLabelBottom, true, textHeight)
    else WithXLabelPosition(s, XLabelNone, false, textHeight)
  }

  /** A new gravity; without `keepBounds` the y bounds are unset. */
  function WithLineGravity(s: GraphState, gravity: LineGravity, keepBounds: bool): GraphState
  {
    InvalidateWhen(
      s.(styles := s.styles.(lineGravity := gravity),
         yMin := if keepBounds then s.yMin else None,
         yMax := if keepBounds then s.yMax else None),
      s.autoInvalidate)
  }

  /** A new y step: keeping the bounds unsets the y count, otherwise the y
      bounds are unset and the bounds re-set with the counts kept. */
  function WithGridYInterval(s: GraphState, mV: real, keepBounds: bool): GraphState
    requires IntervalsSet(s) && mV != 0.0
  {
    var t := s.(gridYInterval := mV);
    var u := if keepBounds then t.(yGridNumbers := None)
             else WithBounds(t.(yMin := None, yMax := None), t.xMin, None, t.xMax, None, true, false);
    InvalidateWhen(u, u.autoInvalidate)
  }

  function WithGridXInterval(s: GraphState, sec: real, keepBounds: bool): GraphState
    requires IntervalsSet(s) && sec != 0.0
  {
    var t := s.(gridXInterval := sec);
    var u := if keepBounds then t.(xGridNumbers := None)
             else WithBounds(t.(xMin := None, xMax := None), None, t.yMin, None, t.yMax, true, false);
    InvalidateWhen(u, u.autoInvalidate)
  }

  /** `setXMax` exactly as written, its snap included: when the count is to
      be kept but is unset, the bound just set is unset again. */
  function WithXMaxAsWritten(s: GraphState, v: real, keepGridNumbers: bool): GraphState
    requires IntervalsSet(s)
  {
    var x := RoundAsWritten(v, s.gridXInterval);
    var t := s.(syncBounds := false, xMax := Some(x));
    var u := if !keepGridNumbers then t.(xGridNumbers := None)
    else if s.xGridNumbers.Some? then t.(xMin := Some(x - GridSpan(s.xGridNumbers.value, s.gridXInterval)))
             else t.(xMax := None);
    InvalidateWhen(u, u.autoInvalidate)
  }

  /** The body of `setXMax` corrected as `setYMax` does it, up to its
      closing redraw: with the count kept but unset, the other bound is
      unset; the rest of the model uses this. */
  function XMaxPlaced(s: GraphState, v: real, keepGridNumbers: bool): GraphState
    requires IntervalsSet(s)
  {
    var x := Round(v, s.gridXInterval);
    var t := s.(syncBounds := false, xMax := Some(x));
    if !keepGridNumbers then t.(xGridNumbers := None)
    else if s.xGridNumbers.Some? then t.(xMin := Some(x - GridSpan(s.xGridNumbers.value, s.gridXInterval)))
             else t.(xMin := None)
  }

  /** `setXMax` corrected: the placed bound, then a redraw with auto-invalidate. */
  function WithXMax(s: GraphState, v: real, keepGridNumbers: bool): GraphState
    requires IntervalsSet(s)
  {
    var u := XMaxPlaced(s, v, keepGridNumbers);
    InvalidateWhen(u, u.autoInvalidate)
  }

  /** The body of `setXMin` up to its closing redraw: the bound snapped to
      the grid; with the count kept the other bound follows from it (unset
      while the count is), otherwise the count is unset. */
  function XMinPlaced(s: GraphState, v: real, keepGridNumbers: bool): GraphState
    requires IntervalsSet(s)
  {
    var x := Round(v, s.gridXInterval);
    var t := s.(syncBounds := false, xMin := Some(x));
    if !keepGridNumbers then t.(xGridNumbers := None)
    else if s.xGridNumbers.Some? then t.(xMax := Some(x + GridSpan(s.xGridNumbers.value, s.gridXInterval)))
             else t.(xMax := None)
  }

  /** `setXMin`: the placed bound, then a redraw with auto-invalidate. */
  function WithXMin(s: GraphState, v: real, keepGridNumbers: bool): GraphState
    requires IntervalsSet(s)
  {
    var u := XMinPlaced(s, v, keepGridNumbers);
    InvalidateWhen(u, u.autoInvalidate)
  }

  /** The body of `setYMax` up to its closing redraw: the bound snapped to
      the grid; with the count kept the other bound follows from it (unset
      while the count is), otherwise the count is unset. */
  function YMaxPlaced(s: GraphState, v: real, keepGridNumbers: bool): GraphState
    requires IntervalsSet(s)
  {
    var y := Round(v, s.gridYInterval);
    var t := s.(syncBounds := false, yMax := Some(y));
    if !keepGridNumbers then t.(yGridNumbers := None)
    else if s.yGridNumbers.Some? then t.(yMin := Some(y - GridSpan(s.yGridNumbers.value, s.gridYInterval)))
             else t.(yMin := None)
  }

  /** `setYMax`: the placed bound, then a redraw with auto-invalidate. */
  function WithYMax(s: GraphState, v: real, keepGridNumbers: bool): GraphState
    requires IntervalsSet(s)
  {
    var u := YMaxPlaced(s, v, keepGridNumbers);
    InvalidateWhen(u, u.autoInvalidate)
  }

  /** The body of `setYMin` up to its closing redraw: the bound snapped to
      the grid; with the count kept the other bound follows from it (unset
      while the count is), otherwise the count is unset. */
  function YMinPlaced(s: GraphState, v: real, keepGridNumbers: bool): GraphState
    requires IntervalsSet(s)
  {
    var y := Round(v, s.gridYInterval);
    var t := s.(syncBounds := false, yMin := Some(y));
    if !keepGridNumbers then t.(yGridNumbers := None)
    else if s.yGridNumbers.Some? then t.(yMax := Some(y + GridSpan(s.yGridNumbers.value, s.gridYInterval)))
             else t.(yMax := None)
  }

  /** `setYMin`: the placed bound, then a redraw with auto-invalidate. */
  function WithYMin(s: GraphState, v: real, keepGridNumbers: bool): GraphState
    requires IntervalsSet(s)
  {
    var u := YMinPlaced(s, v, keepGridNumbers);
    InvalidateWhen(u, u.autoInvalidate)
  }

  /** `setXFormat` / `setYFormat`: a new format may change the label
      sizes, so a layout is due on request. */
  function WithFormat(s: GraphState, changeLabelSize: bool): GraphState
  {
    InvalidateWhen(s.(layoutRequired := s.layoutRequired || changeLabelSize), s.autoInvalidate)
  }

  // ---------------------------------------------------------------------
  // Lemmas about the setters

  /** Setting an x bound with the count kept places the other x bound
      exactly `count` steps away; without keeping, the x count is unset.
      Either way auto bounds are off and the bound set is snapped. */
  lemma SetXBoundKeepsSpan(s: GraphState, v: real, keep: bool)
    requires IntervalsSet(s)
    ensures var t := WithXMax(s, v, keep);
            && t.xMax == Some(Round(v, s.gridXInterval)) && !t.syncBounds
            && (keep && s.xGridNumbers.Some? ==>
                  t.xMax.value - t.xMin.value == GridSpan(s.xGridNumbers.value, s.gridXInterval))
            && (!keep ==> t.xGridNumbers.None?)
    ensures var t := WithXMin(s, v, keep);
            && t.xMin == Some(Round(v, s.gridXInterval)) && !t.syncBounds
            && (keep && s.xGridNumbers.Some? ==>
                  t.xMax.value - t.xMin.value == GridSpan(s.xGridNumbers.value, s.gridXInterval))
            && (!keep ==> t.xGridNumbers.None?)
  {
    var x := Round(v, s.gridXInterval);
    if keep && s.xGridNumbers.Some? {
      var w := GridSpan(s.xGridNumbers.value, s.gridXInterval);
      assert x - (x - w) == w;
      assert (x + w) - x == w;
    }
  }

  /** Setting a y bound with the count kept places the other y bound
      exactly `count` steps away; without keeping, the y count is unset. */
  lemma SetYBoundKeepsSpan(s: GraphState, v: real, keep: bool)
    requires IntervalsSet(s)
    ensures var t := WithYMax(s, v, keep);
            && t.yMax == Some(Round(v, s.gridYInterval)) && !t.syncBounds
            && (keep && s.yGridNumbers.Some? ==>
                  t.yMax.value - t.yMin.value == GridSpan(s.yGridNumbers.value, s.gridYInterval))
            && (!keep ==> t.yGridNumbers.None?)
    ensures var t := WithYMin(s, v, keep);
            && t.yMin == Some(Round(v, s.gridYInterval)) && !t.syncBounds
            && (keep && s.yGridNumbers.Some? ==>
                  t.yMax.value - t.yMin.value == GridSpan(s.yGridNumbers.value, s.gridYInterval))
            && (!keep ==> t.yGridNumbers.None?)
  {
    var y := Round(v, s.gridYInterval);
    if keep && s.yGridNumbers.Some? {
      var w := GridSpan(s.yGridNumbers.value, s.gridYInterval);
      assert y - (y - w) == w;
      assert (y + w) - y == w;
    }
  }

  /** With the count kept but unset, `setXMax` as written leaves the x max
      unset: the value just set is lost. The corrected setter keeps it and
      unsets the x min, as `setYMax` does for y. */
  lemma SetXMaxAsWrittenLosesBound(s: GraphState, v: real)
    requires IntervalsSet(s) && s.xGridNumbers.None?
    ensures WithXMaxAsWritten(s, v, true).xMax.None?
    ensures WithXMax(s, v, true).xMax == Some(Round(v, s.gridXInterval))
    ensures WithXMax(s, v, true).xMin.None?
    ensures WithYMax(s, v, true).yMax == Some(Round(v, s.gridYInterval))
  {
  }

  /** `setBounds` snaps every bound it is given, keeps unset the ones it is
      not, and switches auto bounds off. */
  lemma SetBoundsSnaps(s: GraphState, xMin: Option<real>, yMin: Option<real>, xMax: Option<real>,
                       yMax: Option<real>, keep: bool, change: bool)
    requires IntervalsSet(s)
    ensures var t := WithBounds(s, xMin, yMin, xMax, yMax, keep, change);
            && !t.syncBounds
            && (t.xMin.Some? <==> xMin.Some?) && (t.xMax.Some? <==> xMax.Some?)
            && (t.yMin.Some? <==> yMin.Some?) && (t.yMax.Some? <==> yMax.Some?)
            && (xMin.Some? ==> t.xMin.value == Round(xMin.value, s.gridXInterval))
            && (xMax.Some? ==> t.xMax.value == Round(xMax.value, s.gridXInterval))
            && (yMin.Some? ==> t.yMin.value == Round(yMin.value, s.gridYInterval))
            && (yMax.Some? ==> t.yMax.value == Round(yMax.value, s.gridYInterval))
            && (keep ==> t.xGridNumbers == s.xGridNumbers && t.yGridNumbers == s.yGridNumbers)
            && (!keep ==> t.xGridNumbers.None? && t.yGridNumbers.None?)
            && (t.layoutRequired <==> s.layoutRequired || change)
  {
  }

  /** `setYGridNumbers` stores the count (Integer.MIN_VALUE unsets it),
      re-snaps the bounds, records whether to keep the cell height, and asks
      for one layout exactly when it keeps it. */
  lemma SetGridNumbersEffect(s: GraphState, n: int, keep: bool)
    requires IntervalsSet(s)
    ensures var t := WithYGridNumbers(s, n, keep);
            && t.yGridNumbers == CountOf(n) && t.xGridNumbers == s.xGridNumbers
            && t.keepGridHeight == keep && !t.syncBounds
            && t.yMax == RoundOpt(s.yMax, s.gridYInterval) && t.xMin == RoundOpt(s.xMin, s.gridXInterval)
            && t.layoutRequests == s.layoutRequests + (if keep then 1 else 0)
            && t.invalidatePosts <= s.invalidatePosts + 1
    ensures var t := WithXGridNumbers(s, n, keep);
            && t.xGridNumbers == CountOf(n) && t.yGridNumbers == s.yGridNumbers
            && t.keepGridWidth == keep && !t.syncBounds
            && t.layoutRequests == s.layoutRequests + (if keep then 1 else 0)
            && t.invalidatePosts <= s.invalidatePosts + 1
  {
  }

  /** Changing a step: keeping the bounds unsets that axis' count and
      leaves the bounds; otherwise that axis' bounds are unset, its count
      kept, and the other axis' bounds re-snapped. */
  lemma SetIntervalEffect(s: GraphState, v: real, keep: bool)
    requires IntervalsSet(s) && v != 0.0
    ensures var t := WithGridYInterval(s, v, keep);
            && t.gridYInterval == v
            && (keep ==> t.yGridNumbers.None? && t.yMin == s.yMin && t.yMax == s.yMax && t.xMax == s.xMax)
            && (!keep ==> t.yMin.None? && t.yMax.None? && t.yGridNumbers == s.yGridNumbers
                          && t.xMax == RoundOpt(s.xMax, s.gridXInterval) && !t.syncBounds)
    ensures var t := WithGridXInterval(s, v, keep);
            && t.gridXInterval == v
            && (keep ==> t.xGridNumbers.None? && t.xMin == s.xMin && t.xMax == s.xMax && t.yMax == s.yMax)
            && (!keep ==> t.xMin.None? && t.xMax.None? && t.xGridNumbers == s.xGridNumbers
                          && t.yMax == RoundOpt(s.yMax, s.gridYInterval) && !t.syncBounds)
  {
  }

  /** Setting a y-label position twice is the same as setting it once. */
  lemma YLabelPositionIdempotent(s: GraphState, p: YLabelPosition, c1: bool, c2: bool, tw: Measure)
    ensures WithYLabelPosition(WithYLabelPosition(s, p, c1, tw), p, c2, tw) == WithYLabelPosition(s, p, c1, tw)
  {
    var t := WithYLabelPosition(s, p, c1, tw);
    assert WithYLabelPosition(t, p, c2, tw) == t;
  }

  /** `showYLabel` makes the labels visible exactly when asked; showing
      them recomputes the label width. */
  lemma ShowYLabelVisible(s: GraphState, b: bool, tw: Measure)
    ensures YLabelsVisible(ShowYLabel(s, b, tw)) <==> b
    ensures b && s.styles.yLabelPosition != YLabelLeft ==>
              ShowYLabel(s, b, tw).labelWidth == CountOf(LabelWidthCalculated(s, tw))
  {
    var q := if b then YLabelLeft else YLabelNone;
    assert ShowYLabel(s, b, tw).styles.yLabelPosition == q;
  }

  /** Setting an x-label position twice is the same as setting it once. */
  lemma XLabelPositionIdempotent(s: GraphState, q: XLabelPosition, c1: bool, c2: bool, th: Measure)
    ensures WithXLabelPosition(WithXLabelPosition(s, q, c1, th), q, c2, th) == WithXLabelPosition(s, q, c1, th)
  {
    var t := WithXLabelPosition(s, q, c1, th);
    assert WithXLabelPosition(t, q, c2, th) == t;
  }

  /** `showXLabel` makes the labels visible exactly when asked; showing
      them recomputes the label height. */
  lemma ShowXLabelVisible(s: GraphState, b: bool, th: Measure)
    ensures XLabelsVisible(ShowXLabel(s, b, th)) <==> b
    ensures b && s.styles.xLabelPosition != XLabelBottom ==>
              ShowXLabel(s, b, th).labelHeight == CountOf(LabelHeightCalculated(s, th))
  {
    var r := if b then XLabelBottom else XLabelNone;
    assert ShowXLabel(s, b, th).styles.xLabelPosition == r;
  }

  /** A gravity change without `keepBounds` unsets exactly the y bounds. */
  lemma LineGravityUnsetsYBounds(s: GraphState, g: LineGravity, keep: bool)
    ensures var t := WithLineGravity(s, g, keep);
            && t.styles.lineGravity == g
            && (!keep ==> t.yMin.None? && t.yMax.None?)
            && (keep ==> t.yMin == s.yMin && t.yMax == s.yMax)
            && t.xMin == s.xMin && t.xMax == s.xMax
  {
  }

  /** A new graph has both steps set and its draw gate closed: it waits for
      its first layout, with a redraw already pending and auto bounds on. */
  lemma InitialWaitsForLayout(styles: Styles)
    ensures var s := Initial(styles);
            && IntervalsSet(s) && !DrawGateOpen(s)
            && s.layoutRequired && s.invalidateRequired && s.syncBounds
            && s.xMin.None? && s.xMax.None? && s.yMin.None? && s.yMax.None?
  {
  }

  /** The style setters store their value and change nothing else but the
      redraw request they post with auto-invalidate; the text size and, on
      request, a format also make a layout due, and a cell width or height
      set with `changeGridNumbers` unsets that axis' count. */
  lemma StyleSettersEffect(s: GraphState, styles: Styles, size: int, cell: int, change: bool)
    ensures var t := WithStyles(s, styles);
            t.styles == styles && t.(styles := s.styles) == InvalidateWhen(s, s.autoInvalidate)
    ensures var t := WithLabelTextSize(s, size);
            && t.styles == s.styles.(labelTextSize := size) && t.layoutRequired
            && t.(styles := s.styles, layoutRequired := s.layoutRequired) == InvalidateWhen(s, s.autoInvalidate)
    ensures var t := WithGridWidth(s, cell, change);
            && t.styles == s.styles.(gridWidth := cell)
            && (change ==> t.xGridNumbers.None?) && (!change ==> t.xGridNumbers == s.xGridNumbers)
            && t.(styles := s.styles, xGridNumbers := s.xGridNumbers) == InvalidateWhen(s, s.autoInvalidate)
    ensures var t := WithGridHeight(s, cell, change);
            && t.styles == s.styles.(gridHeight := cell)
            && (change ==> t.yGridNumbers.None?) && (!change ==> t.yGridNumbers == s.yGridNumbers)
            && t.(styles := s.styles, yGridNumbers := s.yGridNumbers) == InvalidateWhen(s, s.autoInvalidate)
    ensures var t := WithFormat(s, change);
            && (t.layoutRequired <==> s.layoutRequired || change)
            && t.(layoutRequired := s.layoutRequired) == InvalidateWhen(s, s.autoInvalidate)
  {
  }
}

=== FILE: grid_marks.dfy ===
/** What the two drawing passes of the grid engine put on the canvas
    (`drawHorizontal` and `drawVertical` of Graph.java), as a sequence of
    marks: grid lines and labels at pixel positions. */
module GridMarks {

  import opened Options
  import opened GridMath
  import opened GraphModel

  datatype Axis = Horizontal | Vertical

  /** A grid line of a pass at `pos` (large or small), or a label of a
      pass whose position along the axis is `at`, across it `across`,
      showing `value`. */
  datatype Mark =
    | GridLine(axis: Axis, pos: int, large: bool)
    | TickLabel(axis: Axis, at: int, across: int, value: real)

  /** Everything one pass needs: where line 0 is, the cell size, how many
      cells, which lines are large, what is visible, where labels sit
      across the axis, and the values they show. */
  datatype MarkPlan = MarkPlan(
    axis: Axis,
    origin: int,
    cell: int,
    count: int,
    perLarge: int,
    lastMajor: int,
    showMinor: bool,
    showMajor: bool,
    showLabels: bool,
    across: int,
    first: real,
    step: real)

  /** Plans whose large-grid test can be evaluated (a zero divisor throws
      in the source) and whose label values can be snapped. */
  predicate Drawable(p: MarkPlan)
  {
    p.perLarge != 0 && p.step != 0.0
  }

  function PositionOf(p: MarkPlan, i: int): int
  {
    p.origin + i * p.cell
  }

  /** Line `i` is a large line on every `perLarge`-th line and on the line
      named `lastMajor`. */
  predicate IsMajor(p: MarkPlan, i: int)
    requires Drawable(p)
  {
    i % p.perLarge == 0 || i == p.lastMajor
  }

  /** Horizontal labels count up from the first value; vertical labels
      count down from the top value and are snapped to the grid. */
  function LabelValue(p: MarkPlan, i: int): real
    requires Drawable(p)
  {
    match p.axis
    case Horizontal => p.first + GridSpan(i, p.step)
    case Vertical => Round(p.first - GridSpan(i, p.step), p.step)
  }

  /** The marks of line `i`, in drawing order. */
  function MarksAt(p: MarkPlan, i: int): seq<Mark>
    requires Drawable(p)
  {
    var pos := PositionOf(p, i);
    (if p.showMinor then [GridLine(p.axis, pos, false)] else [])
    + (if IsMajor(p, i) then
         (if p.showMajor then [GridLine(p.axis, pos, true)] else [])
         + (if p.showLabels then [TickLabel(p.axis, pos, p.across, LabelValue(p, i))] else [])
       else [])
  }

  /** The marks of lines `0 .. k-1`. */
  function Marks(p: MarkPlan, k: int): seq<Mark>
    requires Drawable(p)
    decreases k
  {
    if k <= 0 then [] else Marks(p, k - 1) + MarksAt(p, k - 1)
  }

  /** The loop of a drawing pass: lines `0 .. count`, both ends included. */
  method EmitMarks(p: MarkPlan) returns (marks: seq<Mark>)
    requires Drawable(p)
    ensures marks == Marks(p, p.count + 1)
  {
    marks := [];
    var i := 0;
    while i <= p.count
      invariant 0 <= i <= if p.count < 0 then 0 else p.count + 1
      invariant marks == Marks(p, i)
    {
      var pos := p.origin + i * p.cell;
      if p.showMinor {
        marks := marks + [GridLine(p.axis, pos, false)];
      }
      if i % p.perLarge == 0 || i == p.lastMajor {
        if p.showMajor {
          marks := marks + [GridLine(p.axis, pos, true)];
        }
        if p.showLabels {
          marks := marks + [TickLabel(p.axis, pos, p.across, LabelValue(p, i))];
        }
      }
      i := i + 1;
    }
  }

  // ---------------------------------------------------------------------
  // The two passes

  /** `drawHorizontal`: vertical lines from the grid's left edge, one per
      column boundary; labels show `xMin + i*step`, above the grid or below
      it after the paddings and the label height. */
  function HorizontalPlan(s: GraphState, left: int, top: int): MarkPlan
    requires s.xMin.Some?
  {
    var graphTop := top + GraphTop(s);
    var graphBottom := graphTop + GraphHeight(s);
    var graphLeft := left + GraphLeft(s);
    var x := Raw(s.xGridNumbers);
    MarkPlan(
      Horizontal, graphLeft, s.styles.gridWidth, x, s.gridsPerLargeGrid, x,
      s.styles.showGrids && s.styles.showVertical,
      s.styles.showLargeGrids && s.styles.showVertical,
      XLabelsVisible(s),
      if s.styles.xLabelPosition == XLabelTop then graphTop
      else graphBottom + s.styles.graphPadding + s.styles.labelPadding + LabelHeight(s),
      s.xMin.value, s.gridXInterval)
  }

  /** `drawVertical` as written, apart from the label values, which are
      snapped by the corrected `Round`: the last large line is tested
      against the x count instead of the y count. `Graph.Draw` draws this
      pass. */
  function VerticalPlanAsWritten(s: GraphState, left: int, top: int): MarkPlan
    requires s.yMax.Some?
  {
    VerticalPlanWith(s, left, top, Raw(s.xGridNumbers))
  }

  /** `drawVertical` corrected: the bottom line (line `yGridNumbers`) is a
      large line, as the right edge is in the horizontal pass. */
  function VerticalPlan(s: GraphState, left: int, top: int): MarkPlan
    requires s.yMax.Some?
  {
    VerticalPlanWith(s, left, top, Raw(s.yGridNumbers))
  }

  /** Horizontal lines from the grid's top edge, one per row boundary;
      labels show `yMax - i*step` snapped to the grid, left of the grid
      before the paddings or right of it after them. */
  function VerticalPlanWith(s: GraphState, left: int, top: int, lastMajor: int): MarkPlan
    requires s.yMax.Some?
  {
    var graphLeft := left + GraphLeft(s);
    var graphRight := graphLeft + GraphWidth(s);
    var graphTop := top + GraphTop(s);
    MarkPlan(
      Vertical, graphTop, s.styles.gridHeight, Raw(s.yGridNumbers), s.gridsPerLargeGrid, lastMajor,
      s.styles.showGrids && s.styles.showHorizontal,
      s.styles.showLargeGrids && s.styles.showHorizontal,
      YLabelsVisible(s),
      if s.styles.yLabelPosition == YLabelLeft then graphLeft - s.styles.graphPadding - s.styles.labelPadding
      else graphRight + s.styles.graphPadding + s.styles.labelPadding,
      s.yMax.value, s.gridYInterval)
  }

  // ---------------------------------------------------------------------
  // Lemmas

  /** A mark is drawn by the first `k` lines exactly when one of those
      lines draws it. */
  lemma {:induction false} MarksMembership(p: MarkPlan, k: int, m: Mark)
    requires Drawable(p)
    ensures m in Marks(p, k) <==> exists i :: 0 <= i < k && m in MarksAt(p, i)
    decreases k
  {
    if k > 0 {
      MarksMembership(p, k - 1, m);
      var front, last := Marks(p, k - 1), MarksAt(p, k - 1);
      assert Marks(p, k) == front + last;
      if m in front + last {
        if m in front {
          var i :| 0 <= i < k - 1 && m in MarksAt(p, i);
          assert 0 <= i < k && m in MarksAt(p, i);
        } else {
          assert 0 <= k - 1 < k && m in MarksAt(p, k - 1);
        }
      }
      if exists i :: 0 <= i < k && m in MarksAt(p, i) {
        var i :| 0 <= i < k && m in MarksAt(p, i);
        if i < k - 1 {
          assert m in front;
        } else {
          assert m in last;
        }
      }
    }
  }

  /** Every mark of line `i` sits at that line's position. */
  lemma MarksAtPosition(p: MarkPlan, i: int, m: Mark)
    requires Drawable(p) && m in MarksAt(p, i)
    ensures m.axis == p.axis
    ensures m.GridLine? ==> m.pos == PositionOf(p, i)
    ensures m.TickLabel? ==> m.at == PositionOf(p, i) && m.value == LabelValue(p, i)
  {
  }

  /** With cells of positive size, among lines `0 .. k-1`: line `i` has a
      small line exactly when small lines are shown, a large line exactly
      when large lines are shown and `i` is a large-grid line, and a label
      exactly when labels are shown and `i` is a large-grid line. */
  lemma MarksAtIndex(p: MarkPlan, k: int, i: int)
    requires Drawable(p) && p.cell > 0 && 0 <= i < k
    ensures GridLine(p.axis, PositionOf(p, i), false) in Marks(p, k) <==> p.showMinor
    ensures GridLine(p.axis, PositionOf(p, i), true) in Marks(p, k) <==> p.showMajor && IsMajor(p, i)
    ensures (TickLabel(p.axis, PositionOf(p, i), p.across, LabelValue(p, i)) in Marks(p, k))
              <==> p.showLabels && IsMajor(p, i)
  {
    var pos := PositionOf(p, i);
    forall m | m in [GridLine(p.axis, pos, false), GridLine(p.axis, pos, true), TickLabel(p.axis, pos, p.across, LabelValue(p, i))]
      ensures m in Marks(p, k) <==> m in MarksAt(p, i)
    {
      MarksMembership(p, k, m);
      if m in Marks(p, k) {
        var j :| 0 <= j < k && m in MarksAt(p, j);
        MarksAtPosition(p, j, m);
        PositionsDistinct(p, i, j);
      }
    }
  }

  /** Every mark of a pass carries the pass's axis. */
  lemma MarksOfAxis(p: MarkPlan, k: int, m: Mark)
    requires Drawable(p) && m in Marks(p, k)
    ensures m.axis == p.axis
  {
    MarksMembership(p, k, m);
    var j :| 0 <= j < k && m in MarksAt(p, j);
    MarksAtPosition(p, j, m);
  }

  lemma PositionsDistinct(p: MarkPlan, i: int, j: int)
    requires p.cell > 0 && PositionOf(p, i) == PositionOf(p, j)
    ensures i == j
  {
    assert (i - j) * p.cell == 0;
  }

  /** The number of marks: per line one small line if shown, and on large
      lines one large line and one label if shown. */
  lemma {:induction false} MarksCount(p: MarkPlan, k: int)
    requires Drawable(p) && k >= 0
    ensures |Marks(p, k)| <= k * 3
    ensures p.showMinor ==> |Marks(p, k)| >= k
    ensures !p.showMinor && !p.showMajor && !p.showLabels ==> Marks(p, k) == []
    decreases k
  {
    if k > 0 {
      MarksCount(p, k - 1);
    }
  }

  /** The horizontal pass's last line (the grid's right edge) is always a
      large line. The corrected vertical pass's last line (the bottom edge)
      is too; as written it is one only when the row count is a multiple of
      the large-grid size or equals the column count. */
  lemma LastLineIsMajor(s: GraphState, left: int, top: int)
    requires s.xMin.Some? && s.yMax.Some? && s.gridsPerLargeGrid != 0 && IntervalsSet(s)
    ensures var p := HorizontalPlan(s, left, top); IsMajor(p, p.count)
    ensures var p := VerticalPlan(s, left, top); IsMajor(p, p.count)
    ensures var p := VerticalPlanAsWritten(s, left, top);
            IsMajor(p, p.count) <==> Raw(s.yGridNumbers) % s.gridsPerLargeGrid == 0
                                     || Raw(s.yGridNumbers) == Raw(s.xGridNumbers)
  {
  }

  /** With 3 columns, 7 rows and 5 grids per large grid the vertical pass as
      written draws row line 3 large and the bottom line 7 small; corrected,
      line 3 is small and line 7 large. */
  lemma VerticalAsWrittenExample(s: GraphState, left: int, top: int)
    requires s.yMax.Some? && s.gridYInterval != 0.0
    requires s.xGridNumbers == Some(3) && s.yGridNumbers == Some(7) && s.gridsPerLargeGrid == 5
    ensures IsMajor(VerticalPlanAsWritten(s, left, top), 3)
    ensures !IsMajor(VerticalPlanAsWritten(s, left, top), 7)
    ensures !IsMajor(VerticalPlan(s, left, top), 3)
    ensures IsMajor(VerticalPlan(s, left, top), 7)
  {
  }

  /** The labels of the horizontal pass step by the x interval, starting
      from `xMin`. */
  lemma HorizontalLabelsStep(s: GraphState, left: int, top: int, i: int)
    requires s.xMin.Some? && s.gridsPerLargeGrid != 0 && s.gridXInterval != 0.0
    ensures LabelValue(HorizontalPlan(s, left, top), 0) == s.xMin.value
    ensures LabelValue(HorizontalPlan(s, left, top), i + 1) - LabelValue(HorizontalPlan(s, left, top), i)
              == s.gridXInterval
  {
    var p := HorizontalPlan(s, left, top);
    assert p.axis == Horizontal && p.first == s.xMin.value && p.step == s.gridXInterval;
    assert GridSpan(i + 1, p.step) == GridSpan(i, p.step) + p.step;
  }

  /** The labels of the vertical pass sit on the y grid, each the grid
      value nearest to `yMax` less `i` steps. */
  lemma VerticalLabelsOnGrid(s: GraphState, left: int, top: int, i: int)
    requires s.yMax.Some? && s.gridsPerLargeGrid != 0 && s.gridYInterval > 0.0
    requires s.gridYInterval - EMod(s.yMax.value - GridSpan(i, s.gridYInterval), s.gridYInterval) >= Tolerance
    ensures var v := LabelValue(VerticalPlan(s, left, top), i);
            && OnGrid(v, s.gridYInterval)
            && v - (s.yMax.value - GridSpan(i, s.gridYInterval)) <= s.gridYInterval / 2.0
            && (s.yMax.value - GridSpan(i, s.gridYInterval)) - v < s.gridYInterval / 2.0
  {
    var p := VerticalPlan(s, left, top);
    assert p.axis == Vertical && p.first == s.yMax.value && p.step == s.gridYInterval;
    var t := s.yMax.value - GridSpan(i, s.gridYInterval);
    assert LabelValue(p, i) == Round(t, s.gridYInterval);
    RoundToNearest(t, s.gridYInterval);
  }
}

=== FILE: grid_math.dfy ===
/** Numeric helpers of the grid engine (Graph.java): Java's truncating
    remainder on doubles, the snapping helpers round/ceil/floor with their
    tolerance, and the `(int)` conversions of quotients. Doubles are modelled
    as exact reals; Java ints as unbounded integers. */
module GridMath {

  import opened Options

  /** Integer.MIN_VALUE, which Graph.java also uses as its "unset" marker. */
  const IntMin: int := -0x8000_0000
  /** Integer.MAX_VALUE. */
  const IntMax: int := 0x7fff_ffff

  /** The snapping tolerance `b` of Graph.java. */
  const Tolerance: real := 0.00005

  /** Java's `(int)` cast of a double: truncation toward zero. */
  function Trunc(x: real): (r: int)
    ensures x >= 0.0 ==> r == x.Floor
    ensures x < 0.0 ==> x <= r as real < x + 1.0
  {
    if x >= 0.0 then x.Floor else -((-x).Floor)
  }

  /** Java's `t % m` on doubles: the remainder of truncating division,
      which takes the sign of `t`. */
  function JMod(t: real, m: real): real
    requires m != 0.0
  {
    t - m * Trunc(t / m) as real
  }

  /** The remainder of floored division, `0 <= EMod(t, m) < m` for `m > 0`:
      the remainder the snapping helpers need for values of either sign. */
  function EMod(t: real, m: real): real
    requires m != 0.0
  {
    t - m * (t / m).Floor as real
  }

  /** A value is on the grid of step `m` when it is a whole multiple of `m`. */
  predicate OnGrid(v: real, m: real)
    requires m != 0.0
  {
    (v / m).Floor as real == v / m
  }

  /** `ceil(toRound, modulo)` of Graph.java exactly as written, with Java's
      truncating remainder. */
  function CeilAsWritten(t: real, m: real): real
    requires m != 0.0
  {
    t + m - JMod(t, m)
  }

  /** The magnitude of a grid step: a negative interval describes the same
      grid of multiples as its opposite. */
  function Step(m: real): real
  {
    if m < 0.0 then -m else m
  }

  /** `ceil` with the remainder of floored division against the step's
      magnitude: the next multiple of `m` strictly above `t`, for either
      sign of `t` or of `m`. The rest of the model uses this definition. */
  function Ceil(t: real, m: real): real
    requires m != 0.0
  {
    var a := Step(m);
    t + a - EMod(t, a)
  }

  /** `floor(toRound, modulo)` of Graph.java exactly as written: a value
      within the tolerance below the next multiple is returned unchanged. */
  function FloorAsWritten(t: real, m: real): real
    requires m != 0.0
  {
    var r := JMod(t, m);
    if -Tolerance < m - r < Tolerance then t else t - r
  }

  /** `floor` with the remainder of floored division against the step's
      magnitude; the rest of the model uses this definition. */
  function Floor(t: real, m: real): real
    requires m != 0.0
  {
    var a := Step(m);
    var r := EMod(t, a);
    if -Tolerance < a - r < Tolerance then t else t - r
  }

  /** `round(toRound, modulo)` of Graph.java exactly as written: the upward
      branch adds the remainder instead of the distance to the next multiple,
      and the remainder is Java's truncating one. */
  function RoundAsWritten(t: real, m: real): real
    requires m != 0.0
  {
    var r := JMod(t, m);
    if -Tolerance < m - r < Tolerance then t
    else if r >= m / 2.0 then t + r
    else t - r
  }

  /** `round(toRound, modulo)` corrected: the remainder of floored division
      against the step's magnitude and the upward branch `t + (a - r)`; the
      rest of the model uses this definition. */
  function Round(t: real, m: real): real
    requires m != 0.0
  {
    var a := Step(m);
    var r := EMod(t, a);
    if -Tolerance < a - r < Tolerance then t
    else if r >= a / 2.0 then t + (a - r)
    else t - r
  }

  /** `Round` lifted to possibly-unset values (round(NaN) is NaN). */
  function RoundOpt(o: Option<real>, m: real): (r: Option<real>)
    requires m != 0.0
    ensures r.None? <==> o.None?
  {
    match o
    case None => None
    case Some(v) => Some(Round(v, m))
  }

  /** The `(int)` of a quotient of doubles by zero: an infinite quotient
      saturates, NaN (0/0) becomes 0. */
  function ZeroQuotient(a: int): int
  {
    if a > 0 then IntMax else if a < 0 then IntMin else 0
  }

  /** `(int) Math.floor((double) a / (double) b)`. */
  function FloorDiv(a: int, b: int): int
  {
    if b == 0 then ZeroQuotient(a) else (a as real / b as real).Floor
  }

  /** `(int) Math.ceil((double) n / (double) d)`. */
  function CeilDiv(n: int, d: int): int
  {
    if d == 0 then ZeroQuotient(n) else -((-(n as real / d as real)).Floor)
  }

  /** `(int) ((double) a / (double) b)`: the quotient truncated toward zero. */
  function TruncDiv(a: int, b: int): int
  {
    if b == 0 then ZeroQuotient(a) else Trunc(a as real / b as real)
  }

  /** The value an int field holds: its number, or Integer.MIN_VALUE when
      it is unset. */
  function Raw(o: Option<int>): int
  {
    if o.Some? then o.value else IntMin
  }

  /** Assigning a computed int to a count field: Integer.MIN_VALUE is the
      source's "unset" marker, so storing it unsets the count. */
  function CountOf(v: int): (r: Option<int>)
    ensures r.Some? ==> r.value == v
    ensures r.None? <==> v == IntMin
  {
    if v == IntMin then None else Some(v)
  }

  /** The extent of `n` grid steps of `gi`. */
  function GridSpan(n: int, gi: real): real
  {
    n as real * gi
  }

  function Max(a: int, b: int): (r: int)
    ensures r >= a && r >= b && (r == a || r == b)
  {
    if a >= b then a else b
  }

  // ---------------------------------------------------------------------
  // Lemmas

  /** Scaling the floor of a quotient back: `q*m <= t < (q+1)*m`. */
  lemma FloorScaled(t: real, m: real)
    requires m > 0.0
    ensures (t / m).Floor as real * m <= t < ((t / m).Floor + 1) as real * m
  {
    var x := t / m;
    var q := x.Floor as real;
    assert x * m == t;
    assert q <= x < q + 1.0;
    MulMono(q, x, m);
    MulMonoStrict(x, q + 1.0, m);
    assert t < (q + 1.0) * m;
    assert q + 1.0 == (x.Floor + 1) as real;
  }

  lemma MulMono(a: real, b: real, m: real)
    requires a <= b && m > 0.0
    ensures a * m <= b * m
  {
    assert b * m - a * m == (b - a) * m;
  }

  lemma MulMonoStrict(a: real, b: real, m: real)
    requires a < b && m > 0.0
    ensures a * m < b * m
  {
    assert b * m - a * m == (b - a) * m;
  }

  /** The floored remainder lies in `[0, m)` and leaves a whole multiple. */
  lemma EModRange(t: real, m: real)
    requires m > 0.0
    ensures EMod(t, m) == t - (t / m).Floor as real * m
    ensures 0.0 <= EMod(t, m) < m
  {
    FloorScaled(t, m);
  }

  /** For a non-negative `t` Java's remainder is the floored one, so the
      as-written helpers and the corrected ones agree there. */
  lemma JModNonNegative(t: real, m: real)
    requires t >= 0.0 && m > 0.0
    ensures JMod(t, m) == EMod(t, m)
    ensures CeilAsWritten(t, m) == Ceil(t, m)
    ensures FloorAsWritten(t, m) == Floor(t, m)
  {
    assert t / m >= 0.0;
  }

  /** For a negative `t` the Java remainder is non-positive: `-m < JMod <= 0`. */
  lemma JModNegative(t: real, m: real)
    requires t < 0.0 && m > 0.0
    ensures -m < JMod(t, m) <= 0.0
  {
    var x := t / m;
    assert x * m == t;
    assert x < 0.0;
    var k := Trunc(x) as real;
    assert x <= k < x + 1.0;
    MulMono(x, k, m);
    MulMonoStrict(k, x + 1.0, m);
  }

  /** A whole multiple of `m` is on the grid of step `m`. */
  lemma MultipleOnGrid(k: int, m: real)
    requires m > 0.0
    ensures OnGrid(k as real * m, m)
    ensures (k as real * m) / m == k as real
  {
    var y := (k as real * m) / m;
    assert y * m == k as real * m;
    assert (y - k as real) * m == 0.0;
    assert y == k as real;
  }

  lemma OnGridOf(v: real, k: int, m: real)
    requires m > 0.0 && v == k as real * m
    ensures OnGrid(v, m)
  {
    MultipleOnGrid(k, m);
  }

  /** Spans add up: `k + n` steps reach as far as `k` steps and then `n`. */
  lemma GridSpanLinear(k: int, n: int, m: real)
    ensures GridSpan(k + n, m) == GridSpan(k, m) + GridSpan(n, m)
    ensures GridSpan(k - n, m) == GridSpan(k, m) - GridSpan(n, m)
    ensures GridSpan(1, m) == m
  {
    assert (k + n) as real * m == k as real * m + n as real * m;
    assert (k - n) as real * m == k as real * m - n as real * m;
  }

  /** A whole number of steps lands on the grid. */
  lemma GridSpanOnGrid(k: int, m: real)
    requires m > 0.0
    ensures OnGrid(GridSpan(k, m), m)
  {
    MultipleOnGrid(k, m);
  }

  /** `ceil(t, m)` is the least multiple of `m` strictly greater than `t`,
      so `t < ceil(t, m) <= t + m`, for every `t`. */
  lemma CeilBounds(t: real, m: real)
    requires m > 0.0
    ensures Ceil(t, m) == ((t / m).Floor + 1) as real * m
    ensures t < Ceil(t, m) <= t + m
    ensures OnGrid(Ceil(t, m), m)
  {
    EModRange(t, m);
    OnGridOf(Ceil(t, m), (t / m).Floor + 1, m);
  }

  /** `ceil` is not idempotent: applied to a multiple of `m` (in particular to
      its own result) it moves one whole step up. */
  lemma CeilOfMultiple(k: int, m: real)
    requires m > 0.0
    ensures Ceil(k as real * m, m) == k as real * m + m
  {
    MultipleOnGrid(k, m);
  }

  lemma CeilNotIdempotent(t: real, m: real)
    requires m > 0.0
    ensures Ceil(Ceil(t, m), m) == Ceil(t, m) + m
  {
    CeilBounds(t, m);
    CeilOfMultiple((t / m).Floor + 1, m);
  }

  /** `ceil` commutes with whole steps. */
  lemma CeilShift(t: real, n: int, m: real)
    requires m > 0.0
    ensures Ceil(t + GridSpan(n, m), m) == Ceil(t, m) + GridSpan(n, m)
  {
    var u := t + n as real * m;
    assert u / m == t / m + n as real;
    assert (u / m).Floor == (t / m).Floor + n;
    CeilBounds(t, m);
    CeilBounds(u, m);
  }

  /** `floor(t, m)` leaves `t` unchanged when it lies within the tolerance
      below the next multiple, and otherwise returns the largest multiple of
      `m` not above `t`. */
  lemma FloorBounds(t: real, m: real)
    requires m > 0.0
    ensures m - EMod(t, m) < Tolerance ==> Floor(t, m) == t
    ensures m - EMod(t, m) >= Tolerance ==>
              Floor(t, m) == (t / m).Floor as real * m && Floor(t, m) <= t < Floor(t, m) + m
              && OnGrid(Floor(t, m), m)
    ensures Floor(t, m) <= t
  {
    EModRange(t, m);
    OnGridOf((t / m).Floor as real * m, (t / m).Floor, m);
  }

  /** The corrected `round` snaps `t` to the nearest multiple of `m` (ties
      upward), unless `t` is within the tolerance below one. */
  lemma RoundToNearest(t: real, m: real)
    requires m > 0.0
    requires m - EMod(t, m) >= Tolerance
    ensures OnGrid(Round(t, m), m)
    ensures Round(t, m) - t <= m / 2.0 && t - Round(t, m) < m / 2.0
  {
    EModRange(t, m);
    var q := (t / m).Floor;
    if EMod(t, m) >= m / 2.0 {
      assert Round(t, m) == (q + 1) as real * m;
      OnGridOf(Round(t, m), q + 1, m);
    } else {
      assert Round(t, m) == q as real * m;
      OnGridOf(Round(t, m), q, m);
    }
  }

  /** The corrected `round` snaps to the nearest multiple for a negative
      interval too: the grid of `m` is the grid of `-m`. */
  lemma RoundToNearestNegativeStep(t: real, m: real)
    requires m < 0.0
    requires -m - EMod(t, -m) >= Tolerance
    ensures Round(t, m) == Round(t, -m)
    ensures OnGrid(Round(t, m), m)
    ensures Round(t, m) - t <= -m / 2.0 && t - Round(t, m) < -m / 2.0
  {
    RoundToNearest(t, -m);
    var v := Round(t, -m);
    var k := (v / -m).Floor;
    assert v / m == -(v / -m);
    assert (v / m).Floor == -k;
  }

  /** With the interval -1, 0.7 rounds to 1 in the model (the nearest
      multiple), where `round` as written gives 1.4; and 0.5 ceils to 1,
      where `ceil` as written gives -1, below its argument. */
  lemma NegativeStepExample()
    ensures Round(0.7, -1.0) == 1.0
    ensures RoundAsWritten(0.7, -1.0) == 1.4
    ensures Ceil(0.5, -1.0) == 1.0
    ensures CeilAsWritten(0.5, -1.0) == -1.0
  {
    assert EMod(0.7, 1.0) == 0.7;
    assert Trunc(0.7 / -1.0) == 0;
    assert EMod(0.5, 1.0) == 0.5;
    assert Trunc(0.5 / -1.0) == 0;
  }

  /** The round of Graph.java as written misses the grid: 0.7 on a grid of 1
      becomes 1.4, where the nearest multiple is 1. */
  lemma RoundAsWrittenOffGrid()
    ensures RoundAsWritten(0.7, 1.0) == 1.4
    ensures !OnGrid(RoundAsWritten(0.7, 1.0), 1.0)
    ensures Round(0.7, 1.0) == 1.0
  {
    assert Trunc(0.7 / 1.0) == 0;
    assert JMod(0.7, 1.0) == 0.7;
    assert (1.4 / 1.0).Floor == 1;
    assert EMod(0.7, 1.0) == 0.7;
  }

  /** For a negative value off the grid, Java's truncating remainder makes
      `ceil` as written land one step too high and `floor` as written one
      step too high as well, above the value it should stay below. */
  lemma SnapAsWrittenNegative(t: real, m: real)
    requires t < 0.0 && m > 0.0 && !OnGrid(t, m)
    ensures CeilAsWritten(t, m) == Ceil(t, m) + m
    ensures CeilAsWritten(t, m) > t + m
    ensures m >= Tolerance && m - EMod(t, m) >= Tolerance ==> FloorAsWritten(t, m) == Floor(t, m) + m > t
  {
    var x := t / m;
    assert x * m == t;
    assert x < 0.0 by {
      if x >= 0.0 { MulMono(0.0, x, m); }
    }
    assert x.Floor as real != x;
    assert Trunc(x) == x.Floor + 1;
    assert JMod(t, m) == EMod(t, m) - m;
    EModRange(t, m);
    JModNegative(t, m);
  }

  /** Concretely, on a grid of 1: ceil(-0.5) is 1 and floor(-0.5) is 0 as
      written, where 0 and -1 are meant; round(-0.7) is 0, where -1 is. */
  lemma SnapAsWrittenNegativeExample()
    ensures CeilAsWritten(-0.5, 1.0) == 1.0 && Ceil(-0.5, 1.0) == 0.0
    ensures FloorAsWritten(-0.5, 1.0) == 0.0 && Floor(-0.5, 1.0) == -1.0
    ensures RoundAsWritten(-0.7, 1.0) == 0.0 && Round(-0.7, 1.0) == -1.0
  {
    assert (-0.5 / 1.0).Floor == -1;
    assert Trunc(-0.5 / 1.0) == 0;
    assert (-0.7 / 1.0).Floor == -1;
    assert Trunc(-0.7 / 1.0) == 0;
  }

  /** The quotient conversion used for cell sizes and grid counts: for a
      positive divisor, `r*b <= a < (r+1)*b`. */
  lemma FloorDivBounds(a: int, b: int)
    requires b > 0
    ensures FloorDiv(a, b) * b <= a < (FloorDiv(a, b) + 1) * b
    ensures a < FloorDiv(a, b) * b + b
  {
    FloorScaled(a as real, b as real);
    var q := FloorDiv(a, b);
    assert q as real * b as real == (q * b) as real;
    assert (q + 1) as real * b as real == ((q + 1) * b) as real;
    assert (q + 1) * b == q * b + b;
  }

  /** `getXLargeGridNumbers`: the number of large grids needed to cover `n`
      grids, `(r-1)*d < n <= r*d`. */
  lemma CeilDivBounds(n: int, d: int)
    requires d > 0
    ensures (CeilDiv(n, d) - 1) * d < n <= CeilDiv(n, d) * d
  {
    var x := n as real / d as real;
    FloorScaled(-(n as real), d as real);
    assert -(n as real) / d as real == -x;
    var r := CeilDiv(n, d);
    assert r as real * d as real == (r * d) as real;
    assert (r - 1) as real * d as real == ((r - 1) * d) as real;
  }

  /** `(int) ((double) a / (double) b)` rounds toward zero: for a positive
      divisor it is the floored quotient of a non-negative dividend and the
      ceiled quotient of a negative one. Dividing by zero saturates by the
      sign of the dividend, as every quotient conversion does. */
  lemma TruncDivTowardZero(a: int, b: int)
    ensures b > 0 && a >= 0 ==> TruncDiv(a, b) == FloorDiv(a, b)
    ensures b > 0 && a < 0 ==> TruncDiv(a, b) == CeilDiv(a, b)
    ensures b == 0 ==> TruncDiv(a, b) == FloorDiv(a, b) == CeilDiv(a, b) == ZeroQuotient(a)
  {
    if b > 0 {
      var x := a as real / b as real;
      assert a >= 0 ==> x >= 0.0 by {
        if a >= 0 { MulMono(0.0, a as real, 1.0 / b as real); }
      }
      assert a < 0 ==> x < 0.0 by {
        if a < 0 { MulMonoStrict(a as real, 0.0, 1.0 / b as real); }
      }
    }
  }
}

=== FILE: options.dfy ===
/** The "unset" marker used throughout the model in place of the NaN sentinels
    of the source (Double.NaN for bounds, Integer.MIN_VALUE for counts). */
module Options {

  datatype Option<+T> = None | Some(value: T)
}

=== FILE: series.dfy ===
/** One data series of the view (DataSeries.java): the stored samples, the
    STATIC/DYNAMIC mode switch, the redraw request coalescing and the draw
    loop that walks the samples, clips each segment to the graph rectangle
    and, in DYNAMIC mode, drops the samples that scrolled off the left. */
module Series {

  import opened Options
  import opened SeriesClip

  /** Mode codes: in STATIC mode samples are replaced wholesale, in DYNAMIC
      mode they are appended and x holds the delta time. */
  const StaticGraph: int := 0
  const DynamicGraph: int := 1

  /** Everything a `DataSeries` holds. `invalidatePosts` counts the redraw
      requests posted to the host view. */
  datatype SeriesState = SeriesState(
    points: seq<Point>,
    graphType: int,
    autoInvalidate: bool,
    autoDelete: bool,
    invalidateRequired: bool,
    lineColor: int,
    lineSize: int,
    invalidatePosts: nat)

  // ---------------------------------------------------------------------
  // Specification of the state changes

  /** Posts a redraw request unless one is already pending. */
  function AfterInvalidate(s: SeriesState): SeriesState
  {
    if s.invalidateRequired then s
    else s.(invalidateRequired := true, invalidatePosts := s.invalidatePosts + 1)
  }

  function InvalidateWhen(s: SeriesState, when: bool): SeriesState
  {
    if when then AfterInvalidate(s) else s
  }

  /** `k` invalidations in a row. */
  function Invalidations(s: SeriesState, k: nat): SeriesState
  {
    if k == 0 then s else AfterInvalidate(Invalidations(s, k - 1))
  }

  /** Any mode code is stored (an unknown one is only logged) and the
      samples are dropped. */
  function WithGraphType(s: SeriesState, graphType: int): SeriesState
  {
    s.(graphType := graphType, points := [])
  }

  function Cleared(s: SeriesState): SeriesState
  {
    s.(points := [])
  }

  /** Replacing the samples is refused outside STATIC mode. */
  function WithDataPoints(s: SeriesState, pts: seq<Point>, invalidate: bool): SeriesState
  {
    if s.graphType != StaticGraph then s
    else InvalidateWhen(s.(points := pts), s.autoInvalidate || invalidate)
  }

  /** Appending is refused outside DYNAMIC mode. */
  function WithAppended(s: SeriesState, p: Point, invalidate: bool): SeriesState
  {
    if s.graphType != DynamicGraph then s
    else InvalidateWhen(s.(points := s.points + [p]), s.autoInvalidate || invalidate)
  }

  function WithLineColor(s: SeriesState, color: int): SeriesState
  {
    InvalidateWhen(s.(lineColor := color), s.autoInvalidate)
  }

  function WithLineSize(s: SeriesState, size: int): SeriesState
  {
    InvalidateWhen(s.(lineSize := size), s.autoInvalidate)
  }

  /** The x of the newest sample, 0 when there is none. */
  function LastX(s: SeriesState): real
  {
    if s.points == [] then 0.0 else s.points[|s.points| - 1].x
  }

  /** The x of the oldest sample, 0 when there is none. */
  function FirstX(s: SeriesState): real
  {
    if s.points == [] then 0.0 else s.points[0].x
  }

  /** The pixel rectangle and value range of one draw call. */
  function View(left: int, top: int, right: int, bottom: int,
                xMin: real, yMin: real, xMax: real, yMax: real): Viewport
  {
    Viewport(left as real, top as real, right as real, bottom as real, xMin, yMin, xMax, yMax)
  }

  /** The iteration at which the draw loop stops: the first auto-delete
      point when auto-delete applies, else the end of the walk. */
  function DrawStop(walk: seq<Pos>, left: real, autoDelete: bool): (r: int)
    requires |walk| >= 1
    ensures 1 <= r <= |walk|
  {
    if autoDelete then StopIndex(walk, left, 1) else |walk|
  }

  /** The samples left after a draw that stopped at `stop`: when it stopped
      early, only the `stop - 1` newest samples. */
  function Kept(pts: seq<Point>, stop: int): (r: seq<Point>)
    requires 1 <= stop <= |pts|
    ensures stop < |pts| ==> |r| == stop - 1
  {
    if stop < |pts| then pts[|pts| - stop + 1..] else pts
  }

  function Dynamic(s: SeriesState): bool
  {
    s.graphType == DynamicGraph
  }

  function StopOf(s: SeriesState, v: Viewport): int
    requires NonDegenerate(v) && s.points != []
  {
    DrawStop(Walk(s.points, Dynamic(s), v), v.left, Dynamic(s) && s.autoDelete)
  }

  /** The segments one draw call hands to the canvas. */
  function DrawnSegments(s: SeriesState, v: Viewport): seq<Segment>
    requires NonDegenerate(v)
  {
    if s.points == [] then []
    else Segments(Walk(s.points, Dynamic(s), v), v, StopOf(s, v))
  }

  /** The state after one draw call: nothing changes without samples;
      otherwise the pending redraw is consumed and auto-deleted samples are
      gone. */
  function AfterDraw(s: SeriesState, v: Viewport): SeriesState
    requires NonDegenerate(v)
  {
    if s.points == [] then s
    else s.(points := Kept(s.points, StopOf(s, v)), invalidateRequired := false)
  }

  // ---------------------------------------------------------------------
  // Lemmas

  /** Redraw requests are coalesced: any number of invalidations posts at
      most one request, none if one is pending, and leaves one pending. */
  lemma {:induction false} InvalidationsPostAtMostOnce(s: SeriesState, k: nat)
    ensures Invalidations(s, k).invalidatePosts <= s.invalidatePosts + 1
    ensures s.invalidateRequired ==> Invalidations(s, k) == s
    ensures k > 0 ==> Invalidations(s, k).invalidateRequired
    ensures Invalidations(s, k).points == s.points
  {
    if k > 0 {
      InvalidationsPostAtMostOnce(s, k - 1);
      if Invalidations(s, k - 1).invalidateRequired {
        assert Invalidations(s, k) == Invalidations(s, k - 1);
      } else {
        assert k - 1 == 0;
      }
    }
  }

  /** A draw re-arms invalidation: the next invalidation after drawing a
      non-empty series posts a new request. */
  lemma DrawRearmsInvalidate(s: SeriesState, v: Viewport)
    requires NonDegenerate(v) && s.points != []
    ensures AfterInvalidate(AfterDraw(s, v)).invalidatePosts == s.invalidatePosts + 1
    ensures AfterInvalidate(AfterDraw(s, v)).invalidateRequired
  {
  }

  /** The mode guards: a STATIC series ignores appends and a DYNAMIC one
      ignores wholesale replacement; in its own mode each operation stores
      exactly the given samples. */
  lemma ModeGuards(s: SeriesState, p: Point, pts: seq<Point>, invalidate: bool)
    ensures s.graphType != DynamicGraph <==> WithAppended(s, p, invalidate) == s
    ensures s.graphType != StaticGraph ==> WithDataPoints(s, pts, invalidate) == s
    ensures s.graphType == StaticGraph ==> WithDataPoints(s, pts, invalidate).points == pts
    ensures s.graphType == DynamicGraph ==> WithAppended(s, p, invalidate).points == s.points + [p]
  {
    if s.graphType == DynamicGraph {
      assert |WithAppended(s, p, invalidate).points| == |s.points| + 1;
    }
  }

  /** A mode change always leaves an empty series, in either mode. */
  lemma ModeChangeEmpties(s: SeriesState, graphType: int, p: Point)
    ensures WithGraphType(s, graphType).points == []
    ensures graphType == DynamicGraph ==> WithAppended(WithGraphType(s, graphType), p, false).points == [p]
  {
  }

  /** `SumX` distributes over an appended sample. */
  lemma {:induction false} SumXAppend(s: seq<Point>, p: Point)
    ensures SumX(s + [p]) == SumX(s) + p.x
    decreases |s|
  {
    if s != [] {
      assert (s + [p])[1..] == s[1..] + [p];
      SumXAppend(s[1..], p);
    }
  }

  /** Appending a sample with delta `d` shifts every older sample `d` to the
      left on the DYNAMIC time axis. */
  lemma AppendShiftsOlderSamples(pts: seq<Point>, p: Point, i: int)
    requires 0 <= i < |pts|
    ensures XValue(pts + [p], true, i + 1) == XValue(pts, true, i) - p.x
    ensures YValue(pts + [p], true, i + 1) == YValue(pts, true, i)
  {
    var n := |pts|;
    assert (pts + [p])[n + 1 - (i + 1)..] == pts[n - i..] + [p];
    SumXAppend(pts[n - i..], p);
  }

  /** In DYNAMIC mode an appended sample is drawn at the right edge, at the
      height of its own y value. */
  lemma AppendedDrawnAtRight(s: SeriesState, p: Point, invalidate: bool, v: Viewport)
    requires NonDegenerate(v) && s.graphType == DynamicGraph
    ensures Walk(WithAppended(s, p, invalidate).points, true, v)[0] == Pos(v.right, PixelY(v, p.y))
  {
    var pts := WithAppended(s, p, invalidate).points;
    ModeGuards(s, p, [], invalidate);
    DynamicNewestAtRight(pts, v);
  }

  /** The newest x after an append is the appended delta. */
  lemma LastXAfterAppend(s: SeriesState, y: real, dTime: real, invalidate: bool)
    requires s.graphType == DynamicGraph
    ensures LastX(WithAppended(s, Point(dTime, y), invalidate)) == dTime
  {
    ModeGuards(s, Point(dTime, y), [], invalidate);
  }

  /** After a draw that auto-deleted, the remaining samples are exactly
      those drawn before the stop, at unchanged positions; without
      auto-delete the samples are untouched. */
  lemma DrawKeepsVisiblePrefix(s: SeriesState, v: Viewport)
    requires NonDegenerate(v) && s.points != [] && Dynamic(s)
    ensures var stop := StopOf(s, v);
            Walk(AfterDraw(s, v).points, true, v) == Walk(s.points, true, v)[..stop - 1] || stop == |s.points|
    ensures !s.autoDelete ==> AfterDraw(s, v).points == s.points
  {
    var stop := StopOf(s, v);
    if stop < |s.points| {
      TruncationKeepsNewestPositions(s.points, stop - 1, v);
    }
  }

  /** A draw over no samples emits nothing and changes nothing; a draw
      that may not auto-delete leaves the samples as they are. */
  lemma DrawOnlyDeletesWhenAsked(s: SeriesState, v: Viewport)
    requires NonDegenerate(v)
    ensures s.points == [] ==> DrawnSegments(s, v) == [] && AfterDraw(s, v) == s
    ensures !(Dynamic(s) && s.autoDelete) ==> AfterDraw(s, v).points == s.points
    ensures AfterDraw(s, v).(points := s.points, invalidateRequired := s.invalidateRequired) == s
  {
  }

  /** Auto-delete fires only where both ends of a pair are left of the
      rectangle, and never for the pairs drawn before it. */
  lemma DrawStopsAtFirstHiddenPair(s: SeriesState, v: Viewport)
    requires NonDegenerate(v) && s.points != [] && Dynamic(s) && s.autoDelete
    ensures var w := Walk(s.points, true, v);
            var stop := StopOf(s, v);
            (stop < |w| ==> w[stop].x < v.left && w[stop - 1].x < v.left)
            && forall j :: 1 <= j < stop ==> !(w[j].x < v.left && w[j - 1].x < v.left)
  {
    var w := Walk(s.points, true, v);
    var stop := StopOf(s, v);
    assert stop == StopIndex(w, v.left, 1);
    StopIndexIsFirst(w, v.left, 1);
    forall j | 1 <= j < stop
      ensures !(w[j].x < v.left && w[j - 1].x < v.left)
    {
      assert !BothLeft(w, v.left, j);
    }
  }

  /** `clear` empties the buffer and nothing else; the style setters store
      their value and change nothing else but the redraw request they post
      with auto-invalidate. */
  lemma SeriesSettersEffect(s: SeriesState, color: int, size: int)
    ensures Cleared(s).points == [] && Cleared(s).(points := s.points) == s
    ensures var t := WithLineColor(s, color);
            t.lineColor == color && t.(lineColor := s.lineColor) == InvalidateWhen(s, s.autoInvalidate)
    ensures var t := WithLineSize(s, size);
            t.lineSize == size && t.(lineSize := s.lineSize) == InvalidateWhen(s, s.autoInvalidate)
  {
  }

  /** One step of the draw loop: the sample of iteration `i` (newest first
      in DYNAMIC mode, where the running x value drops by the delta of the
      sample after it) and its pixel position. */
  method NextPosition(pts: seq<Point>, dynamic: bool, v: Viewport, i: int, xValue: real)
    returns (cur: Pos, xNext: real)
    requires NonDegenerate(v) && 0 <= i < |pts|
    requires dynamic ==> xValue == if i == 0 then 0.0 else XValue(pts, true, i - 1)
    ensures dynamic ==> xNext == XValue(pts, true, i)
    ensures cur == Walk(pts, dynamic, v)[i]
  {
    var n := |pts|;
    var p := if dynamic then pts[n - 1 - i] else pts[i];
    xNext := xValue;
    if dynamic {
      if i != 0 {
        xNext := xValue - pts[n - i].x;
        DynamicXStep(pts, i);
      } else {
        assert pts[n..] == [];
      }
    } else {
      xNext := p.x;
    }
    cur := Pos(PixelX(v, dynamic, xNext), PixelY(v, p.y));
  }

  /** The loop of the draw call: walks the samples (newest first in
      DYNAMIC mode), maps each to a pixel, clips each pair to the viewport
      and, when auto-deleting, stops at the first pair hidden left of it.
      Returns the segments drawn and the iteration it stopped at. */
  method DrawPass(pts: seq<Point>, dynamic: bool, autoDeleting: bool, v: Viewport)
    returns (segments: seq<Segment>, stop: int)
    requires NonDegenerate(v) && pts != []
    ensures stop == DrawStop(Walk(pts, dynamic, v), v.left, autoDeleting)
    ensures segments == Segments(Walk(pts, dynamic, v), v, stop)
  {
    var n := |pts|;
    ghost var walk := Walk(pts, dynamic, v);
    segments := [];
    var lastX, lastY := 0.0, 0.0;
    var xValue := 0.0;
    var i := 0;
    while i < n
      invariant 0 <= i <= n
      invariant segments == Segments(walk, v, i)
      invariant i > 0 ==> Pos(lastX, lastY) == walk[i - 1]
      invariant dynamic ==> xValue == if i == 0 then 0.0 else XValue(pts, true, i - 1)
      invariant autoDeleting ==> NoHiddenPair(walk, v.left, 1, i)
    {
      var cur;
      cur, xValue := NextPosition(pts, dynamic, v, i, xValue);
      if i != 0 {
        var prev := Pos(lastX, lastY);
        if autoDeleting && cur.x < v.left && prev.x < v.left {
          assert BothLeft(walk, v.left, i);
          StopIndexUnique(walk, v.left, 1, i);
          return segments, i;
        }
        if autoDeleting {
          NoHiddenPairGrows(walk, v.left, 1, i);
        }
        assert prev == walk[i - 1] && cur == walk[i];
        match Clip(prev, cur, v)
        case Some(s) => segments := segments + [s];
        case None =>
      }
      lastX, lastY := cur.x, cur.y;
      i := i + 1;
    }
    if autoDeleting {
      StopIndexUnique(walk, v.left, 1, n);
    }
    stop := n;
  }

  // ---------------------------------------------------------------------
  // The series object

  class DataSeries {
    var points: seq<Point>
    var graphType: int
    var autoInvalidate: bool
    var autoDelete: bool
    var invalidateRequired: bool
    var lineColor: int
    var lineSize: int
    var invalidatePosts: nat

    function State(): SeriesState
      reads this
    {
      SeriesState(points, graphType, autoInvalidate, autoDelete, invalidateRequired,
                  lineColor, lineSize, invalidatePosts)
    }

    /** A new series is DYNAMIC, empty, auto-invalidating, auto-deleting
        and waiting for its first draw. */
    constructor ()
      ensures State() == SeriesState([], DynamicGraph, true, true, true, 0, 0, 0)
    {
      points := [];
      graphType := DynamicGraph;
      autoInvalidate := true;
      autoDelete := true;
      invalidateRequired := true;
      lineColor := 0;
      lineSize := 0;
      invalidatePosts := 0;
    }

    method Invalidate()
      modifies this
      ensures State() == AfterInvalidate(old(State()))
    {
      if !invalidateRequired {
        invalidateRequired := true;
        invalidatePosts := invalidatePosts + 1;
      }
    }

    method SetGraphType(t: int)
      modifies this
      ensures State() == WithGraphType(old(State()), t)
    {
      graphType := t;
      points := [];
    }

    method Clear()
      modifies this
      ensures State() == Cleared(old(State()))
    {
      points := [];
    }

    method SetDataPoints(pts: seq<Point>, invalidate: bool)
      modifies this
      ensures State() == WithDataPoints(old(State()), pts, invalidate)
    {
      if graphType != StaticGraph {
        return;
      }
      points := pts;
      if autoInvalidate || invalidate {
        Invalidate();
      }
    }

    method AppendDataPoint(p: Point, invalidate: bool)
      modifies this
      ensures State() == WithAppended(old(State()), p, invalidate)
    {
      if graphType != DynamicGraph {
        return;
      }
      points := points + [p];
      if autoInvalidate || invalidate {
        Invalidate();
      }
    }

    /** Appends a sample whose x is the delta time `dTime`. */
    method AppendDataValue(yValue: real, dTime: real, invalidate: bool)
      modifies this
      ensures State() == WithAppended(old(State()), Point(dTime, yValue), invalidate)
    {
      if graphType != DynamicGraph {
        return;
      }
      points := points + [Point(dTime, yValue)];
      if autoInvalidate || invalidate {
        Invalidate();
      }
    }

    method SetLineColor(color: int)
      modifies this
      ensures State() == WithLineColor(old(State()), color)
    {
      lineColor := color;
      if autoInvalidate {
        Invalidate();
      }
    }

    method SetLineSize(size: int)
      modifies this
      ensures State() == WithLineSize(old(State()), size)
    {
      lineSize := size;
      if autoInvalidate {
        Invalidate();
      }
    }

    method SetAutoInvalidate(b: bool)
      modifies this
      ensures State() == old(State()).(autoInvalidate := b)
    {
      autoInvalidate := b;
    }

    method SetAutoDeleteOutBoundsPoints(b: bool)
      modifies this
      ensures State() == old(State()).(autoDelete := b)
    {
      autoDelete := b;
    }

    /** The largest stored y, 0 when there are no samples. */
    method GetYMax() returns (r: real)
      ensures points == [] ==> r == 0.0
      ensures points != [] ==> (exists i :: 0 <= i < |points| && r == points[i].y)
      ensures forall i :: 0 <= i < |points| ==> points[i].y <= r
    {
      if |points| == 0 {
        return 0.0;
      }
      var best: Option<real> := None;  // negative infinity
      var k := 0;
      while k < |points|
        invariant 0 <= k <= |points|
        invariant best.None? <==> k == 0
        invariant best.Some? ==> exists i :: 0 <= i < k && best.value == points[i].y
        invariant best.Some? ==> forall i :: 0 <= i < k ==> points[i].y <= best.value
      {
        if best.None? || points[k].y > best.value {
          best := Some(points[k].y);
        }
        k := k + 1;
      }
      r := best.value;
    }

    /** The smallest stored y, 0 when there are no samples. */
    method GetYMin() returns (r: real)
      ensures points == [] ==> r == 0.0
      ensures points != [] ==> (exists i :: 0 <= i < |points| && r == points[i].y)
      ensures forall i :: 0 <= i < |points| ==> r <= points[i].y
    {
      if |points| == 0 {
        return 0.0;
      }
      var best: Option<real> := None;  // positive infinity
      var k := 0;
      while k < |points|
        invariant 0 <= k <= |points|
        invariant best.None? <==> k == 0
        invariant best.Some? ==> exists i :: 0 <= i < k && best.value == points[i].y
        invariant best.Some? ==> forall i :: 0 <= i < k ==> best.value <= points[i].y
      {
        if best.None? || points[k].y < best.value {
          best := Some(points[k].y);
        }
        k := k + 1;
      }
      r := best.value;
    }

    /** The x of the newest sample (a delta time in DYNAMIC mode). */
    method GetXMax() returns (r: real)
      ensures r == LastX(State())
    {
      if |points| == 0 {
        return 0.0;
      }
      r := points[|points| - 1].x;
    }

    /** The x of the oldest sample. */
    method GetXMin() returns (r: real)
      ensures r == FirstX(State())
    {
      if |points| == 0 {
        return 0.0;
      }
      r := points[0].x;
    }

    /** Draws the series into the rectangle (left, top)-(right, bottom) for
        the value range [graphXMin, graphXMax] x [graphYMin, graphYMax] and
        returns the segments handed to the canvas, in drawing order. */
    method Draw(left: int, top: int, right: int, bottom: int,
                graphXMin: real, graphYMin: real, graphXMax: real, graphYMax: real)
      returns (segments: seq<Segment>)
      requires graphXMax != graphXMin && graphYMax != graphYMin
      modifies this
      ensures var v := View(left, top, right, bottom, graphXMin, graphYMin, graphXMax, graphYMax);
              segments == DrawnSegments(old(State()), v) && State() == AfterDraw(old(State()), v)
    {
      var v := View(left, top, right, bottom, graphXMin, graphYMin, graphXMax, graphYMax);
      if points == [] {
        return [];
      }
      var dynamic := graphType == DynamicGraph;
      var stop;
      segments, stop := DrawPass(points, dynamic, dynamic && autoDelete, v);
      if stop < |points| {
        points := points[|points| - stop + 1..];
      }
      invalidateRequired := false;
    }
  }
}

=== FILE: series_clip.dfy ===
/** The pure part of `DataSeries.draw` (DataSeries.java): the order in which
    samples are walked, the value-to-pixel mapping, the clipping of one
    segment against the viewport, and the segments a whole walk emits. The
    imperative loop itself is `Series.DataSeries.Draw`. */
module SeriesClip {

  import opened Options

  /** A stored sample. In DYNAMIC mode `x` is the time since the previous
      sample, in STATIC mode an absolute value. */
  datatype Point = Point(x: real, y: real)

  /** A pixel position. */
  datatype Pos = Pos(x: real, y: real)

  /** A line handed to the canvas, from the previous to the current point. */
  datatype Segment = Segment(from: Pos, to: Pos)

  /** The pixel rectangle `[left,right] x [top,bottom]` and the visible value
      range `[xMin,xMax] x [yMin,yMax]` of one draw call. */
  datatype Viewport = Viewport(left: real, top: real, right: real, bottom: real,
                               xMin: real, yMin: real, xMax: real, yMax: real)

  /** The pixel mapping is defined only for non-degenerate value ranges. */
  predicate NonDegenerate(v: Viewport)
  {
    v.xMax != v.xMin && v.yMax != v.yMin
  }

  /** A quotient used for interpolation. A zero denominator (where IEEE
      arithmetic yields an infinite or NaN coordinate) gives 0. */
  function Ratio(a: real, b: real): real
  {
    if b == 0.0 then 0.0 else a / b
  }

  // ---------------------------------------------------------------------
  // Walk order and pixel mapping

  /** The sum of the x fields of `s`. */
  function SumX(s: seq<Point>): real
  {
    if s == [] then 0.0 else s[0].x + SumX(s[1..])
  }

  /** The x value at iteration `i`. DYNAMIC: minus the summed deltas of the
      `i` newest samples, so the newest sample is at 0. STATIC: the stored x. */
  function XValue(pts: seq<Point>, dynamic: bool, i: int): real
    requires 0 <= i < |pts|
  {
    if dynamic then -SumX(pts[|pts| - i..]) else pts[i].x
  }

  /** The y value at iteration `i`: DYNAMIC walks newest to oldest. */
  function YValue(pts: seq<Point>, dynamic: bool, i: int): real
    requires 0 <= i < |pts|
  {
    if dynamic then pts[|pts| - 1 - i].y else pts[i].y
  }

  /** In DYNAMIC mode the left end of the x range is forced to
      `-(xMax - xMin)`, which anchors x value 0 at the right edge. */
  function EffectiveXMin(v: Viewport, dynamic: bool): real
  {
    if dynamic then -(v.xMax - v.xMin) else v.xMin
  }

  function PixelX(v: Viewport, dynamic: bool, x: real): real
    requires NonDegenerate(v)
  {
    v.left + ((x - EffectiveXMin(v, dynamic)) / (v.xMax - v.xMin)) * (v.right - v.left)
  }

  function PixelY(v: Viewport, y: real): real
    requires NonDegenerate(v)
  {
    v.bottom - ((y - v.yMin) / (v.yMax - v.yMin)) * (v.bottom - v.top)
  }

  /** The unclipped pixel position of every iteration of the draw loop. */
  function Walk(pts: seq<Point>, dynamic: bool, v: Viewport): (w: seq<Pos>)
    requires NonDegenerate(v)
    ensures |w| == |pts|
  {
    seq(|pts|, i requires 0 <= i < |pts| =>
      Pos(PixelX(v, dynamic, XValue(pts, dynamic, i)), PixelY(v, YValue(pts, dynamic, i))))
  }

  // ---------------------------------------------------------------------
  // Clipping one segment

  /** The y at which the segment from `cur` (left of `left`) to `prev`
      crosses the left edge, exactly as written in DataSeries.java: the
      interpolation is based at the previous point's y. */
  function LeftEdgeYAsWritten(prev: Pos, cur: Pos, left: real): real
  {
    prev.y + Ratio(left - cur.x, prev.x - cur.x) * (prev.y - cur.y)
  }

  /** The corrected left-edge crossing, based at the current point's y; the
      rest of the model uses this definition. */
  function LeftEdgeY(prev: Pos, cur: Pos, left: real): real
  {
    cur.y + Ratio(left - cur.x, prev.x - cur.x) * (prev.y - cur.y)
  }

  /** The y at which the segment from `prev` to `cur` (right of `right`)
      crosses the right edge. */
  function RightEdgeY(prev: Pos, cur: Pos, right: real): real
  {
    prev.y + Ratio(right - prev.x, cur.x - prev.x) * (cur.y - prev.y)
  }

  /** The current point after the left/right edge tests, or None when both
      points are beyond the same vertical edge. */
  function ClampCurrentX(prev: Pos, cur: Pos, v: Viewport): Option<Pos>
  {
    if cur.x < v.left then
      if prev.x < v.left then None else Some(Pos(v.left, LeftEdgeY(prev, cur, v.left)))
    else if cur.x > v.right then
      if prev.x > v.right then None
      else Some(Pos(v.right, RightEdgeY(prev, cur, v.right)))
    else Some(cur)
  }

  /** The current point after the top/bottom tests applied to the result of
      the vertical-edge tests, or None when the previous point is beyond the
      same horizontal edge. */
  function ClampCurrentY(prev: Pos, c: Pos, v: Viewport): Option<Pos>
  {
    if c.y < v.top then
      if prev.y < v.top then None
      else Some(Pos(prev.x + Ratio(v.top - prev.y, c.y - prev.y) * (c.x - prev.x), v.top))
    else if c.y > v.bottom then
      if prev.y > v.bottom then None
      else Some(Pos(prev.x + Ratio(v.bottom - prev.y, c.y - prev.y) * (c.x - prev.x), v.bottom))
    else Some(c)
  }

  /** The previous point, clamped toward the already clamped current point
      `c`: at the left edge, then at the top; the bottom test looks at `c`,
      not at the previous point, and there is no right-edge test. */
  function ClampPrevious(prev: Pos, c: Pos, v: Viewport): Pos
  {
    var p := if prev.x < v.left
             then Pos(v.left, prev.y + Ratio(v.left - prev.x, c.x - prev.x) * (c.y - prev.y))
             else prev;
    if p.y < v.top then Pos(p.x + Ratio(v.top - p.y, c.y - p.y) * (c.x - p.x), v.top)
    else if c.y > v.bottom then Pos(p.x + Ratio(v.bottom - p.y, c.y - p.y) * (c.x - p.x), v.bottom)
    else p
  }

  /** The segment drawn for the pair (previous, current) of raw positions. */
  function Clip(prev: Pos, cur: Pos, v: Viewport): Option<Segment>
  {
    match ClampCurrentX(prev, cur, v)
    case None => None
    case Some(cx) =>
      match ClampCurrentY(prev, cx, v)
      case None => None
      case Some(c) => Some(Segment(ClampPrevious(prev, c, v), c))
  }

  // ---------------------------------------------------------------------
  // A whole walk

  /** The segments emitted for the pairs (j-1, j) with 1 <= j < k. */
  function Segments(walk: seq<Pos>, v: Viewport, k: int): seq<Segment>
    requires k <= |walk|
    decreases k
  {
    if k <= 1 then []
    else
      Segments(walk, v, k - 1) +
      match Clip(walk[k - 2], walk[k - 1], v)
      case None => []
      case Some(s) => [s]
  }

  /** Both the current and the previous raw position lie left of the viewport. */
  predicate BothLeft(walk: seq<Pos>, left: real, i: int)
    requires 1 <= i < |walk|
  {
    walk[i].x < left && walk[i - 1].x < left
  }

  /** The first iteration at or after `i` at which auto-delete fires, or
      `|walk|` if there is none. */
  function StopIndex(walk: seq<Pos>, left: real, i: int): (r: int)
    requires 1 <= i <= |walk|
    ensures i <= r <= |walk|
    decreases |walk| - i
  {
    if i == |walk| then i
    else if BothLeft(walk, left, i) then i
    else StopIndex(walk, left, i + 1)
  }

  /** No pair j with i <= j < k has both ends left of the viewport. */
  predicate NoHiddenPair(walk: seq<Pos>, left: real, i: int, k: int)
    requires 1 <= i && k <= |walk|
  {
    forall j :: i <= j < k ==> !BothLeft(walk, left, j)
  }

  // ---------------------------------------------------------------------
  // Lemmas

  /** `StopIndex` finds the first hidden pair: every pair before it is
      visible, and it is hidden unless it is the end of the walk. */
  lemma {:induction false} StopIndexIsFirst(walk: seq<Pos>, left: real, i: int)
    requires 1 <= i <= |walk|
    ensures StopIndex(walk, left, i) < |walk| ==> BothLeft(walk, left, StopIndex(walk, left, i))
    ensures NoHiddenPair(walk, left, i, StopIndex(walk, left, i))
    decreases |walk| - i
  {
    if i < |walk| && !BothLeft(walk, left, i) {
      StopIndexIsFirst(walk, left, i + 1);
    }
  }

  /** Conversely, an index before which every pair is visible and which is
      hidden or the end of the walk is the `StopIndex`. */
  lemma {:induction false} StopIndexUnique(walk: seq<Pos>, left: real, i: int, k: int)
    requires 1 <= i <= k <= |walk|
    requires NoHiddenPair(walk, left, i, k)
    requires k < |walk| ==> BothLeft(walk, left, k)
    ensures StopIndex(walk, left, i) == k
    decreases k - i
  {
    if i < k {
      assert !BothLeft(walk, left, i);
      StopIndexUnique(walk, left, i + 1, k);
    }
  }

  /** A visible pair extends a run of visible pairs by one. */
  lemma NoHiddenPairGrows(walk: seq<Pos>, left: real, i: int, k: int)
    requires 1 <= i <= k < |walk| && NoHiddenPair(walk, left, i, k) && !BothLeft(walk, left, k)
    ensures NoHiddenPair(walk, left, i, k + 1)
  {
  }

  /** The DYNAMIC x value satisfies the loop's update
      `x_value -= x of the sample at size - i`. */
  lemma DynamicXStep(pts: seq<Point>, i: int)
    requires 1 <= i < |pts|
    ensures XValue(pts, true, i) == XValue(pts, true, i - 1) - pts[|pts| - i].x
  {
    var n := |pts|;
    assert pts[n - i..][1..] == pts[n - i + 1..];
  }

  /** DYNAMIC x values never increase along the walk when the deltas are
      non-negative: the walk goes back in time. */
  lemma {:induction false} DynamicXDecreasing(pts: seq<Point>, i: int, j: int)
    requires 0 <= i <= j < |pts|
    requires forall k :: 0 <= k < |pts| ==> pts[k].x >= 0.0
    ensures XValue(pts, true, j) <= XValue(pts, true, i)
    decreases j - i
  {
    if i < j {
      DynamicXStep(pts, j);
      DynamicXDecreasing(pts, i, j - 1);
    }
  }

  /** In DYNAMIC mode the newest sample is drawn at the right edge. */
  lemma DynamicNewestAtRight(pts: seq<Point>, v: Viewport)
    requires NonDegenerate(v) && |pts| > 0
    ensures Walk(pts, true, v)[0].x == v.right
  {
    assert pts[|pts|..] == [];
    assert XValue(pts, true, 0) == 0.0;
    var d := v.xMax - v.xMin;
    assert (0.0 - EffectiveXMin(v, true)) / d == 1.0;
  }

  /** After auto-delete keeps the newest `k` samples, those samples keep the
      positions they had: the new walk is a prefix of the old one. */
  lemma TruncationKeepsNewestPositions(pts: seq<Point>, k: int, v: Viewport)
    requires NonDegenerate(v) && 0 <= k <= |pts|
    ensures Walk(pts[|pts| - k..], true, v) == Walk(pts, true, v)[..k]
  {
    var n := |pts|;
    var kept := pts[n - k..];
    forall j | 0 <= j < k
      ensures XValue(kept, true, j) == XValue(pts, true, j)
      ensures YValue(kept, true, j) == YValue(pts, true, j)
    {
      assert kept[k - j..] == pts[n - j..];
      assert kept[k - 1 - j] == pts[n - 1 - j];
    }
  }

  lemma Between(a: real, b: real, s: real)
    requires 0.0 <= s <= 1.0
    ensures a <= b ==> a <= a + s * (b - a) <= b
    ensures b <= a ==> b <= a + s * (b - a) <= a
  {
    if a <= b {
      MulNonNegative(s, b - a);
      MulNonNegative(1.0 - s, b - a);
      assert (1.0 - s) * (b - a) == (b - a) - s * (b - a);
    } else {
      MulNonNegative(s, a - b);
      MulNonNegative(1.0 - s, a - b);
      assert s * (b - a) == -(s * (a - b));
      assert (1.0 - s) * (a - b) == (a - b) - s * (a - b);
    }
  }

  lemma MulNonNegative(x: real, y: real)
    requires x >= 0.0 && y >= 0.0
    ensures x * y >= 0.0
  {
  }

  lemma RatioUnit(a: real, b: real)
    requires 0.0 <= a <= b && b > 0.0
    ensures 0.0 <= Ratio(a, b) <= 1.0
  {
    assert Ratio(a, b) * b == a;
  }

  /** The corrected crossing lies on the line through both points, between
      their y values. */
  lemma LeftEdgeYOnSegment(prev: Pos, cur: Pos, left: real)
    requires cur.x < left <= prev.x
    ensures (LeftEdgeY(prev, cur, left) - cur.y) * (prev.x - cur.x) == (prev.y - cur.y) * (left - cur.x)
    ensures cur.y <= prev.y ==> cur.y <= LeftEdgeY(prev, cur, left) <= prev.y
    ensures prev.y <= cur.y ==> prev.y <= LeftEdgeY(prev, cur, left) <= cur.y
  {
    var d := prev.x - cur.x;
    var dy := prev.y - cur.y;
    var s := Ratio(left - cur.x, d);
    assert s * d == left - cur.x;
    var e := LeftEdgeY(prev, cur, left) - cur.y;
    assert e == s * dy;
    assert e * d == (s * dy) * d;
    assert (s * dy) * d == dy * (s * d);
    RatioUnit(left - cur.x, d);
    Between(cur.y, prev.y, s);
  }

  /** The crossing as written leaves that line: for the previous point
      (10, 10) and the current point (-10, 0) it yields y = 15 at the left
      edge 0, where the segment crosses at y = 5. */
  lemma LeftEdgeYAsWrittenOffSegment()
    ensures LeftEdgeYAsWritten(Pos(10.0, 10.0), Pos(-10.0, 0.0), 0.0) == 15.0
    ensures LeftEdgeY(Pos(10.0, 10.0), Pos(-10.0, 0.0), 0.0) == 5.0
  {
    assert Ratio(10.0, 20.0) == 0.5;
  }

  /** The right-edge crossing also stays between the two y values. */
  lemma RightEdgeYBetween(prev: Pos, cur: Pos, right: real)
    requires prev.x <= right < cur.x
    ensures prev.y <= cur.y ==> prev.y <= RightEdgeY(prev, cur, right) <= cur.y
    ensures cur.y <= prev.y ==> cur.y <= RightEdgeY(prev, cur, right) <= prev.y
  {
    RatioUnit(right - prev.x, cur.x - prev.x);
    Between(prev.y, cur.y, Ratio(right - prev.x, cur.x - prev.x));
  }

  /** After the vertical-edge tests the current point's y still lies between
      the y values of the two raw points. */
  lemma ClampCurrentXBetween(prev: Pos, cur: Pos, v: Viewport)
    requires ClampCurrentX(prev, cur, v).Some?
    ensures var c := ClampCurrentX(prev, cur, v).value;
            (prev.y <= cur.y ==> prev.y <= c.y <= cur.y) && (cur.y <= prev.y ==> cur.y <= c.y <= prev.y)
  {
    if cur.x < v.left {
      LeftEdgeYOnSegment(prev, cur, v.left);
    } else if cur.x > v.right {
      RightEdgeYBetween(prev, cur, v.right);
    }
  }

  /** No segment is drawn when both raw points lie beyond the same edge. */
  lemma ClipSkipsSameSide(prev: Pos, cur: Pos, v: Viewport)
    requires v.left <= v.right && v.top <= v.bottom
    requires || (prev.x < v.left && cur.x < v.left)
             || (prev.x > v.right && cur.x > v.right)
             || (prev.y < v.top && cur.y < v.top)
             || (prev.y > v.bottom && cur.y > v.bottom)
    ensures Clip(prev, cur, v).None?
  {
    if ClampCurrentX(prev, cur, v).Some? {
      ClampCurrentXBetween(prev, cur, v);
    }
  }

  /** Whatever is drawn ends at a current point whose y lies within
      `[top, bottom]`. */
  lemma ClipEndsWithinRows(prev: Pos, cur: Pos, v: Viewport)
    requires v.top <= v.bottom && Clip(prev, cur, v).Some?
    ensures v.top <= Clip(prev, cur, v).value.to.y <= v.bottom
  {
  }

  /** The previous point is not clamped at the bottom: from (50, 150) to
      (50, 50) in the rectangle [0,100] x [0,100] the drawn segment starts
      50 pixels below the bottom edge. */
  lemma ClipKeepsPreviousBelowBottom()
    ensures Clip(Pos(50.0, 150.0), Pos(50.0, 50.0), Viewport(0.0, 0.0, 100.0, 100.0, 0.0, 0.0, 1.0, 1.0))
            == Some(Segment(Pos(50.0, 150.0), Pos(50.0, 50.0)))
  {
  }

  /** At most one segment per consecutive pair is emitted. */
  lemma {:induction false} SegmentsAtMostPairs(walk: seq<Pos>, v: Viewport, k: int)
    requires 1 <= k <= |walk|
    ensures |Segments(walk, v, k)| <= k - 1
    decreases k
  {
    if k > 1 {
      SegmentsAtMostPairs(walk, v, k - 1);
    }
  }

  /** Every emitted segment ends within `[top, bottom]`. */
  lemma {:induction false} SegmentsEndWithinRows(walk: seq<Pos>, v: Viewport, k: int)
    requires k <= |walk| && v.top <= v.bottom
    ensures forall s :: s in Segments(walk, v, k) ==> v.top <= s.to.y <= v.bottom
    decreases k
  {
    if k > 1 {
      SegmentsEndWithinRows(walk, v, k - 1);
      if Clip(walk[k - 2], walk[k - 1], v).Some? {
        ClipEndsWithinRows(walk[k - 2], walk[k - 1], v);
      }
    }
  }

  /** In STATIC mode the pixel mapping is the affine map of the value
      range onto the rectangle, with y flipped: `xMin` goes to `left` and
      `xMax` to `right`, `yMin` to `bottom` and `yMax` to `top`, and in
      between the pixel offset is proportional to the value offset. */
  lemma StaticPixel(v: Viewport, x: real, y: real)
    requires NonDegenerate(v)
    ensures (PixelX(v, false, x) - v.left) * (v.xMax - v.xMin) == (x - v.xMin) * (v.right - v.left)
    ensures (v.bottom - PixelY(v, y)) * (v.yMax - v.yMin) == (y - v.yMin) * (v.bottom - v.top)
    ensures x == v.xMin ==> PixelX(v, false, x) == v.left
    ensures x == v.xMax ==> PixelX(v, false, x) == v.right
    ensures y == v.yMin ==> PixelY(v, y) == v.bottom
    ensures y == v.yMax ==> PixelY(v, y) == v.top
  {
    var dx, dy := v.xMax - v.xMin, v.yMax - v.yMin;
    var sx, sy := (x - v.xMin) / dx, (y - v.yMin) / dy;
    assert sx * dx == x - v.xMin;
    assert sy * dy == y - v.yMin;
    assert PixelX(v, false, x) - v.left == sx * (v.right - v.left);
    assert v.bottom - PixelY(v, y) == sy * (v.bottom - v.top);
    assert (sx * (v.right - v.left)) * dx == (sx * dx) * (v.right - v.left);
    assert (sy * (v.bottom - v.top)) * dy == (sy * dy) * (v.bottom - v.top);
  }

  /** A value inside the range is mapped inside the rectangle. */
  lemma StaticPixelInside(v: Viewport, x: real, y: real)
    requires NonDegenerate(v)
    ensures v.xMin < v.xMax && v.left <= v.right && v.xMin <= x <= v.xMax ==> v.left <= PixelX(v, false, x) <= v.right
    ensures v.yMin < v.yMax && v.top <= v.bottom && v.yMin <= y <= v.yMax ==> v.top <= PixelY(v, y) <= v.bottom
  {
    if v.xMin < v.xMax && v.xMin <= x <= v.xMax {
      ScaledBetween(v.xMin, v.xMax, x, v.left, v.right);
    }
    if v.yMin < v.yMax && v.yMin <= y <= v.yMax {
      var r := (y - v.yMin) / (v.yMax - v.yMin);
      ScaledBetween(v.yMin, v.yMax, y, v.bottom, v.top);
      assert r * (v.top - v.bottom) == -(r * (v.bottom - v.top));
    }
  }

  /** `t` in `[a, b]` scaled onto the interval from `lo` to `hi` lands in
      it. */
  lemma ScaledBetween(a: real, b: real, t: real, lo: real, hi: real)
    requires a < b && a <= t <= b
    ensures lo <= hi ==> lo <= lo + ((t - a) / (b - a)) * (hi - lo) <= hi
    ensures hi <= lo ==> hi <= lo + ((t - a) / (b - a)) * (hi - lo) <= lo
  {
    RatioUnit(t - a, b - a);
    Between(lo, hi, Ratio(t - a, b - a));
  }

  /** In STATIC mode iteration `i` draws sample `i` (not the `i`-th newest)
      at its affine image, and a sample inside the value range is drawn
      inside the rectangle. */
  lemma StaticWalkAt(pts: seq<Point>, v: Viewport, i: int)
    requires NonDegenerate(v) && 0 <= i < |pts|
    ensures var p := Walk(pts, false, v)[i];
            && (p.x - v.left) * (v.xMax - v.xMin) == (pts[i].x - v.xMin) * (v.right - v.left)
            && (v.bottom - p.y) * (v.yMax - v.yMin) == (pts[i].y - v.yMin) * (v.bottom - v.top)
            && (v.xMin < v.xMax && v.left <= v.right && v.xMin <= pts[i].x <= v.xMax ==> v.left <= p.x <= v.right)
            && (v.yMin < v.yMax && v.top <= v.bottom && v.yMin <= pts[i].y <= v.yMax ==> v.top <= p.y <= v.bottom)
  {
    var x, y := pts[i].x, pts[i].y;
    assert Walk(pts, false, v)[i] == Pos(PixelX(v, false, x), PixelY(v, y));
    StaticPixel(v, x, y);
    StaticPixelInside(v, x, y);
  }

  /** The static example's window: the value range [0,2] x [0,1] drawn in
      the rectangle (0,0)-(100,100) maps every sample (x, y) to the pixel
      (50x, 100 - 100y); the samples (0,0), (1,1), (2,0) land on (0,100),
      (50,0), (100,100). */
  lemma StaticExampleWalk(pts: seq<Point>, i: int)
    requires 0 <= i < |pts|
    ensures Walk(pts, false, StaticView())[i] == Pos(50.0 * pts[i].x, 100.0 - 100.0 * pts[i].y)
  {
  }

  function StaticView(): Viewport
  {
    Viewport(0.0, 0.0, 100.0, 100.0, 0.0, 0.0, 2.0, 1.0)
  }

  /** All three pixels of the static example are inside, so both pairs are
      drawn unchanged. */
  lemma StaticExampleSegments()
    ensures Segments([Pos(0.0, 100.0), Pos(50.0, 0.0), Pos(100.0, 100.0)], StaticView(), 3)
            == [Segment(Pos(0.0, 100.0), Pos(50.0, 0.0)), Segment(Pos(50.0, 0.0), Pos(100.0, 100.0))]
  {
    var w := [Pos(0.0, 100.0), Pos(50.0, 0.0), Pos(100.0, 100.0)];
    assert Clip(w[0], w[1], StaticView()) == Some(Segment(w[0], w[1]));
    assert Clip(w[1], w[2], StaticView()) == Some(Segment(w[1], w[2]));
  }

  /** The streaming example: deltas 0, 0.02, 0.02 give the x values 0,
      -0.02 and -0.04 along the walk, newest first. */
  lemma DynamicExample(pts: seq<Point>)
    requires pts == [Point(0.0, 1.0), Point(0.02, 2.0), Point(0.02, 1.0)]
    ensures XValue(pts, true, 0) == 0.0 && XValue(pts, true, 1) == -0.02 && XValue(pts, true, 2) == -0.04
  {
    assert pts[3..] == [];
    assert pts[2..] == [Point(0.02, 1.0)];
    assert pts[1..] == [Point(0.02, 2.0), Point(0.02, 1.0)];
  }
}
